=== FILE: README.md ===
# Falcon monitoring core in Dafny

Falcon is a monitoring backend for Windows server estates. It keeps an
inventory of servers together with their services, scheduled tasks, IIS
application pools and sites, log files, log entries and metric points. It
also holds alerts and their notifications, users with role assignments,
maintenance windows and the collectors that report in. This project models:

- the domain entities and the way their methods change them in place;
- the in-memory repository: its queries, its writes and the server-deletion
  and task-removal cascades;
- the application service's rules:
  - alert creation, acknowledgement and closing;
  - collector heartbeats;
  - user creation with roles;
  - parsing of enum names;
  - the server-detail summaries and the recent-alerts panel;
- one cycle of each background loop: the notification dispatcher and the
  collector heartbeat monitor.

Layout, one module per file:

| file | module | models |
|---|---|---|
| `common.dfy` | `Common` | ids, ticks, `Option`, ASCII case-insensitive comparison, `Enum.TryParse` by name |
| `lists.dfy` | `Lists` | the LINQ and `List` operations the code uses: `Where`, `RemoveAll`+`Add`, `OrderBy`, `Skip`/`Take` |
| `alerting.dfy` | `Alerting` | `Alert`, `Notification`, the notification delivery ledger, the alert status lifecycle |
| `inventory.dfy` | `Inventory` | `Server`, `MonitoredService`, `ScheduledTask` and the child records |
| `admin.dfy` | `Admin` | `User`, `RoleAssignment`, `MaintenanceWindow`, `Collector` |
| `queries.dfy` | `Queries` | the repository's read queries as functions over the enumerated values |
| `store.dfy` | `Store` | `InMemoryMonitoringRepository` as a class holding one map for each of its eighteen dictionaries |
| `service.dfy` | `Service` | `MonitoringService`: parsing, summaries, recent alerts, the read-modify-write operations |
| `hosted.dfy` | `HostedServices` | one cycle of `NotificationDispatchService` and of `CollectorHeartbeatMonitor` |

Entities that the code updates in place are classes. Their immutable
properties are `const`, and each method's `modifies` clause names the fields
it assigns. Records that are only ever constructed are datatypes. The
repository's dictionaries are maps from id to entity reference, as in the
C# code. Its invariant `Valid()` says that every entity sits under its own
id. Dictionary enumeration order is unspecified, so every listing is stated
over an arbitrary enumeration of the keys (`Enumerates`). The results are
then proved sorted and complete whatever that order is.

Paths below are relative to the repository root.

## Model

| member | source | states |
|---|---|---|
| `Common.TryParseName` | src/Falcon.Application/Services/MonitoringService.cs:520-528 | a parsed value is one of the enum's values and its name equals the input ignoring case; no value is found exactly when no name matches |
| `Common.TryParseNameRoundTrip` | src/Falcon.Application/Services/MonitoringService.cs:520-558 | when the names are pairwise different ignoring case, each value's own name, in any letter case, parses back to that value |
| `Common.Int32` | src/Falcon.Infrastructure/Repositories/InMemoryMonitoringRepository.cs:67 | unchecked C# `int` arithmetic: the result lies in `[-2^31, 2^31)`, is congruent to the mathematical value modulo 2^32, and equals it when it fits |
| `Lists.Filter` | src/Falcon.Infrastructure/Repositories/InMemoryMonitoringRepository.cs:310-343 | `Where` keeps exactly the elements that satisfy the predicate, no more of each than there were |
| `Lists.FilterComplement` | src/Falcon.Application/Services/MonitoringService.cs:578-580 | counting with a predicate and with its negation adds up to the total |
| `Lists.FilterDisjoint` | src/Falcon.Application/Services/MonitoringService.cs:562-564 | counts of two exclusive predicates add up to at most the total |
| `Lists.FilterImplies` | src/Falcon.Application/Services/MonitoringService.cs:563-565 | a predicate that implies another counts no more elements |
| `Lists.FilterNone` | src/Falcon.Application/Services/MonitoringService.cs:565 | a predicate that no element satisfies counts zero |
| `Lists.FilterAll` | src/Falcon.Application/Services/MonitoringService.cs:563 | a predicate that every element satisfies keeps the whole list |
| `Lists.FilterDistinct` | src/Falcon.Infrastructure/Repositories/InMemoryMonitoringRepository.cs:310-343 | filtering a list without repeats gives a list without repeats |
| `Lists.FilterAppend` | src/Falcon.Infrastructure/Repositories/InMemoryMonitoringRepository.cs:310-343 | filtering distributes over concatenation |
| `Lists.RemoveKey` | src/Falcon.Domain/Entities/Server.cs:121-124 | `RemoveAll(x => x.Id == id)` leaves no element with that id, keeps every element with another id, and adds nothing |
| `Lists.RemoveKeyAbsent` | src/Falcon.Domain/Entities/Server.cs:121-124 | removing an id that no element carries leaves the list unchanged |
| `Lists.RemoveKeyAppend` | src/Falcon.Domain/Entities/Server.cs:140-143 | removal works part by part: what is kept from a prefix comes before what is kept from the rest |
| `Lists.RemoveKeyKeepsOrder` | src/Falcon.Domain/Entities/Server.cs:121-124 | any two kept elements appear in the result in the same relative order as before |
| `Lists.RemoveKeyUnique` | src/Falcon.Domain/Entities/Server.cs:140-143 | removing by key keeps ids unique |
| `Lists.Upsert` | src/Falcon.Domain/Entities/User.cs:37-41 | `RemoveAll` then `Add`: the result is the removal by the new key followed by the new element, which is last; every element with another key stays |
| `Lists.UpsertKeepsOrder` | src/Falcon.Domain/Entities/Server.cs:111-115 | the elements with other keys keep their relative order, ahead of the new one |
| `Lists.UpsertMembers` | src/Falcon.Domain/Entities/User.cs:37-41 | after the add-or-replace every element is the new one or an earlier element with another key |
| `Lists.UpsertKeepsKey` | src/Falcon.Domain/Entities/User.cs:37-41 | a key present before the add-or-replace is still present after it |
| `Lists.UpsertAbsent` | src/Falcon.Domain/Entities/User.cs:37-41 | with the key absent, the add-or-replace is a plain append |
| `Lists.UpsertUnique` | src/Falcon.Domain/Entities/User.cs:37-41 | after `AddRole` there is exactly one assignment per role id, and the one for the added role is the new one |
| `Lists.UpsertLength` | src/Falcon.Domain/Entities/User.cs:39-40 | re-adding an existing key keeps the count; adding a new key grows it by one |
| `Lists.FilterCountKey` | src/Falcon.Domain/Entities/User.cs:39-40 | with unique keys, at most one element carries a given key |
| `Lists.AppendIfAbsent` | src/Falcon.Domain/Entities/Alert.cs:51-57 | an id already present changes nothing; a new id is appended at the end |
| `Lists.PermutationDistinct` | src/Falcon.Infrastructure/Repositories/InMemoryMonitoringRepository.cs:66 | reordering a list without repeats gives a list without repeats |
| `Lists.DistinctMultiplicity` | src/Falcon.Infrastructure/Repositories/InMemoryMonitoringRepository.cs:66 | a list without repeats holds each element at most once |
| `Lists.Firsts` | src/Falcon.Infrastructure/Repositories/InMemoryMonitoringRepository.cs:447 | undecorating keeps the length and takes each pair's first component |
| `Lists.Insert` | src/Falcon.Infrastructure/Repositories/InMemoryMonitoringRepository.cs:66 | insertion into a sorted list adds exactly one element |
| `Lists.SortBy` | src/Falcon.Infrastructure/Repositories/InMemoryMonitoringRepository.cs:66 | `OrderBy` returns a permutation of its input |
| `Lists.InsertSorted` | src/Falcon.Infrastructure/Repositories/InMemoryMonitoringRepository.cs:66 | insertion keeps a sorted list sorted and adds exactly the new element |
| `Lists.SortBySorted` | src/Falcon.Infrastructure/Repositories/InMemoryMonitoringRepository.cs:66 | the result of `OrderBy` is sorted by the key |
| `Lists.SortByMembers` | src/Falcon.Infrastructure/Repositories/InMemoryMonitoringRepository.cs:66 | `OrderBy` keeps exactly the same elements |
| `Lists.SortByDistinct` | src/Falcon.Infrastructure/Repositories/InMemoryMonitoringRepository.cs:66 | `OrderBy` of a list without repeats has no repeats |
| `Lists.SortPairs` | src/Falcon.Infrastructure/Repositories/InMemoryMonitoringRepository.cs:447 | sorting decorated pairs keeps the same pairs, sorted by their second component |
| `Lists.TakeSortedIsTop` | src/Falcon.Infrastructure/Repositories/InMemoryMonitoringRepository.cs:175-179 | after sort then `Take`, every element left out ranks no higher than every element kept |
| `Lists.IntOrdersArePreorders` | src/Falcon.Infrastructure/Repositories/InMemoryMonitoringRepository.cs:345 | ascending and descending order on timestamps are total preorders |
| `Lists.Take` | src/Falcon.Infrastructure/Repositories/InMemoryMonitoringRepository.cs:178 | `Take(n)` is a prefix of length at most `max(n, 0)` |
| `Lists.Skip` | src/Falcon.Infrastructure/Repositories/InMemoryMonitoringRepository.cs:67 | `Skip(n)` is the suffix after the first `n` |
| `Lists.PageOffset` | src/Falcon.Infrastructure/Repositories/InMemoryMonitoringRepository.cs:67 | the page offset is the C# `int` product `(max(page,1)-1)*max(pageSize,1)`: equal to the product when that fits in an `int`, otherwise the product wrapped modulo 2^32, which may be negative |
| `Lists.Paginate` | src/Falcon.Infrastructure/Repositories/InMemoryMonitoringRepository.cs:67 | a page is the slice starting at the page offset, or at 0 when the wrapped offset is not positive (`Skip` of a count at or below 0), at most `max(pageSize,1)` long |
| `Lists.WrappedOffsetIsFirstPage` | src/Falcon.Infrastructure/Repositories/InMemoryMonitoringRepository.cs:67 | whenever the offset wraps to 0 or below, the page asked for is the first page |
| `Lists.PageOffsetWraps` | src/Falcon.Infrastructure/Repositories/InMemoryMonitoringRepository.cs:67 | page 3 with page size 2^30: the offset wraps to `int.MinValue` and the page is the first three items, not an empty page |
| `Lists.PageOf` | src/Falcon.Infrastructure/Repositories/InMemoryMonitoringRepository.cs:67 | for an index below `int.MaxValue`, the page holding element `i` is an `int` numbered from 1, its offset does not wrap, and its window of `max(pageSize,1)` elements starting at the page offset contains index `i` |
| `Lists.PaginateKeepsOrder` | src/Falcon.Infrastructure/Repositories/InMemoryMonitoringRepository.cs:66-67 | a page of a sorted list is sorted, and a page of a list without repeats has none |
| `Lists.TakeKeepsOrder` | src/Falcon.Infrastructure/Repositories/InMemoryMonitoringRepository.cs:177-178 | `Take` keeps order and distinctness |
| `Lists.OnSomePage` | src/Falcon.Infrastructure/Repositories/InMemoryMonitoringRepository.cs:66-68 | every element of a list of at most `int.MaxValue` elements (a .NET list's capacity) appears on some page between 1 and `int.MaxValue` |
| `Lists.PageContains` | src/Falcon.Infrastructure/Repositories/InMemoryMonitoringRepository.cs:67 | element `i` is on page `PageOf(i)`, at its distance from that page's offset |
| `Alerting.RecordAllCount` | src/Falcon.Domain/Entities/Notification.cs:39-44 | after N calls to `UpdateStatus` the attempt count is the initial count plus N, with the status and time of the last call |
| `Alerting.RecordAllMonotone` | src/Falcon.Domain/Entities/Notification.cs:43 | the attempt count never decreases along a sequence of calls |
| `Alerting.Notification.constructor` | src/Falcon.Domain/Entities/Notification.cs:8-32 | stores every argument verbatim, status, attempt count and last attempt included |
| `Alerting.Notification.UpdateStatus` | src/Falcon.Domain/Entities/Notification.cs:39-44 | sets status and last attempt, adds exactly one to the attempt count, and is one `Record` step of the ledger; id, alert, channel, recipient and payload are constants |
| `Alerting.AcknowledgeIdempotent` | src/Falcon.Application/Services/MonitoringService.cs:340 | acknowledging twice is acknowledging once |
| `Alerting.AcknowledgeThenClose` | src/Falcon.Application/Services/MonitoringService.cs:340-354 | acknowledge then close gives the same status and resolution time as close alone |
| `Alerting.AcknowledgeAfterClose` | src/Falcon.Application/Services/MonitoringService.cs:340-354 | acknowledging a closed alert reopens its status to acknowledged but keeps the close time |
| `Alerting.Alert.constructor` | src/Falcon.Domain/Entities/Alert.cs:8-45 | stores the arguments, with no resolution time, no notifications and no related logs |
| `Alerting.Alert.AddRelatedLog` | src/Falcon.Domain/Entities/Alert.cs:51-57 | appends the id only when absent, so related log ids stay distinct |
| `Alerting.Alert.UpdateMessage` | src/Falcon.Domain/Entities/Alert.cs:64-68 | replaces only message and severity |
| `Alerting.Alert.UpdateStatus` | src/Falcon.Domain/Entities/Alert.cs:75-79 | sets status and resolution time exactly to its arguments, with no guard on the previous status, and nothing else |
| `Alerting.Alert.AddNotification` | src/Falcon.Domain/Entities/Alert.cs:85-88 | appends exactly one notification at the end |
| `Inventory.MonitoredService.constructor` | src/Falcon.Domain/Entities/ServerAggregate.cs:200-214 | stores the arguments, with no last change and no events |
| `Inventory.MonitoredService.UpdateState` | src/Falcon.Domain/Entities/ServerAggregate.cs:239-243 | sets only current state and last change |
| `Inventory.MonitoredService.UpdateDesiredState` | src/Falcon.Domain/Entities/ServerAggregate.cs:249-252 | sets only the desired state |
| `Inventory.MonitoredService.UpdateCriticality` | src/Falcon.Domain/Entities/ServerAggregate.cs:258-261 | sets only the critical flag |
| `Inventory.MonitoredService.AddEvent` | src/Falcon.Domain/Entities/ServerAggregate.cs:267-270 | appends exactly one event at the end |
| `Inventory.ScheduledTask.constructor` | src/Falcon.Domain/Entities/ScheduledTask.cs:6-33 | stores the arguments, with no schedule, no runs and no last result |
| `Inventory.ScheduledTask.UpdateSchedule` | src/Falcon.Domain/Entities/ScheduledTask.cs:39-43 | sets only the schedule description and next run time; runs are unchanged |
| `Inventory.ScheduledTask.RecordRun` | src/Falcon.Domain/Entities/ScheduledTask.cs:49-54 | appends the run, sets the last run time to its end time or else its start time, and the last result to the result's name |
| `Inventory.ScheduledTask.SetEnabled` | src/Falcon.Domain/Entities/ScheduledTask.cs:60-63 | changes only the enabled flag |
| `Inventory.FailureNameIdentifies` | src/Falcon.Domain/Entities/ServerAggregate.cs:352-357 | the result name `RecordRun` stores equals "Failure" ignoring case exactly when the run failed |
| `Inventory.MergeTags` | src/Falcon.Domain/Entities/Server.cs:76-85 | every previous tag stays in place, every input tag ends up present ignoring case, only input tags are appended, and tags stay distinct ignoring case |
| `Inventory.Server.constructor` | src/Falcon.Domain/Entities/Server.cs:8-60 | stores the arguments, with empty child lists |
| `Inventory.Server.UpdateMetadata` | src/Falcon.Domain/Entities/Server.cs:65-86 | overwrites display name, environment, address and operating system; merges tags when given and leaves them alone when null |
| `Inventory.Server.AddService` | src/Falcon.Domain/Entities/Server.cs:111-115 | the services become the `Upsert` by id: one service with that id, last, the others kept in their order (`UpsertKeepsOrder`) |
| `Inventory.Server.RemoveService` | src/Falcon.Domain/Entities/Server.cs:121-124 | the services become the `RemoveKey` of the id: the others kept in order (`RemoveKeyKeepsOrder`), unchanged when the id is absent (`RemoveKeyAbsent`) |
| `Inventory.Server.AddScheduledTask` | src/Falcon.Domain/Entities/Server.cs:130-134 | the tasks become the `Upsert` by id: one task with that id, last, the others kept in their order |
| `Inventory.Server.RemoveScheduledTask` | src/Falcon.Domain/Entities/Server.cs:140-143 | the tasks become the `RemoveKey` of the id: the others kept in order, unchanged when the id is absent |
| `Inventory.Server.AddAppPool` | src/Falcon.Domain/Entities/Server.cs:149-153 | the pools become the `Upsert` by id: one pool with that id, last, the others kept in their order |
| `Inventory.Server.AddIisSite` | src/Falcon.Domain/Entities/Server.cs:159-163 | the sites become the `Upsert` by id: one site with that id, last, the others kept in their order |
| `Inventory.Server.AddLogFile` | src/Falcon.Domain/Entities/Server.cs:169-173 | the log files become the `Upsert` by id: one log file with that id, last, the others kept in their order |
| `Inventory.Server.AddMetricPoint` | src/Falcon.Domain/Entities/Server.cs:179-182 | appends without deduplication |
| `Admin.User.constructor` | src/Falcon.Domain/Entities/User.cs:6-21 | stores the arguments, with no display name and no roles |
| `Admin.User.UpdateProfile` | src/Falcon.Domain/Entities/User.cs:27-31 | sets only display name and email |
| `Admin.User.AddRole` | src/Falcon.Domain/Entities/User.cs:37-41 | the assignments become the `Upsert` by role id: one assignment per role, the new one last, the others kept in their order |
| `Admin.MaintenanceWindow.constructor` | src/Falcon.Domain/Entities/MaintenanceWindow.cs:6-20 | stores the arguments, with an empty server scope |
| `Admin.MaintenanceWindow.SetServerScope` | src/Falcon.Domain/Entities/MaintenanceWindow.cs:26-30 | the scope becomes exactly the given ids, duplicates included |
| `Admin.MaintenanceWindow.Update` | src/Falcon.Domain/Entities/MaintenanceWindow.cs:39-45 | sets name, start, end and muted; the scope is not in its frame |
| `Admin.Collector.constructor` | src/Falcon.Domain/Entities/AlertingEntities.cs:203-209 | stores the arguments, never seen and without configuration |
| `Admin.Collector.ApplyConfiguration` | src/Falcon.Domain/Entities/AlertingEntities.cs:227-230 | changes only the configuration |
| `Admin.Collector.UpdateLastSeen` | src/Falcon.Domain/Entities/AlertingEntities.cs:236-239 | last seen becomes non-null and equal to the argument |
| `Admin.Collector.UpdateMetadata` | src/Falcon.Domain/Entities/AlertingEntities.cs:246-250 | changes only name and type |
| `Queries.TextFilter` | src/Falcon.Infrastructure/Repositories/InMemoryMonitoringRepository.cs:59 | a null search, or one made only of white space as `char.IsWhiteSpace` defines it, imposes no filter |
| `Queries.EnvironmentFilter` | src/Falcon.Infrastructure/Repositories/InMemoryMonitoringRepository.cs:54-57 | the environment filter applies only when the string is non-blank and `Enum.TryParse` by name succeeds: the filter's environment has the string as its name ignoring case, and no filter means no name matched (the numeric, padded and comma-list forms are left out) |
| `Queries.FilterServers` | src/Falcon.Infrastructure/Repositories/InMemoryMonitoringRepository.cs:52-64 | keeps exactly the servers matching the environment and the hostname or display-name search |
| `Queries.ListServers` | src/Falcon.Infrastructure/Repositories/InMemoryMonitoringRepository.cs:66-68 | the total is the filtered count, independent of paging and of the collation; a page holds at most `max(pageSize,1)` servers |
| `Queries.ListServersSound` | src/Falcon.Infrastructure/Repositories/InMemoryMonitoringRepository.cs:52-68 | every listed server is enumerated and matches both filters, the page is in host-name order under the collation (the string comparer `OrderBy` uses), and no server is listed twice |
| `Queries.ListedServerMatches` | src/Falcon.Infrastructure/Repositories/InMemoryMonitoringRepository.cs:52-67 | any one listed server is enumerated and passes both filters |
| `Queries.ListServersComplete` | src/Falcon.Infrastructure/Repositories/InMemoryMonitoringRepository.cs:52-68 | with at most `int.MaxValue` servers, every matching server is on some page between 1 and `int.MaxValue` |
| `Queries.SearchLogs` | src/Falcon.Infrastructure/Repositories/InMemoryMonitoringRepository.cs:345-348 | the total is the number of matching entries; a page holds at most `max(pageSize,1)` |
| `Queries.SearchLogsSound` | src/Falcon.Infrastructure/Repositories/InMemoryMonitoringRepository.cs:310-348 | every returned entry satisfies every supplied filter, and entries are newest first |
| `Queries.SearchLogsComplete` | src/Falcon.Infrastructure/Repositories/InMemoryMonitoringRepository.cs:345-348 | with at most `int.MaxValue` entries, every matching entry is on some page between 1 and `int.MaxValue` |
| `Queries.SearchLogsUnfiltered` | src/Falcon.Infrastructure/Repositories/InMemoryMonitoringRepository.cs:312-343 | null or empty filters impose nothing: the total is every entry |
| `Queries.FilterAlerts` | src/Falcon.Infrastructure/Repositories/InMemoryMonitoringRepository.cs:374-394 | keeps exactly the alerts matching status, severity, server and source type |
| `Queries.ListAlerts` | src/Falcon.Infrastructure/Repositories/InMemoryMonitoringRepository.cs:396-397 | no paging: the total equals the item count |
| `Queries.ListAlertsSound` | src/Falcon.Infrastructure/Repositories/InMemoryMonitoringRepository.cs:374-397 | every listed alert matches every supplied filter |
| `Queries.ListAlertsComplete` | src/Falcon.Infrastructure/Repositories/InMemoryMonitoringRepository.cs:374-397 | every matching alert is listed |
| `Queries.ListAlertsOrdered` | src/Falcon.Infrastructure/Repositories/InMemoryMonitoringRepository.cs:396 | alerts are newest first, without repeats |
| `Queries.ListServiceEvents` | src/Falcon.Infrastructure/Repositories/InMemoryMonitoringRepository.cs:175-179 | at most `max(limit,1)` events |
| `Queries.ListServiceEventsSound` | src/Falcon.Infrastructure/Repositories/InMemoryMonitoringRepository.cs:176 | only that service's events |
| `Queries.ListServiceEventsOrdered` | src/Falcon.Infrastructure/Repositories/InMemoryMonitoringRepository.cs:177 | newest first |
| `Queries.ListServiceEventsTop` | src/Falcon.Infrastructure/Repositories/InMemoryMonitoringRepository.cs:175-179 | no event of the service left out is newer than one returned |
| `Queries.OptGeIsPreorder` | src/Falcon.Infrastructure/Repositories/InMemoryMonitoringRepository.cs:425 | descending order on nullable times, null last, is a total preorder |
| `Queries.WithLastAttempt` | src/Falcon.Infrastructure/Repositories/InMemoryMonitoringRepository.cs:425 | decorates each notification with its last-attempt time |
| `Queries.ListNotifications` | src/Falcon.Infrastructure/Repositories/InMemoryMonitoringRepository.cs:424-426 | as many notifications as belong to the alert |
| `Queries.ListNotificationsShape` | src/Falcon.Infrastructure/Repositories/InMemoryMonitoringRepository.cs:424-426 | the result is a reordering of the alert's notifications, latest attempt first |
| `Queries.ListNotificationsSound` | src/Falcon.Infrastructure/Repositories/InMemoryMonitoringRepository.cs:424 | only that alert's notifications |
| `Queries.ListNotificationsComplete` | src/Falcon.Infrastructure/Repositories/InMemoryMonitoringRepository.cs:424 | every notification of the alert is listed |
| `Queries.WithName` | src/Falcon.Infrastructure/Repositories/InMemoryMonitoringRepository.cs:447 | decorates each collector with its name |
| `Queries.ListCollectors` | src/Falcon.Infrastructure/Repositories/InMemoryMonitoringRepository.cs:447 | as many collectors as enumerated |
| `Queries.ListCollectorsOrdered` | src/Falcon.Infrastructure/Repositories/InMemoryMonitoringRepository.cs:447 | only enumerated collectors are listed, in name order under the collation |
| `Queries.ListCollectorsComplete` | src/Falcon.Infrastructure/Repositories/InMemoryMonitoringRepository.cs:447 | every enumerated collector is listed |
| `Queries.ListCollectorsDistinct` | src/Falcon.Infrastructure/Repositories/InMemoryMonitoringRepository.cs:447 | a collector enumerated once is listed once |
| `Queries.ListCollectorsSpec` | src/Falcon.Infrastructure/Repositories/InMemoryMonitoringRepository.cs:447 | exactly the enumerated collectors, in name order under the collation, without repeats |
| `Store.Purge` | src/Falcon.Infrastructure/Repositories/InMemoryMonitoringRepository.cs:96-99 | drops exactly the entries owned by the server and keeps the others unchanged |
| `Store.PurgeKeyed` | src/Falcon.Infrastructure/Repositories/InMemoryMonitoringRepository.cs:96-129 | purging keeps every entity under its own id |
| `Store.RemoveOwned` | src/Falcon.Infrastructure/Repositories/InMemoryMonitoringRepository.cs:96-99 | the `foreach`/`TryRemove` loop removes exactly what `Purge` drops |
| `Store.ValuesOf` | src/Falcon.Infrastructure/Repositories/InMemoryMonitoringRepository.cs:52 | `Values` in the order of the enumerated keys |
| `Store.EnumerateKeys` | src/Falcon.Infrastructure/Repositories/InMemoryMonitoringRepository.cs:52 | some enumeration of all keys, each once |
| `Store.ValuesOfMembers` | src/Falcon.Infrastructure/Repositories/InMemoryMonitoringRepository.cs:52 | the enumerated values are exactly the map's values |
| `Store.KeyedValuesDistinct` | src/Falcon.Infrastructure/Repositories/InMemoryMonitoringRepository.cs:52 | when every entity sits under its own id, enumerated values do not repeat |
| `Store.DistinctCardinality` | src/Falcon.Infrastructure/Repositories/InMemoryMonitoringRepository.cs:68 | an enumeration is as long as the map |
| `Store.DistinctSetSize` | src/Falcon.Infrastructure/Repositories/InMemoryMonitoringRepository.cs:68 | a list without repeats has as many distinct elements as entries |
| `Store.Repository.constructor` | src/Falcon.Infrastructure/Repositories/InMemoryMonitoringRepository.cs:16-33 | every dictionary is created empty and every entity sits under its own id |
| `Store.Repository.ListServers` | src/Falcon.Infrastructure/Repositories/InMemoryMonitoringRepository.cs:43-69 | the query over some enumeration of the servers: matching, in host-name order under the collation, paged, without repeats |
| `Store.Repository.GetServer` | src/Falcon.Infrastructure/Repositories/InMemoryMonitoringRepository.cs:71-76 | the stored server, or null when the id is unknown |
| `Store.Repository.AddServer` | src/Falcon.Infrastructure/Repositories/InMemoryMonitoringRepository.cs:78-83 | inserts or overwrites by id |
| `Store.Repository.UpdateServer` | src/Falcon.Infrastructure/Repositories/InMemoryMonitoringRepository.cs:85-90 | inserts or overwrites by id |
| `Store.Repository.DeleteServer` | src/Falcon.Infrastructure/Repositories/InMemoryMonitoringRepository.cs:92-132 | removes the server and every service, task, app pool, site, log file, log entry and metric point of it, and nothing else; task runs, service events and alerts are not in its frame |
| `Store.Repository.Cascade` | src/Falcon.Infrastructure/Repositories/InMemoryMonitoringRepository.cs:95-129 | the removal loops in order, each keeping entities under their own ids |
| `Store.Repository.DeleteServerInventory` | src/Falcon.Infrastructure/Repositories/InMemoryMonitoringRepository.cs:95-114 | the server, services, tasks, app pools and sites of the server are removed |
| `Store.Repository.DeleteServerLogs` | src/Falcon.Infrastructure/Repositories/InMemoryMonitoringRepository.cs:116-129 | the log files, log entries and metric points of the server are removed |
| `Store.Repository.AddService` | src/Falcon.Infrastructure/Repositories/InMemoryMonitoringRepository.cs:148-159 | stores the service and, when its server is known, adds it to that server's list; every entity stays under its own id |
| `Store.Repository.RemoveService` | src/Falcon.Infrastructure/Repositories/InMemoryMonitoringRepository.cs:161-170 | removes the service and, when present and its server known, removes it from that server's list; every entity stays under its own id |
| `Store.Repository.ListServiceEvents` | src/Falcon.Infrastructure/Repositories/InMemoryMonitoringRepository.cs:172-182 | at most `max(limit,1)` of the service's events, newest first, none left out newer than one returned |
| `Store.Repository.AddScheduledTask` | src/Falcon.Infrastructure/Repositories/InMemoryMonitoringRepository.cs:198-209 | stores the scheduled task and, when its server is known, adds it to that server's list; every entity stays under its own id |
| `Store.Repository.RemoveScheduledTask` | src/Falcon.Infrastructure/Repositories/InMemoryMonitoringRepository.cs:211-225 | removes the scheduled task from the map and from its server, and removes every run of it |
| `Store.Repository.DropTask` | src/Falcon.Infrastructure/Repositories/InMemoryMonitoringRepository.cs:214-222 | the map removals of that cascade, keeping entities under their own ids |
| `Store.Repository.SearchLogs` | src/Falcon.Infrastructure/Repositories/InMemoryMonitoringRepository.cs:297-349 | the search over some enumeration of the entries: every result matches every filter, newest first, paged; with `Queries.SearchLogsComplete` every matching entry of that enumeration is on some page |
| `Store.Repository.ListAlerts` | src/Falcon.Infrastructure/Repositories/InMemoryMonitoringRepository.cs:365-398 | exactly the matching stored alerts, newest first, total equal to count, without repeats |
| `Store.Repository.GetAlert` | src/Falcon.Infrastructure/Repositories/InMemoryMonitoringRepository.cs:400-405 | the stored alert, or null |
| `Store.Repository.AddAlert` | src/Falcon.Infrastructure/Repositories/InMemoryMonitoringRepository.cs:407-412 | inserts or overwrites by id; other keys unchanged |
| `Store.Repository.UpdateAlert` | src/Falcon.Infrastructure/Repositories/InMemoryMonitoringRepository.cs:414-419 | inserts or overwrites by id; other keys unchanged |
| `Store.Repository.ListNotifications` | src/Falcon.Infrastructure/Repositories/InMemoryMonitoringRepository.cs:421-428 | exactly the alert's stored notifications, latest attempt first |
| `Store.Repository.ListCollectors` | src/Falcon.Infrastructure/Repositories/InMemoryMonitoringRepository.cs:444-449 | exactly the stored collectors, in name order under the collation, without repeats |
| `Store.Repository.GetCollector` | src/Falcon.Infrastructure/Repositories/InMemoryMonitoringRepository.cs:451-456 | the stored collector, or null |
| `Store.Repository.UpsertCollector` | src/Falcon.Infrastructure/Repositories/InMemoryMonitoringRepository.cs:458-463 | inserts or overwrites by id |
| `Store.Repository.AddUser` | src/Falcon.Infrastructure/Repositories/InMemoryMonitoringRepository.cs:472-477 | inserts or overwrites by id |
| `Store.Repository.UpsertMaintenanceWindow` | src/Falcon.Infrastructure/Repositories/InMemoryMonitoringRepository.cs:500-505 | inserts or overwrites by id |
| `Store.Repository.UpsertLogPattern` | src/Falcon.Infrastructure/Repositories/InMemoryMonitoringRepository.cs:358-363 | inserts or overwrites the log pattern by id, other keys unchanged, every entity still under its own id |
| `Store.Repository.UpsertNotificationChannel` | src/Falcon.Infrastructure/Repositories/InMemoryMonitoringRepository.cs:437-442 | inserts or overwrites the channel by id and returns the channel it was given |
| `Store.Repository.AddRole` | src/Falcon.Infrastructure/Repositories/InMemoryMonitoringRepository.cs:486-491 | inserts or overwrites the role by id, other keys unchanged |
| `Service.FirstLettersDiffer` | src/Falcon.Domain/Enumerations/MonitoringEnums.cs:17-106 | names whose first letters differ ignoring case are different names |
| `Service.EnvironmentNamesDistinct` | src/Falcon.Domain/Enumerations/MonitoringEnums.cs:17-22 | environment names are pairwise different ignoring case |
| `Service.DesiredStateNamesDistinct` | src/Falcon.Domain/Enumerations/MonitoringEnums.cs:27-31 | desired-state names are pairwise different ignoring case |
| `Service.SeverityNamesDistinct` | src/Falcon.Domain/Enumerations/MonitoringEnums.cs:59-64 | severity names are pairwise different ignoring case |
| `Service.CollectorTypeNamesDistinct` | src/Falcon.Domain/Enumerations/MonitoringEnums.cs:100-106 | collector type names are pairwise different ignoring case |
| `Service.ParseEnvironment` | src/Falcon.Application/Services/MonitoringService.cs:520-528 | the environment whose name matches ignoring case, or Dev when none does |
| `Service.ParseEnvironmentName` | src/Falcon.Application/Services/MonitoringService.cs:520-528 | each environment's name in any letter case parses to that environment |
| `Service.ParseDesiredState` | src/Falcon.Application/Services/MonitoringService.cs:530-538 | the desired state whose name matches ignoring case, or Running when none does |
| `Service.ParseDesiredStateName` | src/Falcon.Application/Services/MonitoringService.cs:530-538 | each desired state's name parses back to it |
| `Service.ParseAlertSeverity` | src/Falcon.Application/Services/MonitoringService.cs:540-548 | the severity whose name matches ignoring case, or Warning when none does |
| `Service.ParseAlertSeverityName` | src/Falcon.Application/Services/MonitoringService.cs:540-548 | each severity's name parses back to it |
| `Service.ParseCollectorType` | src/Falcon.Application/Services/MonitoringService.cs:550-558 | the collector type whose name matches ignoring case, or Agent when none does |
| `Service.ParseCollectorTypeName` | src/Falcon.Application/Services/MonitoringService.cs:550-558 | each collector type's name parses back to it |
| `Service.ServiceViews` | src/Falcon.Application/Services/MonitoringService.cs:562-565 | one snapshot of state and criticality per service, in order |
| `Service.BuildServiceSummary` | src/Falcon.Application/Services/MonitoringService.cs:560-574 | total is the service count; running + stopped <= total; critical alerts <= total - running |
| `Service.CriticalServiceDownIsCounted` | src/Falcon.Application/Services/MonitoringService.cs:565 | a critical service that is not running makes the critical count positive |
| `Service.AllServicesRunning` | src/Falcon.Application/Services/MonitoringService.cs:563-565 | when every service runs, running equals total and there are no critical alerts |
| `Service.TaskViews` | src/Falcon.Application/Services/MonitoringService.cs:579-581 | one snapshot of enabled flag and last result per task, in order |
| `Service.BuildTaskSummary` | src/Falcon.Application/Services/MonitoringService.cs:576-590 | enabled + disabled = total; failed last run <= total |
| `Service.DisabledCountsDisabledTasks` | src/Falcon.Application/Services/MonitoringService.cs:579-580 | the subtraction counts exactly the scheduled tasks not enabled |
| `Service.FailedTaskIsCounted` | src/Falcon.Application/Services/MonitoringService.cs:581 | a task whose last result is "Failure" in any letter case is counted as failed |
| `Service.BuildIisSummary` | src/Falcon.Application/Services/MonitoringService.cs:592-606 | counts of pools and sites, with stopped pools and unhealthy sites bounded by them |
| `Service.IisCountsSplit` | src/Falcon.Application/Services/MonitoringService.cs:596-597 | every pool is stopped or started and every site unhealthy or healthy, and not both |
| `Service.RecentAlerts` | src/Falcon.Application/Services/MonitoringService.cs:611 | at most five alerts, no more than were listed |
| `Service.RecentAlertsSound` | src/Falcon.Application/Services/MonitoringService.cs:611 | only listed alerts are shown |
| `Service.RecentAlertsOrdered` | src/Falcon.Application/Services/MonitoringService.cs:611 | newest first, without repeats |
| `Service.RecentAlertsTop` | src/Falcon.Application/Services/MonitoringService.cs:611 | no alert left out is newer than one shown |
| `Service.RecentServerAlerts` | src/Falcon.Application/Services/MonitoringService.cs:610-611 | over a listing of exactly the server's alerts, the panel shows only the server's alerts, newest first, the newest five |
| `Service.GrantStep` | src/Falcon.Application/Services/MonitoringService.cs:462-465 | one more role id is one more `AddRole` |
| `Service.GrantUnique` | src/Falcon.Application/Services/MonitoringService.cs:462-465 | granting roles keeps one assignment per role |
| `Service.GrantCovers` | src/Falcon.Application/Services/MonitoringService.cs:462-465 | every requested role ends up assigned |
| `Service.GrantOnlyRequested` | src/Falcon.Application/Services/MonitoringService.cs:462-465 | every new assignment is for this user, for a requested role, and unscoped |
| `Service.AssignRoles` | src/Falcon.Application/Services/MonitoringService.cs:460-466 | the `foreach` over role ids gives the `Grant` of those ids and keeps one assignment per role |
| `Service.MonitoringService.constructor` | src/Falcon.Application/Services/MonitoringService.cs:26 | binds the service to its repository |
| `Service.MonitoringService.CreateAlert` | src/Falcon.Application/Services/MonitoringService.cs:313-329 | stores a new alert that is open, unresolved, with no notifications and no related logs, with the parsed severity and the request's fields, under its id |
| `Service.MonitoringService.AcknowledgeAlert` | src/Falcon.Application/Services/MonitoringService.cs:332-343 | an unknown id changes nothing; otherwise the alert's lifecycle is `Acknowledged` of the old one (status acknowledged, resolution time kept) and it is written back |
| `Service.MonitoringService.CloseAlert` | src/Falcon.Application/Services/MonitoringService.cs:346-357 | an unknown id changes nothing; otherwise the alert is closed, resolved now, and written back |
| `Service.MonitoringService.RecordCollectorHeartbeat` | src/Falcon.Application/Services/MonitoringService.cs:412-422 | an unknown collector changes nothing; otherwise last seen becomes the reported time, or now when none is reported |
| `Service.MonitoringService.CreateUser` | src/Falcon.Application/Services/MonitoringService.cs:456-468 | a new user with the profile set, one unscoped assignment for each requested role and none other, stored under its id |
| `Service.MonitoringService.LoadRecentAlerts` | src/Falcon.Application/Services/MonitoringService.cs:608-613 | at most five of the server's stored alerts, newest first, none left out newer than one shown |
| `HostedServices.PendingOf` | src/Falcon.Infrastructure/HostedServices/NotificationDispatchService.cs:31-33 | every selected notification is pending and comes from the list, and every pending one is selected |
| `HostedServices.PendingOfAppend` | src/Falcon.Infrastructure/HostedServices/NotificationDispatchService.cs:31-33 | the selection keeps list order: selecting from a concatenation selects from each part in turn |
| `HostedServices.PendingOfNone` | src/Falcon.Infrastructure/HostedServices/NotificationDispatchService.cs:31-38 | with none pending the selection is empty |
| `HostedServices.Announce` | src/Falcon.Infrastructure/HostedServices/NotificationDispatchService.cs:40-49 | one line per pending notification, with its id, the alert's id and the channel name |
| `HostedServices.PendingOfCount` | src/Falcon.Infrastructure/HostedServices/NotificationDispatchService.cs:31-33 | the selection is as long as the number of pending notifications |
| `HostedServices.CycleLogLength` | src/Falcon.Infrastructure/HostedServices/NotificationDispatchService.cs:29-50 | a cycle logs exactly as many lines as there are pending notifications across all alerts |
| `HostedServices.CycleLogSound` | src/Falcon.Infrastructure/HostedServices/NotificationDispatchService.cs:29-50 | every line is for a pending notification of a listed alert; sent and failed ones are never announced |
| `HostedServices.CycleLogComplete` | src/Falcon.Infrastructure/HostedServices/NotificationDispatchService.cs:29-50 | every pending notification of a listed alert is announced |
| `HostedServices.NoPendingNoLines` | src/Falcon.Infrastructure/HostedServices/NotificationDispatchService.cs:35-38 | an alert with no pending notification adds nothing |
| `HostedServices.DispatchCycle` | src/Falcon.Infrastructure/HostedServices/NotificationDispatchService.cs:27-50 | lists every stored alert with no filter, newest first, logs the cycle's lines, and modifies nothing |
| `HostedServices.AnnounceAll` | src/Falcon.Infrastructure/HostedServices/NotificationDispatchService.cs:29-50 | the nested loops produce exactly the cycle's lines |
| `HostedServices.StaleWarnings` | src/Falcon.Infrastructure/HostedServices/CollectorHeartbeatMonitor.cs:29-39 | at most one warning per listed collector |
| `HostedServices.StaleWarningsSound` | src/Falcon.Infrastructure/HostedServices/CollectorHeartbeatMonitor.cs:31-37 | every warning is for a listed collector seen strictly before the cutoff |
| `HostedServices.StaleWarningsComplete` | src/Falcon.Infrastructure/HostedServices/CollectorHeartbeatMonitor.cs:31-37 | every listed collector seen strictly before the cutoff is warned about |
| `HostedServices.StaleWarningsExact` | src/Falcon.Infrastructure/HostedServices/CollectorHeartbeatMonitor.cs:27-31 | with distinct ids, a collector is warned about if and only if it is stale: never when never seen, nor when seen exactly at the cutoff |
| `HostedServices.LivenessCycle` | src/Falcon.Infrastructure/HostedServices/CollectorHeartbeatMonitor.cs:26-39 | lists every stored collector, logs exactly the stale warnings for the cutoff five minutes before now, and modifies nothing |
| `HostedServices.WarnStale` | src/Falcon.Infrastructure/HostedServices/CollectorHeartbeatMonitor.cs:27-39 | the loop produces exactly the stale warnings |

## Left out

- HTTP controllers, hosting, dependency injection, authentication and Swagger configuration: framework wiring with no state rules.
- The AutoMapper profile and the DTO records, `MapPaged` included: data shapes at the API boundary. The alert status strings are modelled as the lower-case names the service writes.
- The background loops' lifetime: the `while` on the cancellation token, `Task.Delay`, and the catch blocks. Each loop is modelled as one cycle; an exception or a cancellation ends a cycle without changing the store.
- Concurrency: the dictionaries are `ConcurrentDictionary` and seeding uses a lock. The model is sequential, and the seed fixture is not modelled.
- `Guid.NewGuid()` and `DateTimeOffset.UtcNow`: fresh ids and the current time are parameters. Log output is the cycles' return value.
- Floating-point fields (CPU and memory percentages, metric values) and `Server.ApplyHeartbeat`: left out, because they carry no rule beyond assignment.
- `Inventory.LogPattern`, `Admin.Role`: stored as values, because the model has no operation that changes them. Their `Update` methods (src/Falcon.Domain/Entities/LogPattern.cs:25-31, src/Falcon.Domain/Entities/Role.cs:19-23) are not modelled, nor the sharing of one instance between the dictionary and a caller.
- Opaque dictionaries (payloads, settings, configuration, scope) are the abstract type `Properties`.
- `Common.EqualsIgnoreCase`: case-insensitive comparison upper-cases ASCII letters only; the culture-invariant mapping of other scripts is not modelled.
- `Queries.ListServers`, `Queries.ListCollectors`: `OrderBy` on a name without a comparer uses the current culture's string comparison. The model does not define a culture's collation; it takes the comparison as the parameter `collation` and proves the order for any collation that is a total preorder.
- `Store.Repository.SearchLogs`: each call enumerates the dictionary in some order of its own, so completeness across pages (`Queries.SearchLogsComplete`, `Queries.ListServersComplete`) is stated for one fixed enumeration.
- `Service.ParseEnvironment`: `Enum.TryParse` also accepts numeric strings, comma-separated flags and surrounding whitespace; the model accepts names only. The same holds for the other three parse functions.
- `Queries.EnvironmentFilter`: the same `Enum.TryParse` forms are not accepted. With them, " prod " and "2" would filter to Prod, "Dev, Prod" would filter to the combined flag value, and an undefined number such as "99" would filter out every server; the model applies no environment filter for any of these strings.
- `Service.ParseCollectorType`: the code parses into a type it calls `MonitoringEnums`, while the enum declared in src/Falcon.Domain/Enumerations/MonitoringEnums.cs is `CollectorType` with values Agent, WinRm, PowerShell and Hybrid. The model parses into that enum.
- `Alerting.Notification.UpdateStatus`: the attempt count is an unbounded integer; the C# `int` would wrap after 2^31 - 1 calls.
- `HostedServices.DispatchCycle`: `Notification.Channel` is read as the channel configuration entity, and the log line carries its channel name. This follows the code, which resolves `Channel` to that entity.
- `Store.Repository.SearchLogs`: it takes collections of server ids, log file ids and severities, as the implementation does. The repository interface declares scalar parameters instead.
- Listings whose only rule is "filter by owner, sort by a name" are not modelled: services, tasks, task runs, app pools, sites, log files, metric points, log patterns, channels, users, roles and maintenance windows. The same goes for the lookups not used by the modelled operations.
- The other service operations only fetch, map and delegate: registration and update of servers, services and tasks, maintenance windows, roles, channels and log patterns. Their store effects are the repository writes above (`UpsertLogPattern`, `UpsertNotificationChannel` and `AddRole` for patterns, channels and roles), and the service-level wrappers are not modelled. The logging-only stubs (restart, trigger, recycle, resend, collector event and log batches) have no state effect.
- Domain event records are declared but never raised, so they are not modelled.
- `Store.Repository.ListServers`, `ListAlerts`, `ListCollectors`, `ListNotifications`, `ListServiceEvents` and `SearchLogs` fix no order among equal sort keys, because dictionary enumeration order is unspecified in .NET. Their contracts state sortedness and membership, not one exact sequence.

=== FILE: admin.dfy ===
/** Users with role assignments, maintenance windows and collectors. */
module Admin {
  import opened Common
  import opened Lists

  /** A role of role-based access control, referred to by assignments. */
  datatype Role = Role(id: Id, name: string, description: Option<string>)

  datatype RoleAssignment = RoleAssignment(id: Id, userId: Id, roleId: Id, scope: Option<Properties>)

  function RoleOf(a: RoleAssignment): Id { a.roleId }

  class User {
    const id: Id
    const username: string
    const createdAt: Time
    var displayName: Option<string>
    var email: string
    var roleAssignments: seq<RoleAssignment>

    /** At most one assignment per role. */
    ghost predicate Valid()
      reads this`roleAssignments
    {
      UniqueKeys(roleAssignments, RoleOf)
    }

    constructor(id: Id, username: string, email: string, createdAt: Time)
      ensures this.id == id && this.username == username && this.email == email
      ensures this.createdAt == createdAt && displayName == None && roleAssignments == []
      ensures Valid()
    {
      this.id := id;
      this.username := username;
      this.createdAt := createdAt;
      this.email := email;
      displayName := None;
      roleAssignments := [];
    }

    method UpdateProfile(displayName: Option<string>, email: string)
      modifies this`displayName, this`email
      ensures this.displayName == displayName && this.email == email
    {
      this.displayName := displayName;
      this.email := email;
    }

    /** Replaces any assignment for the same role and appends the new one. */
    method AddRole(assignment: RoleAssignment)
      modifies this`roleAssignments
      ensures roleAssignments == Upsert(old(roleAssignments), RoleOf, assignment)
      ensures old(Valid()) ==> Valid()
    {
      if UniqueKeys(roleAssignments, RoleOf) {
        UpsertUnique(roleAssignments, RoleOf, assignment);
      }
      roleAssignments := Upsert(roleAssignments, RoleOf, assignment);
    }
  }

  class MaintenanceWindow {
    const id: Id
    var name: string
    var startTime: Time
    var endTime: Time
    var muted: bool
    var serverScope: seq<Id>

    constructor(id: Id, name: string, startTime: Time, endTime: Time, muted: bool)
      ensures this.id == id && this.name == name && this.startTime == startTime
      ensures this.endTime == endTime && this.muted == muted && serverScope == []
    {
      this.id := id;
      this.name := name;
      this.startTime := startTime;
      this.endTime := endTime;
      this.muted := muted;
      serverScope := [];
    }

    /** Clear then AddRange: the scope becomes exactly the given ids. */
    method SetServerScope(serverIds: seq<Id>)
      modifies this`serverScope
      ensures serverScope == serverIds
    {
      serverScope := [];
      serverScope := serverScope + serverIds;
    }

    method Update(name: string, start: Time, end: Time, muted: bool)
      modifies this`name, this`startTime, this`endTime, this`muted
      ensures this.name == name && startTime == start && endTime == end && this.muted == muted
    {
      this.name := name;
      startTime := start;
      endTime := end;
      this.muted := muted;
    }
  }

  datatype CollectorType = Agent | WinRm | PowerShell | Hybrid
  {
    function Name(): string
    {
      match this
      case Agent => "Agent"
      case WinRm => "WinRm"
      case PowerShell => "PowerShell"
      case Hybrid => "Hybrid"
    }
  }

  const AllCollectorTypes: seq<CollectorType> := [Agent, WinRm, PowerShell, Hybrid]

  class Collector {
    const id: Id
    const createdAt: Time
    var name: string
    var collectorType: CollectorType
    var config: Option<Properties>
    var lastSeen: Option<Time>

    constructor(id: Id, name: string, collectorType: CollectorType, createdAt: Time)
      ensures this.id == id && this.name == name && this.collectorType == collectorType
      ensures this.createdAt == createdAt && config == None && lastSeen == None
    {
      this.id := id;
      this.createdAt := createdAt;
      this.name := name;
      this.collectorType := collectorType;
      config := None;
      lastSeen := None;
    }

    method ApplyConfiguration(config: Option<Properties>)
      modifies this`config
      ensures this.config == config
    {
      this.config := config;
    }

    method UpdateLastSeen(lastSeen: Time)
      modifies this`lastSeen
      ensures this.lastSeen == Some(lastSeen)
    {
      this.lastSeen := Some(lastSeen);
    }

    method UpdateMetadata(name: string, collectorType: CollectorType)
      modifies this`name, this`collectorType
      ensures this.name == name && this.collectorType == collectorType
    {
      this.name := name;
      this.collectorType := collectorType;
    }
  }
}

=== FILE: alerting.dfy ===
/** The alert aggregate and its notification ledger. Alerts and notifications
    are updated in place by the application service and the store holds
    references to them, so both are classes. */
module Alerting {
  import opened Common
  import opened Lists

  datatype AlertSeverity = Info | Warning | Critical
  {
    /** Enum.ToString(). */
    function Name(): string
    {
      match this
      case Info => "Info"
      case Warning => "Warning"
      case Critical => "Critical"
    }
  }

  const AllSeverities: seq<AlertSeverity> := [Info, Warning, Critical]

  datatype NotificationStatus = Pending | Sent | Failed

  /** The lifecycle strings the service writes: AlertStatus names, lower-cased. */
  const StatusOpen: string := "open"
  const StatusAcknowledged: string := "acknowledged"
  const StatusClosed: string := "closed"

  /** The channel configuration record a notification is bound to (id, channel
      name, opaque settings). */
  datatype ChannelConfig = ChannelConfig(id: Id, channel: string, settings: Option<Properties>)

  // ---------------------------------------------------------------------------
  // The delivery ledger of one notification, as a value.

  datatype Delivery = Delivery(status: NotificationStatus, attemptCount: int, lastAttempt: Option<Time>)

  /** The arguments of one Notification.UpdateStatus call. */
  datatype Attempt = Attempt(status: NotificationStatus, at: Option<Time>)

  /** One UpdateStatus call: status and time are overwritten, the counter goes up by one. */
  function Record(d: Delivery, a: Attempt): Delivery
  {
    Delivery(a.status, d.attemptCount + 1, a.at)
  }

  /** The ledger after a sequence of UpdateStatus calls, oldest first. */
  function RecordAll(d: Delivery, attempts: seq<Attempt>): Delivery
  {
    if attempts == [] then d
    else Record(RecordAll(d, attempts[..|attempts| - 1]), attempts[|attempts| - 1])
  }

  /** After N calls the counter is the initial count plus N, and the status and
      time are those of the last call. */
  lemma {:induction false} RecordAllCount(d: Delivery, attempts: seq<Attempt>)
    ensures RecordAll(d, attempts).attemptCount == d.attemptCount + |attempts|
    ensures attempts != [] ==>
      RecordAll(d, attempts).status == attempts[|attempts| - 1].status &&
      RecordAll(d, attempts).lastAttempt == attempts[|attempts| - 1].at
  {
    if attempts != [] {
      RecordAllCount(d, attempts[..|attempts| - 1]);
    }
  }

  /** The counter never decreases along a sequence of calls. */
  lemma RecordAllMonotone(d: Delivery, attempts: seq<Attempt>, n: nat)
    requires n <= |attempts|
    ensures RecordAll(d, attempts[..n]).attemptCount <= RecordAll(d, attempts).attemptCount
  {
    RecordAllCount(d, attempts[..n]);
    RecordAllCount(d, attempts);
  }

  class Notification {
    const id: Id
    const alertId: Id
    const channel: ChannelConfig
    const recipient: string
    const payload: Option<Properties>
    var status: NotificationStatus
    var attemptCount: int
    var lastAttempt: Option<Time>

    ghost function Ledger(): Delivery
      reads this
    {
      Delivery(status, attemptCount, lastAttempt)
    }

    constructor(id: Id, alertId: Id, channel: ChannelConfig, recipient: string,
                status: NotificationStatus, attemptCount: int, lastAttempt: Option<Time>,
                payload: Option<Properties>)
      ensures this.id == id && this.alertId == alertId && this.channel == channel
      ensures this.recipient == recipient && this.payload == payload
      ensures this.status == status && this.attemptCount == attemptCount
      ensures this.lastAttempt == lastAttempt
    {
      this.id := id;
      this.alertId := alertId;
      this.channel := channel;
      this.recipient := recipient;
      this.payload := payload;
      this.status := status;
      this.attemptCount := attemptCount;
      this.lastAttempt := lastAttempt;
    }

    method UpdateStatus(status: NotificationStatus, attemptedAt: Option<Time>)
      modifies this`status, this`lastAttempt, this`attemptCount
      ensures this.status == status && lastAttempt == attemptedAt
      ensures attemptCount == old(attemptCount) + 1
      ensures Ledger() == Record(old(Ledger()), Attempt(status, attemptedAt))
    {
      this.status := status;
      lastAttempt := attemptedAt;
      attemptCount := attemptCount + 1;
    }
  }

  // ---------------------------------------------------------------------------
  // The alert lifecycle: status string and resolution time.

  datatype Resolution = Resolution(status: string, resolvedAt: Option<Time>)

  /** What AcknowledgeAlert writes: the status, keeping the resolution time. */
  function Acknowledged(r: Resolution): Resolution
  {
    Resolution(StatusAcknowledged, r.resolvedAt)
  }

  /** What CloseAlert writes: the status and the current time. */
  function Closed(r: Resolution, now: Time): Resolution
  {
    Resolution(StatusClosed, Some(now))
  }

  lemma AcknowledgeIdempotent(r: Resolution)
    ensures Acknowledged(Acknowledged(r)) == Acknowledged(r)
  {
  }

  lemma AcknowledgeThenClose(r: Resolution, now: Time)
    ensures Closed(Acknowledged(r), now) == Closed(r, now)
  {
  }

  /** No transition guard: acknowledging a closed alert reopens it to
      "acknowledged" while its resolution time stays set. */
  lemma AcknowledgeAfterClose(r: Resolution, now: Time)
    ensures Acknowledged(Closed(r, now)).status == StatusAcknowledged
    ensures Acknowledged(Closed(r, now)).resolvedAt == Some(now)
  {
  }

  class Alert {
    const id: Id
    const serverId: Option<Id>
    const sourceType: string
    const sourceId: Option<Id>
    const alertType: string
    const createdAt: Time
    var severity: AlertSeverity
    var status: string
    var message: string
    var resolvedAt: Option<Time>
    var notifications: seq<Notification>
    var relatedLogIds: seq<Id>

    /** Related log ids are kept free of duplicates. */
    ghost predicate Valid()
      reads this`relatedLogIds
    {
      Distinct(relatedLogIds)
    }

    ghost function Lifecycle(): Resolution
      reads this`status, this`resolvedAt
    {
      Resolution(status, resolvedAt)
    }

    constructor(id: Id, serverId: Option<Id>, sourceType: string, sourceId: Option<Id>,
                alertType: string, severity: AlertSeverity, status: string, message: string,
                createdAt: Time)
      ensures this.id == id && this.serverId == serverId && this.sourceType == sourceType
      ensures this.sourceId == sourceId && this.alertType == alertType
      ensures this.createdAt == createdAt
      ensures this.severity == severity && this.status == status && this.message == message
      ensures resolvedAt == None && notifications == [] && relatedLogIds == []
      ensures Valid()
    {
      this.id := id;
      this.serverId := serverId;
      this.sourceType := sourceType;
      this.sourceId := sourceId;
      this.alertType := alertType;
      this.createdAt := createdAt;
      this.severity := severity;
      this.status := status;
      this.message := message;
      resolvedAt := None;
      notifications := [];
      relatedLogIds := [];
    }

    /** Adds the id unless it is already present. */
    method AddRelatedLog(logId: Id)
      modifies this`relatedLogIds
      ensures relatedLogIds == AppendIfAbsent(old(relatedLogIds), logId)
      ensures old(Valid()) ==> Valid()
    {
      if logId !in relatedLogIds {
        relatedLogIds := relatedLogIds + [logId];
      }
    }

    method UpdateMessage(message: string, severity: AlertSeverity)
      modifies this`message, this`severity
      ensures this.message == message && this.severity == severity
    {
      this.message := message;
      this.severity := severity;
    }

    /** Any status and any time are accepted: the aggregate has no transition guard. */
    method UpdateStatus(status: string, resolvedAt: Option<Time>)
      modifies this`status, this`resolvedAt
      ensures this.status == status && this.resolvedAt == resolvedAt
    {
      this.status := status;
      this.resolvedAt := resolvedAt;
    }

    method AddNotification(notification: Notification)
      modifies this`notifications
      ensures notifications == old(notifications) + [notification]
    {
      notifications := notifications + [notification];
    }
  }
}

=== FILE: common.dfy ===
/** Types shared by every layer of the monitoring core: identifiers, timestamps,
    optional values, and the ordinal, case-insensitive string comparisons the
    C# code performs with StringComparison.OrdinalIgnoreCase and ToUpperInvariant. */
module Common {

  /** An opaque entity identifier (a Guid in the source). */
  type Id(==)

  /** An opaque key/value bag (payloads, settings, configuration). */
  type Properties

  /** A point in time as a tick count (DateTimeOffset ticks are 100 ns). */
  type Time = int

  const TicksPerMinute: int := 600_000_000

  datatype Option<T> = None | Some(value: T)

  /** `a ?? b` on nullable values. */
  function OrElse<T>(a: Option<T>, b: Option<T>): Option<T>
  {
    if a.Some? then a else b
  }

  function Max(a: int, b: int): int { if a < b then b else a }

  function Min(a: int, b: int): int { if a < b then a else b }

  // ---------------------------------------------------------------------------
  // C# `int`: arithmetic is unchecked, so a result outside the 32-bit range
  // wraps around modulo 2^32.

  const MinInt32: int := -0x8000_0000
  const MaxInt32: int := 0x7FFF_FFFF

  /** The C# `int` that an unchecked operation with mathematical result x
      yields: the value congruent to x modulo 2^32 in the 32-bit range. */
  function Int32(x: int): (r: int)
    ensures MinInt32 <= r <= MaxInt32
    ensures (x - r) % 0x1_0000_0000 == 0
    ensures MinInt32 <= x <= MaxInt32 ==> r == x
  {
    (x - MinInt32) % 0x1_0000_0000 + MinInt32
  }

  // ---------------------------------------------------------------------------
  // Case folding. Only the ASCII letters are mapped; see README "Left out".

  function UpperChar(c: char): char
  {
    if 'a' <= c <= 'z' then (c as int - 32) as char else c
  }

  /** ToUpperInvariant. */
  function Upper(s: string): string
  {
    seq(|s|, i requires 0 <= i < |s| => UpperChar(s[i]))
  }

  /** string.Equals(a, b, StringComparison.OrdinalIgnoreCase). */
  predicate EqualsIgnoreCase(a: string, b: string)
  {
    Upper(a) == Upper(b)
  }

  predicate OccursAt(needle: string, hay: string, i: int)
  {
    0 <= i && i + |needle| <= |hay| && hay[i..i + |needle|] == needle
  }

  /** Ordinal substring test (`needle` occurs at some offset of `hay`). */
  predicate IsSubstring(needle: string, hay: string)
  {
    exists i | 0 <= i <= |hay| :: OccursAt(needle, hay, i)
  }

  /** hay.Contains(needle, StringComparison.OrdinalIgnoreCase). */
  predicate ContainsIgnoreCase(hay: string, needle: string)
  {
    IsSubstring(Upper(needle), Upper(hay))
  }

  /** char.IsWhiteSpace: the Unicode space separators, line and paragraph
      separators, and the control characters U+0009 to U+000D and U+0085. */
  predicate IsWhiteSpace(c: char)
  {
    ('\U{0009}' <= c <= '\U{000D}') || c == ' ' || c == '\U{0085}' || c == '\U{00A0}' ||
    c == '\U{1680}' || ('\U{2000}' <= c <= '\U{200A}') || c == '\U{2028}' || c == '\U{2029}' ||
    c == '\U{202F}' || c == '\U{205F}' || c == '\U{3000}'
  }

  /** string.IsNullOrWhiteSpace. */
  predicate IsNullOrWhiteSpace(s: Option<string>)
  {
    s.None? || forall i | 0 <= i < |s.value| :: IsWhiteSpace(s.value[i])
  }

  // ---------------------------------------------------------------------------
  // Enum.TryParse(value, ignoreCase: true, out result) over the members `all`.

  function TryParseName<E>(all: seq<E>, name: E -> string, value: string): (r: Option<E>)
    ensures r.Some? ==> r.value in all && EqualsIgnoreCase(name(r.value), value)
    ensures r.None? ==> forall i | 0 <= i < |all| :: !EqualsIgnoreCase(name(all[i]), value)
  {
    if all == [] then None
    else if EqualsIgnoreCase(name(all[0]), value) then Some(all[0])
    else TryParseName(all[1..], name, value)
  }

  /** No two members share a name, ignoring case. */
  ghost predicate NamesDistinct<E>(all: seq<E>, name: E -> string)
  {
    forall i, j | 0 <= i < j < |all| :: !EqualsIgnoreCase(name(all[i]), name(all[j]))
  }

  /** Parsing a member's own name, in any letter case, gives that member back. */
  lemma {:induction false} TryParseNameRoundTrip<E>(all: seq<E>, name: E -> string, e: E, value: string)
    requires NamesDistinct(all, name)
    requires e in all
    requires EqualsIgnoreCase(value, name(e))
    ensures TryParseName(all, name, value) == Some(e)
  {
    if all[0] != e {
      assert NamesDistinct(all[1..], name) by {
        forall i, j | 0 <= i < j < |all[1..]|
          ensures !EqualsIgnoreCase(name(all[1..][i]), name(all[1..][j]))
        {
          assert all[1..][i] == all[i + 1] && all[1..][j] == all[j + 1];
        }
      }
      var k :| 0 <= k < |all| && all[k] == e;
      assert !EqualsIgnoreCase(name(all[0]), name(all[k]));
      TryParseNameRoundTrip(all[1..], name, e, value);
    }
  }
}

=== FILE: hosted.dfy ===
/** One pass of each background loop: the notification dispatcher, which
    announces every pending notification, and the heartbeat monitor, which
    warns about collectors not seen for five minutes. Neither writes to the
    store; what each logs is its output. */
module HostedServices {
  import opened Common
  import opened Lists
  import opened Alerting
  import opened Admin
  import Queries
  import Store

  // ---------------------------------------------------------------------------
  // Notification dispatch.

  /** The log line "Dispatching notification {id} for alert {alert} via {channel}". */
  datatype Dispatch = Dispatch(notificationId: Id, alertId: Id, channel: string)

  /** Where(status == Pending), in order. */
  function PendingOf(ns: seq<Notification>): (r: seq<Notification>)
    reads ns
    ensures |r| <= |ns|
    ensures forall i | 0 <= i < |r| :: r[i] in ns && r[i].status == Pending
    ensures forall i | 0 <= i < |ns| && ns[i].status == Pending :: ns[i] in r
  {
    if ns == [] then []
    else
      var rest := PendingOf(ns[1..]);
      assert forall i | 1 <= i < |ns| :: ns[i] == ns[1..][i - 1];
      (if ns[0].status == Pending then [ns[0]] else []) + rest
  }

  /** The selection keeps order: what is selected from a prefix comes first. */
  lemma {:induction false} PendingOfAppend(a: seq<Notification>, b: seq<Notification>)
    ensures PendingOf(a + b) == PendingOf(a) + PendingOf(b)
  {
    if a != [] {
      assert (a + b)[1..] == a[1..] + b;
      PendingOfAppend(a[1..], b);
    } else {
      assert a + b == b;
    }
  }

  lemma {:induction false} PendingOfNone(ns: seq<Notification>)
    requires forall n | n in ns :: n.status != Pending
    ensures PendingOf(ns) == []
  {
    if ns != [] {
      PendingOfNone(ns[1..]);
    }
  }

  /** The lines logged for one alert's pending notifications. */
  function Announce(alertId: Id, pending: seq<Notification>): (r: seq<Dispatch>)
    ensures |r| == |pending|
    ensures forall i | 0 <= i < |pending| ::
              r[i] == Dispatch(pending[i].id, alertId, pending[i].channel.channel)
  {
    seq(|pending|, i requires 0 <= i < |pending| =>
      Dispatch(pending[i].id, alertId, pending[i].channel.channel))
  }

  /** Every notification of the listed alerts. */
  function NotificationsOf(alerts: seq<Alert>): set<Notification>
    reads alerts
  {
    set a, n | a in alerts && n in a.notifications :: n
  }

  /** The lines one cycle logs for the listed alerts, alert by alert. */
  function CycleLog(alerts: seq<Alert>): seq<Dispatch>
    reads alerts, NotificationsOf(alerts)
  {
    if alerts == [] then []
    else
      var n := |alerts| - 1;
      assert NotificationsOf(alerts[..n]) <= NotificationsOf(alerts) by {
        forall x | x in NotificationsOf(alerts[..n]) ensures x in NotificationsOf(alerts) {
          var a :| a in alerts[..n] && x in a.notifications;
        }
      }
      assert forall x | x in alerts[n].notifications :: x in NotificationsOf(alerts);
      CycleLog(alerts[..n]) + Announce(alerts[n].id, PendingOf(alerts[n].notifications))
  }

  /** Every line announces a pending notification of a listed alert. */
  lemma {:induction false} CycleLogSound(alerts: seq<Alert>, d: Dispatch)
    requires d in CycleLog(alerts)
    ensures exists k, i | 0 <= k < |alerts| && 0 <= i < |alerts[k].notifications| ::
              alerts[k].notifications[i].status == Pending &&
              d == Dispatch(alerts[k].notifications[i].id, alerts[k].id, alerts[k].notifications[i].channel.channel)
  {
    var n := |alerts| - 1;
    var pending := PendingOf(alerts[n].notifications);
    if d in CycleLog(alerts[..n]) {
      CycleLogSound(alerts[..n], d);
      var k, i :| 0 <= k < n && 0 <= i < |alerts[..n][k].notifications| &&
                  alerts[..n][k].notifications[i].status == Pending &&
                  d == Dispatch(alerts[..n][k].notifications[i].id, alerts[..n][k].id,
                                alerts[..n][k].notifications[i].channel.channel);
      assert alerts[..n][k] == alerts[k];
    } else {
      var announced := Announce(alerts[n].id, pending);
      assert d in announced;
      var j :| 0 <= j < |announced| && announced[j] == d;
      var i :| 0 <= i < |alerts[n].notifications| && alerts[n].notifications[i] == pending[j];
    }
  }

  /** Every pending notification of a listed alert is announced. */
  lemma {:induction false} CycleLogComplete(alerts: seq<Alert>, k: int, i: int)
    requires 0 <= k < |alerts| && 0 <= i < |alerts[k].notifications|
    requires alerts[k].notifications[i].status == Pending
    ensures Dispatch(alerts[k].notifications[i].id, alerts[k].id, alerts[k].notifications[i].channel.channel)
              in CycleLog(alerts)
  {
    var n := |alerts| - 1;
    if k < n {
      assert alerts[..n][k] == alerts[k];
      CycleLogComplete(alerts[..n], k, i);
    } else {
      var pending := PendingOf(alerts[n].notifications);
      var x := alerts[n].notifications[i];
      assert x in pending;
      var j :| 0 <= j < |pending| && pending[j] == x;
      assert Announce(alerts[n].id, pending)[j] == Dispatch(x.id, alerts[n].id, x.channel.channel);
    }
  }

  /** How many of `ns` are pending, counted one by one. */
  function CountPending(ns: seq<Notification>): nat
    reads ns
  {
    if ns == [] then 0
    else (if ns[0].status == Pending then 1 else 0) + CountPending(ns[1..])
  }

  /** The number of pending notifications across the listed alerts. */
  function PendingTotal(alerts: seq<Alert>): nat
    reads alerts, NotificationsOf(alerts)
  {
    if alerts == [] then 0
    else
      var n := |alerts| - 1;
      assert NotificationsOf(alerts[..n]) <= NotificationsOf(alerts) by {
        forall x | x in NotificationsOf(alerts[..n]) ensures x in NotificationsOf(alerts) {
          var a :| a in alerts[..n] && x in a.notifications;
        }
      }
      assert forall x | x in alerts[n].notifications :: x in NotificationsOf(alerts);
      PendingTotal(alerts[..n]) + CountPending(alerts[n].notifications)
  }

  lemma {:induction false} PendingOfCount(ns: seq<Notification>)
    ensures |PendingOf(ns)| == CountPending(ns)
  {
    if ns != [] {
      PendingOfCount(ns[1..]);
    }
  }

  /** A cycle logs one line per pending notification, no more and no fewer. */
  lemma {:induction false} CycleLogLength(alerts: seq<Alert>)
    ensures |CycleLog(alerts)| == PendingTotal(alerts)
  {
    if alerts != [] {
      var n := |alerts| - 1;
      CycleLogLength(alerts[..n]);
      PendingOfCount(alerts[n].notifications);
    }
  }

  /** An alert with no pending notification adds nothing to the log. */
  lemma NoPendingNoLines(alerts: seq<Alert>, a: Alert)
    requires forall n | n in a.notifications :: n.status != Pending
    ensures CycleLog(alerts + [a]) == CycleLog(alerts)
  {
    assert (alerts + [a])[..|alerts|] == alerts;
    PendingOfNone(a.notifications);
  }

  /** ListAlertsAsync with every filter null, then each alert's pending
      notifications announced in turn. Nothing is modified. */
  method DispatchCycle(store: Store.Repository) returns (listed: seq<Alert>, log: seq<Dispatch>)
    ensures forall a | a in listed :: a in store.alerts.Values
    ensures forall a | a in store.alerts.Values :: a in listed
    ensures SortedBy(listed, Queries.CreatedAt, IntGe)
    ensures log == CycleLog(listed)
  {
    var q := Queries.AlertQuery(None, None, None, None);
    var page := store.ListAlerts(q);
    listed := page.items;
    forall a | a in store.alerts.Values ensures a in listed {
      assert Queries.AlertMatches(a, q);
    }
    log := AnnounceAll(listed);
  }

  /** The loop of one dispatch cycle over the listed alerts; an alert with no
      pending notification is skipped. */
  method AnnounceAll(listed: seq<Alert>) returns (log: seq<Dispatch>)
    ensures log == CycleLog(listed)
  {
    log := [];
    var i := 0;
    while i < |listed|
      invariant 0 <= i <= |listed|
      invariant log == CycleLog(listed[..i])
    {
      var alert := listed[i];
      var pending := PendingOf(alert.notifications);
      if |pending| != 0 {
        var j := 0;
        while j < |pending|
          invariant 0 <= j <= |pending|
          invariant log == CycleLog(listed[..i]) + Announce(alert.id, pending[..j])
        {
          log := log + [Dispatch(pending[j].id, alert.id, pending[j].channel.channel)];
          j := j + 1;
        }
        assert pending[..j] == pending;
      }
      assert listed[..i + 1][..i] == listed[..i];
      i := i + 1;
    }
    assert listed[..i] == listed;
  }

  // ---------------------------------------------------------------------------
  // Collector heartbeat monitoring.

  const StaleMinutes: int := 5

  /** UtcNow.AddMinutes(-5). */
  function Cutoff(now: Time): Time
  {
    now - StaleMinutes * TicksPerMinute
  }

  /** LastSeen is not null and strictly earlier than the cutoff. */
  predicate IsStale(lastSeen: Option<Time>, now: Time)
  {
    lastSeen.Some? && lastSeen.value < Cutoff(now)
  }

  /** The warning "Collector {id} ({name}) is stale. Last seen at {lastSeen}". */
  datatype StaleWarning = StaleWarning(collectorId: Id, name: string, lastSeen: Time)

  /** The warnings one cycle logs for the listed collectors, in order. */
  function StaleWarnings(collectors: seq<Collector>, now: Time): (r: seq<StaleWarning>)
    reads collectors
    ensures |r| <= |collectors|
  {
    if collectors == [] then []
    else
      var n := |collectors| - 1;
      var c := collectors[n];
      StaleWarnings(collectors[..n], now) +
      (if IsStale(c.lastSeen, now) then [StaleWarning(c.id, c.name, c.lastSeen.value)] else [])
  }

  /** Every warning names a listed collector that is stale. */
  lemma {:induction false} StaleWarningsSound(collectors: seq<Collector>, now: Time, w: StaleWarning)
    requires w in StaleWarnings(collectors, now)
    ensures exists k | 0 <= k < |collectors| ::
              IsStale(collectors[k].lastSeen, now) &&
              w == StaleWarning(collectors[k].id, collectors[k].name, collectors[k].lastSeen.value)
  {
    var n := |collectors| - 1;
    if w in StaleWarnings(collectors[..n], now) {
      StaleWarningsSound(collectors[..n], now, w);
      var k :| 0 <= k < n && IsStale(collectors[..n][k].lastSeen, now) &&
               w == StaleWarning(collectors[..n][k].id, collectors[..n][k].name, collectors[..n][k].lastSeen.value);
      assert collectors[..n][k] == collectors[k];
    }
  }

  /** Every stale listed collector is warned about; one never seen, or seen
      at the cutoff or later, is not. */
  lemma {:induction false} StaleWarningsComplete(collectors: seq<Collector>, now: Time, k: int)
    requires 0 <= k < |collectors|
    ensures var c := collectors[k];
            IsStale(c.lastSeen, now) ==> StaleWarning(c.id, c.name, c.lastSeen.value) in StaleWarnings(collectors, now)
  {
    var n := |collectors| - 1;
    if k < n {
      assert collectors[..n][k] == collectors[k];
      StaleWarningsComplete(collectors[..n], now, k);
    }
  }

  /** With collector ids distinct, a collector is warned about exactly when it
      is stale: never when it was never seen, nor when it was seen at the
      cutoff itself. */
  lemma StaleWarningsExact(collectors: seq<Collector>, now: Time, k: int)
    requires 0 <= k < |collectors|
    requires forall i, j | 0 <= i < j < |collectors| :: collectors[i].id != collectors[j].id
    ensures (exists w | w in StaleWarnings(collectors, now) :: w.collectorId == collectors[k].id) <==>
            IsStale(collectors[k].lastSeen, now)
  {
    var c := collectors[k];
    StaleWarningsComplete(collectors, now, k);
    if IsStale(c.lastSeen, now) {
      assert StaleWarning(c.id, c.name, c.lastSeen.value) in StaleWarnings(collectors, now);
    }
    forall w | w in StaleWarnings(collectors, now) && w.collectorId == c.id
      ensures IsStale(c.lastSeen, now)
    {
      StaleWarningsSound(collectors, now, w);
      var m :| 0 <= m < |collectors| && IsStale(collectors[m].lastSeen, now) &&
               w == StaleWarning(collectors[m].id, collectors[m].name, collectors[m].lastSeen.value);
      assert m == k;
    }
  }

  /** ListCollectorsAsync, then one check per collector against the cutoff.
      Nothing is modified. `collation` is the string order the listing sorts
      names by; the warnings do not depend on it beyond their order. */
  method LivenessCycle(store: Store.Repository, now: Time, collation: (string, string) -> bool) returns (listed: seq<Collector>, warnings: seq<StaleWarning>)
    ensures forall c | c in listed :: c in store.collectors.Values
    ensures forall c | c in store.collectors.Values :: c in listed
    ensures warnings == StaleWarnings(listed, now)
  {
    listed := store.ListCollectors(collation);
    warnings := WarnStale(listed, now);
  }

  /** The loop of one monitoring cycle over the listed collectors. */
  method WarnStale(listed: seq<Collector>, now: Time) returns (warnings: seq<StaleWarning>)
    ensures warnings == StaleWarnings(listed, now)
  {
    var cutoff := Cutoff(now);
    warnings := [];
    var i := 0;
    while i < |listed|
      invariant 0 <= i <= |listed|
      invariant warnings == StaleWarnings(listed[..i], now)
    {
      var collector := listed[i];
      if collector.lastSeen.Some? && collector.lastSeen.value < cutoff {
        warnings := warnings + [StaleWarning(collector.id, collector.name, collector.lastSeen.value)];
      }
      assert listed[..i + 1][..i] == listed[..i];
      i := i + 1;
    }
    assert listed[..i] == listed;
  }
}

=== FILE: inventory.dfy ===
/** The server aggregate and the resources it owns: Windows services, scheduled
    tasks and their runs, IIS application pools and sites, log files and metric
    points. */
module Inventory {
  import opened Common
  import opened Lists

  datatype EnvironmentType = Dev | Test | Prod
  {
    function Name(): string
    {
      match this
      case Dev => "Dev"
      case Test => "Test"
      case Prod => "Prod"
    }
  }

  const AllEnvironments: seq<EnvironmentType> := [Dev, Test, Prod]

  datatype ServerStatus = Healthy | Warning | Down | Unknown

  datatype ServiceDesiredState = Running | Stopped
  {
    function Name(): string
    {
      match this
      case Running => "Running"
      case Stopped => "Stopped"
    }
  }

  const AllDesiredStates: seq<ServiceDesiredState> :=
    [ServiceDesiredState.Running, ServiceDesiredState.Stopped]

  datatype ServiceState = Running | Stopped | Paused | Unknown

  datatype TaskRunResult = Success | Failure | Timeout | Cancelled | Unknown
  {
    function Name(): string
    {
      match this
      case Success => "Success"
      case Failure => "Failure"
      case Timeout => "Timeout"
      case Cancelled => "Cancelled"
      case Unknown => "Unknown"
    }
  }

  // ---------------------------------------------------------------------------
  // Records that are only ever constructed, never updated, by the core.

  datatype ServiceEvent = ServiceEvent(id: Id, serviceId: Id, state: string, message: Option<string>, eventTime: Time)

  datatype TaskRun = TaskRun(id: Id, scheduledTaskId: Id, startTime: Option<Time>, endTime: Option<Time>,
                             result: TaskRunResult, exitCode: Option<int>, output: Option<string>)

  datatype AppPool = AppPool(id: Id, serverId: Id, name: string, state: string, lastRecycle: Option<Time>)

  datatype IisSite = IisSite(id: Id, serverId: Id, name: string, status: string, bindings: Option<Properties>,
                             pingEndpoint: Option<string>, lastHttpStatus: Option<int>, lastChecked: Option<Time>)

  datatype LogEntry = LogEntry(id: Id, logFileId: Id, serverId: Id, timestamp: Time, severity: string,
                               message: string, jsonPayload: Option<Properties>)

  datatype LogFile = LogFile(id: Id, serverId: Id, path: string, parser: Option<string>, createdAt: Time,
                             entries: seq<LogEntry>)

  /** A known log pattern: a pattern text with a default severity label and
      an enabled flag, stored by id. */
  datatype LogPattern = LogPattern(id: Id, name: string, pattern: string, severityDefault: string, enabled: bool)

  /** The measured value (a double) is not part of the model. */
  datatype MetricPoint = MetricPoint(id: int, serverId: Id, metricName: string, measuredAt: Time)

  function AppPoolId(p: AppPool): Id { p.id }
  function IisSiteId(s: IisSite): Id { s.id }
  function LogFileId(f: LogFile): Id { f.id }

  // ---------------------------------------------------------------------------

  class MonitoredService {
    const id: Id
    const serverId: Id
    const serviceName: string
    const displayName: Option<string>
    var desiredState: ServiceDesiredState
    var currentState: ServiceState
    var critical: bool
    var lastChange: Option<Time>
    var events: seq<ServiceEvent>

    constructor(id: Id, serverId: Id, serviceName: string, desiredState: ServiceDesiredState,
                currentState: ServiceState, critical: bool, displayName: Option<string>)
      ensures this.id == id && this.serverId == serverId && this.serviceName == serviceName
      ensures this.desiredState == desiredState && this.currentState == currentState
      ensures this.critical == critical && this.displayName == displayName
      ensures lastChange == None && events == []
    {
      this.id := id;
      this.serverId := serverId;
      this.serviceName := serviceName;
      this.displayName := displayName;
      this.desiredState := desiredState;
      this.currentState := currentState;
      this.critical := critical;
      lastChange := None;
      events := [];
    }

    method UpdateState(state: ServiceState, changedAt: Option<Time>)
      modifies this`currentState, this`lastChange
      ensures currentState == state && lastChange == changedAt
    {
      currentState := state;
      lastChange := changedAt;
    }

    method UpdateDesiredState(desiredState: ServiceDesiredState)
      modifies this`desiredState
      ensures this.desiredState == desiredState
    {
      this.desiredState := desiredState;
    }

    method UpdateCriticality(critical: bool)
      modifies this`critical
      ensures this.critical == critical
    {
      this.critical := critical;
    }

    method AddEvent(serviceEvent: ServiceEvent)
      modifies this`events
      ensures events == old(events) + [serviceEvent]
    {
      events := events + [serviceEvent];
    }
  }

  function ServiceId(s: MonitoredService): Id { s.id }

  /** The time a run is reported at: its end time, or its start time when it has not ended. */
  function RunTime(run: TaskRun): Option<Time>
  {
    OrElse(run.endTime, run.startTime)
  }

  class ScheduledTask {
    const id: Id
    const serverId: Id
    const taskName: string
    const createdAt: Time
    var scheduleDescription: Option<string>
    var isEnabled: bool
    var lastRunTime: Option<Time>
    var lastRunResult: Option<string>
    var nextRunTime: Option<Time>
    var runs: seq<TaskRun>

    constructor(id: Id, serverId: Id, taskName: string, isEnabled: bool, createdAt: Time)
      ensures this.id == id && this.serverId == serverId && this.taskName == taskName
      ensures this.isEnabled == isEnabled && this.createdAt == createdAt
      ensures scheduleDescription == None && lastRunTime == None && lastRunResult == None
      ensures nextRunTime == None && runs == []
    {
      this.id := id;
      this.serverId := serverId;
      this.taskName := taskName;
      this.createdAt := createdAt;
      this.isEnabled := isEnabled;
      scheduleDescription := None;
      lastRunTime := None;
      lastRunResult := None;
      nextRunTime := None;
      runs := [];
    }

    method UpdateSchedule(scheduleDescription: Option<string>, nextRun: Option<Time>)
      modifies this`scheduleDescription, this`nextRunTime
      ensures this.scheduleDescription == scheduleDescription && nextRunTime == nextRun
    {
      this.scheduleDescription := scheduleDescription;
      nextRunTime := nextRun;
    }

    /** Appends the run and derives the last-run fields from it. */
    method RecordRun(run: TaskRun)
      modifies this`runs, this`lastRunTime, this`lastRunResult
      ensures runs == old(runs) + [run]
      ensures run.endTime.Some? ==> lastRunTime == run.endTime
      ensures run.endTime.None? ==> lastRunTime == run.startTime
      ensures lastRunResult == Some(run.result.Name())
    {
      runs := runs + [run];
      lastRunTime := RunTime(run);
      lastRunResult := Some(run.result.Name());
    }

    method SetEnabled(enabled: bool)
      modifies this`isEnabled
      ensures isEnabled == enabled
    {
      isEnabled := enabled;
    }
  }

  function ScheduledTaskId(t: ScheduledTask): Id { t.id }

  /** Enum names differ from one another even ignoring case, so the recorded
      result string identifies the result: it equals "Failure" (ignoring case)
      exactly when the run failed. */
  lemma FailureNameIdentifies(r: TaskRunResult)
    ensures EqualsIgnoreCase(r.Name(), TaskRunResult.Failure.Name()) <==> r == TaskRunResult.Failure
  {
    if r != TaskRunResult.Failure {
      assert Upper(r.Name())[0] != Upper(TaskRunResult.Failure.Name())[0] ||
             |Upper(r.Name())| != |Upper(TaskRunResult.Failure.Name())|;
    }
  }

  // ---------------------------------------------------------------------------
  // Tags: merged case-insensitively, never removed.

  /** tags.Contains(tag, StringComparer.OrdinalIgnoreCase). */
  predicate HasTag(tags: seq<string>, tag: string)
  {
    exists i | 0 <= i < |tags| :: EqualsIgnoreCase(tags[i], tag)
  }

  ghost predicate TagsDistinct(tags: seq<string>)
  {
    forall i, j | 0 <= i < j < |tags| :: !EqualsIgnoreCase(tags[i], tags[j])
  }

  /** The tag list after the merge loop has seen `input`: each tag is appended
      unless an equal one, ignoring case, is already there. */
  function MergeTags(tags: seq<string>, input: seq<string>): (r: seq<string>)
    ensures tags <= r
    ensures forall k | 0 <= k < |input| :: HasTag(r, input[k])
    ensures forall i | |tags| <= i < |r| :: r[i] in input
    ensures TagsDistinct(tags) ==> TagsDistinct(r)
  {
    if input == [] then tags
    else
      var prev := MergeTags(tags, input[..|input| - 1]);
      var tag := input[|input| - 1];
      var r := if HasTag(prev, tag) then prev else prev + [tag];
      assert forall k | 0 <= k < |input| - 1 :: input[k] == input[..|input| - 1][k];
      assert forall k | 0 <= k < |input| - 1 :: HasTag(r, input[k]) by {
        forall k | 0 <= k < |input| - 1 ensures HasTag(r, input[k]) {
          assert HasTag(prev, input[..|input| - 1][k]);
          var i :| 0 <= i < |prev| && EqualsIgnoreCase(prev[i], input[k]);
          assert r[i] == prev[i];
        }
      }
      assert HasTag(r, tag) by {
        if !HasTag(prev, tag) {
          assert EqualsIgnoreCase(r[|prev|], tag);
        }
      }
      assert forall i | |tags| <= i < |prev| :: prev[i] in input by {
        forall i | |tags| <= i < |prev| ensures prev[i] in input {
          assert prev[i] in input[..|input| - 1];
        }
      }
      assert TagsDistinct(prev) && !HasTag(prev, tag) ==> TagsDistinct(prev + [tag]) by {
        if TagsDistinct(prev) && !HasTag(prev, tag) {
          forall i, j | 0 <= i < j < |prev| + 1
            ensures !EqualsIgnoreCase((prev + [tag])[i], (prev + [tag])[j])
          {
            if j == |prev| {
              assert !EqualsIgnoreCase(prev[i], tag);
            }
          }
        }
      }
      r
  }

  class Server {
    const id: Id
    const hostname: string
    var displayName: Option<string>
    var environment: EnvironmentType
    var ipAddress: Option<string>
    var operatingSystem: Option<string>
    var lastHeartbeat: Option<Time>
    var status: ServerStatus
    var tags: seq<string>
    var services: seq<MonitoredService>
    var scheduledTasks: seq<ScheduledTask>
    var appPools: seq<AppPool>
    var iisSites: seq<IisSite>
    var logFiles: seq<LogFile>
    var metricPoints: seq<MetricPoint>

    /** The invariants the mutators keep: tags distinct ignoring case and every
        keyed child list free of duplicate ids. */
    ghost predicate Valid()
      reads this`tags, this`services, this`scheduledTasks, this`appPools, this`iisSites, this`logFiles
    {
      TagsDistinct(tags) && KeysUnique()
    }

    ghost predicate KeysUnique()
      reads this`services, this`scheduledTasks, this`appPools, this`iisSites, this`logFiles
    {
      UniqueKeys(services, ServiceId) &&
      UniqueKeys(scheduledTasks, ScheduledTaskId) &&
      UniqueKeys(appPools, AppPoolId) &&
      UniqueKeys(iisSites, IisSiteId) &&
      UniqueKeys(logFiles, LogFileId)
    }

    constructor(id: Id, hostname: string, environment: EnvironmentType, status: ServerStatus)
      ensures this.id == id && this.hostname == hostname
      ensures this.environment == environment && this.status == status
      ensures displayName == None && ipAddress == None && operatingSystem == None
      ensures lastHeartbeat == None
      ensures tags == [] && services == [] && scheduledTasks == [] && appPools == []
      ensures iisSites == [] && logFiles == [] && metricPoints == []
      ensures Valid()
    {
      this.id := id;
      this.hostname := hostname;
      this.environment := environment;
      this.status := status;
      displayName := None;
      ipAddress := None;
      operatingSystem := None;
      lastHeartbeat := None;
      tags := [];
      services := [];
      scheduledTasks := [];
      appPools := [];
      iisSites := [];
      logFiles := [];
      metricPoints := [];
    }

    /** Overwrites the descriptive fields and merges `tagsToApply` into the tags. */
    method UpdateMetadata(displayName: Option<string>, environment: EnvironmentType,
                          ipAddress: Option<string>, operatingSystem: Option<string>,
                          tagsToApply: Option<seq<string>>)
      modifies this`displayName, this`environment, this`ipAddress, this`operatingSystem, this`tags
      ensures this.displayName == displayName && this.environment == environment
      ensures this.ipAddress == ipAddress && this.operatingSystem == operatingSystem
      ensures tagsToApply.None? ==> tags == old(tags)
      ensures tagsToApply.Some? ==> tags == MergeTags(old(tags), tagsToApply.value)
      ensures TagsDistinct(old(tags)) ==> TagsDistinct(tags)
    {
      this.displayName := displayName;
      this.environment := environment;
      this.ipAddress := ipAddress;
      this.operatingSystem := operatingSystem;
      if tagsToApply.Some? {
        var input := tagsToApply.value;
        var i := 0;
        while i < |input|
          invariant 0 <= i <= |input|
          invariant tags == MergeTags(old(tags), input[..i])
          invariant this.displayName == displayName && this.environment == environment
          invariant this.ipAddress == ipAddress && this.operatingSystem == operatingSystem
        {
          var tag := input[i];
          if !HasTag(tags, tag) {
            tags := tags + [tag];
          }
          assert input[..i + 1][..i] == input[..i];
          i := i + 1;
        }
        assert input[..|input|] == input;
      }
    }

    method AddService(service: MonitoredService)
      modifies this`services
      ensures services == Upsert(old(services), ServiceId, service)
      ensures old(Valid()) ==> Valid()
    {
      if UniqueKeys(services, ServiceId) {
        UpsertUnique(services, ServiceId, service);
      }
      services := Upsert(services, ServiceId, service);
    }

    method RemoveService(serviceId: Id)
      modifies this`services
      ensures services == RemoveKey(old(services), ServiceId, serviceId)
      ensures old(Valid()) ==> Valid()
    {
      if UniqueKeys(services, ServiceId) {
        RemoveKeyUnique(services, ServiceId, serviceId);
      }
      services := RemoveKey(services, ServiceId, serviceId);
    }

    method AddScheduledTask(task: ScheduledTask)
      modifies this`scheduledTasks
      ensures scheduledTasks == Upsert(old(scheduledTasks), ScheduledTaskId, task)
      ensures old(Valid()) ==> Valid()
    {
      if UniqueKeys(scheduledTasks, ScheduledTaskId) {
        UpsertUnique(scheduledTasks, ScheduledTaskId, task);
      }
      scheduledTasks := Upsert(scheduledTasks, ScheduledTaskId, task);
    }

    method RemoveScheduledTask(taskId: Id)
      modifies this`scheduledTasks
      ensures scheduledTasks == RemoveKey(old(scheduledTasks), ScheduledTaskId, taskId)
      ensures old(Valid()) ==> Valid()
    {
      if UniqueKeys(scheduledTasks, ScheduledTaskId) {
        RemoveKeyUnique(scheduledTasks, ScheduledTaskId, taskId);
      }
      scheduledTasks := RemoveKey(scheduledTasks, ScheduledTaskId, taskId);
    }

    method AddAppPool(pool: AppPool)
      modifies this`appPools
      ensures appPools == Upsert(old(appPools), AppPoolId, pool)
      ensures old(Valid()) ==> Valid()
    {
      if UniqueKeys(appPools, AppPoolId) {
        UpsertUnique(appPools, AppPoolId, pool);
      }
      appPools := Upsert(appPools, AppPoolId, pool);
    }

    method AddIisSite(site: IisSite)
      modifies this`iisSites
      ensures iisSites == Upsert(old(iisSites), IisSiteId, site)
      ensures old(Valid()) ==> Valid()
    {
      if UniqueKeys(iisSites, IisSiteId) {
        UpsertUnique(iisSites, IisSiteId, site);
      }
      iisSites := Upsert(iisSites, IisSiteId, site);
    }

    method AddLogFile(logFile: LogFile)
      modifies this`logFiles
      ensures logFiles == Upsert(old(logFiles), LogFileId, logFile)
      ensures old(Valid()) ==> Valid()
    {
      if UniqueKeys(logFiles, LogFileId) {
        UpsertUnique(logFiles, LogFileId, logFile);
      }
      logFiles := Upsert(logFiles, LogFileId, logFile);
    }

    /** Metric points are appended without any deduplication. */
    method AddMetricPoint(point: MetricPoint)
      modifies this`metricPoints
      ensures metricPoints == old(metricPoints) + [point]
    {
      metricPoints := metricPoints + [point];
    }
  }
}

=== FILE: lists.dfy ===
/** The collection operations the core uses on its lists: List.RemoveAll, the
    "remove then add" upsert, LINQ Where / OrderBy / Skip / Take, and the
    repository's page arithmetic. */
module Lists {
  import opened Common

  predicate Distinct<T(==)>(s: seq<T>)
  {
    forall i, j | 0 <= i < j < |s| :: s[i] != s[j]
  }

  /** No two elements share a key. */
  predicate UniqueKeys<T, K(==)>(s: seq<T>, key: T -> K)
  {
    forall i, j | 0 <= i < j < |s| :: key(s[i]) != key(s[j])
  }

  predicate HasKey<T, K(==)>(s: seq<T>, key: T -> K, k: K)
  {
    exists i | 0 <= i < |s| :: key(s[i]) == k
  }

  /** LINQ Where: keeps, in order, the elements satisfying `p`. */
  function Filter<T>(s: seq<T>, p: T -> bool): (r: seq<T>)
    ensures |r| <= |s|
    ensures forall i | 0 <= i < |r| :: r[i] in s && p(r[i])
    ensures forall i | 0 <= i < |s| && p(s[i]) :: s[i] in r
    ensures multiset(r) <= multiset(s)
  {
    if s == [] then []
    else
      assert s == [s[0]] + s[1..];
      (if p(s[0]) then [s[0]] else []) + Filter(s[1..], p)
  }

  /** A filter every element passes keeps everything. */
  lemma {:induction false} FilterAll<T>(s: seq<T>, p: T -> bool)
    requires forall i | 0 <= i < |s| :: p(s[i])
    ensures Filter(s, p) == s
  {
    if s != [] {
      FilterAll(s[1..], p);
    }
  }

  /** Every element fails the filter or passes its complement, never both:
      the two filters split the sequence. */
  lemma {:induction false} FilterComplement<T>(s: seq<T>, p: T -> bool, q: T -> bool)
    requires forall i | 0 <= i < |s| :: q(s[i]) == !p(s[i])
    ensures |Filter(s, p)| + |Filter(s, q)| == |s|
  {
    if s != [] {
      FilterComplement(s[1..], p, q);
    }
  }

  /** Two filters no element passes together keep at most the whole sequence between them. */
  lemma {:induction false} FilterDisjoint<T>(s: seq<T>, p: T -> bool, q: T -> bool)
    requires forall i | 0 <= i < |s| :: !(p(s[i]) && q(s[i]))
    ensures |Filter(s, p)| + |Filter(s, q)| <= |s|
  {
    if s != [] {
      FilterDisjoint(s[1..], p, q);
    }
  }

  /** A stricter filter keeps no more elements. */
  lemma {:induction false} FilterImplies<T>(s: seq<T>, p: T -> bool, q: T -> bool)
    requires forall i | 0 <= i < |s| :: p(s[i]) ==> q(s[i])
    ensures |Filter(s, p)| <= |Filter(s, q)|
  {
    if s != [] {
      FilterImplies(s[1..], p, q);
    }
  }

  /** A filter no element passes keeps nothing. */
  lemma {:induction false} FilterNone<T>(s: seq<T>, p: T -> bool)
    requires forall i | 0 <= i < |s| :: !p(s[i])
    ensures Filter(s, p) == []
  {
    if s != [] {
      FilterNone(s[1..], p);
    }
  }

  lemma {:induction false} FilterDistinct<T>(s: seq<T>, p: T -> bool)
    requires Distinct(s)
    ensures Distinct(Filter(s, p))
  {
    if s != [] {
      FilterDistinct(s[1..], p);
      assert s[0] !in s[1..];
    }
  }

  /** A filter keeps the relative order of what it keeps: filtering a
      concatenation filters each part. */
  lemma {:induction false} FilterAppend<T>(a: seq<T>, b: seq<T>, p: T -> bool)
    ensures Filter(a + b, p) == Filter(a, p) + Filter(b, p)
  {
    if a == [] {
      assert a + b == b;
    } else {
      assert (a + b)[1..] == a[1..] + b;
      FilterAppend(a[1..], b, p);
    }
  }

  /** A permutation of a duplicate-free sequence is duplicate-free. */
  lemma PermutationDistinct<T>(a: seq<T>, b: seq<T>)
    requires multiset(a) == multiset(b)
    requires Distinct(a)
    ensures Distinct(b)
  {
    forall i, j | 0 <= i < j < |b| ensures b[i] != b[j] {
      if b[i] == b[j] {
        var x := b[i];
        assert b == b[..j] + b[j..];
        assert x in multiset(b[..j]) && x in multiset(b[j..]);
        assert multiset(b)[x] >= 2;
        DistinctMultiplicity(a, x);
      }
    }
  }

  lemma {:induction false} DistinctMultiplicity<T>(s: seq<T>, x: T)
    requires Distinct(s)
    ensures multiset(s)[x] <= 1
  {
    if s != [] {
      assert s == [s[0]] + s[1..];
      assert Distinct(s[1..]) by {
        forall i, j | 0 <= i < j < |s[1..]| ensures s[1..][i] != s[1..][j] {
          assert s[1..][i] == s[i + 1] && s[1..][j] == s[j + 1];
        }
      }
      DistinctMultiplicity(s[1..], x);
      if x == s[0] {
        assert x !in s[1..];
      }
    }
  }

  /** The first components of a sequence of pairs. */
  function Firsts<A, B>(s: seq<(A, B)>): (r: seq<A>)
    ensures |r| == |s|
    ensures forall i | 0 <= i < |s| :: r[i] == s[i].0
  {
    if s == [] then [] else [s[0].0] + Firsts(s[1..])
  }

  /** List.RemoveAll(x => key(x) == k). */
  function RemoveKey<T, K(==)>(s: seq<T>, key: T -> K, k: K): (r: seq<T>)
    ensures forall i | 0 <= i < |r| :: r[i] in s && key(r[i]) != k
    ensures forall i | 0 <= i < |s| && key(s[i]) != k :: s[i] in r
    ensures |r| <= |s|
  {
    Filter(s, x => key(x) != k)
  }

  /** Removing a key that no element carries changes nothing. */
  lemma {:induction false} RemoveKeyAbsent<T, K>(s: seq<T>, key: T -> K, k: K)
    requires !HasKey(s, key, k)
    ensures RemoveKey(s, key, k) == s
  {
    if s != [] {
      RemoveKeyAbsent(s[1..], key, k);
      assert key(s[0]) != k;
      assert s == [s[0]] + s[1..];
    }
  }

  /** Removal works part by part: what is kept from a prefix comes before
      what is kept from the rest. */
  lemma RemoveKeyAppend<T, K>(a: seq<T>, b: seq<T>, key: T -> K, k: K)
    ensures RemoveKey(a + b, key, k) == RemoveKey(a, key, k) + RemoveKey(b, key, k)
  {
    FilterAppend(a, b, x => key(x) != k);
  }

  /** The kept elements keep their relative order. */
  lemma RemoveKeyKeepsOrder<T, K>(s: seq<T>, key: T -> K, k: K, i: int, j: int)
    requires 0 <= i < j < |s| && key(s[i]) != k && key(s[j]) != k
    ensures exists i', j' | 0 <= i' < j' < |RemoveKey(s, key, k)| ::
              RemoveKey(s, key, k)[i'] == s[i] && RemoveKey(s, key, k)[j'] == s[j]
  {
    var front, back := s[..j], s[j..];
    assert s == front + back;
    RemoveKeyAppend(front, back, key, k);
    var r, rf, rb := RemoveKey(s, key, k), RemoveKey(front, key, k), RemoveKey(back, key, k);
    assert front[i] == s[i] && back[0] == s[j];
    var i' :| 0 <= i' < |rf| && rf[i'] == s[i];
    var m :| 0 <= m < |rb| && rb[m] == s[j];
    assert r[i'] == s[i] && r[|rf| + m] == s[j];
  }

  lemma RemoveKeyUnique<T, K>(s: seq<T>, key: T -> K, k: K)
    requires UniqueKeys(s, key)
    ensures UniqueKeys(RemoveKey(s, key, k), key)
    ensures !HasKey(RemoveKey(s, key, k), key, k)
  {
    RemoveKeyUniqueRec(s, key, k);
  }

  lemma {:induction false} RemoveKeyUniqueRec<T, K>(s: seq<T>, key: T -> K, k: K)
    requires UniqueKeys(s, key)
    ensures UniqueKeys(Filter(s, x => key(x) != k), key)
  {
    if s != [] {
      var r := Filter(s[1..], x => key(x) != k);
      RemoveKeyUniqueRec(s[1..], key, k);
      forall y | y in r ensures key(y) != key(s[0]) {
        var j :| 0 <= j < |s[1..]| && s[1..][j] == y;
        assert s[j + 1] == y;
      }
    }
  }

  /** RemoveAll then Add: the add-or-replace the entities use for keyed
      child lists. The new element goes last. */
  function Upsert<T, K(==)>(s: seq<T>, key: T -> K, x: T): (r: seq<T>)
    ensures |r| >= 1 && r[|r| - 1] == x
    ensures r[..|r| - 1] == RemoveKey(s, key, key(x))
    ensures forall i | 0 <= i < |r| - 1 :: r[i] in s && key(r[i]) != key(x)
    ensures forall i | 0 <= i < |s| && key(s[i]) != key(x) :: s[i] in r
  {
    RemoveKey(s, key, key(x)) + [x]
  }

  /** The elements Upsert keeps stay in their relative order, ahead of the
      new one; with the key absent, Upsert is a plain append. */
  lemma UpsertKeepsOrder<T, K>(s: seq<T>, key: T -> K, x: T, i: int, j: int)
    requires 0 <= i < j < |s| && key(s[i]) != key(x) && key(s[j]) != key(x)
    ensures exists i', j' | 0 <= i' < j' < |Upsert(s, key, x)| - 1 ::
              Upsert(s, key, x)[i'] == s[i] && Upsert(s, key, x)[j'] == s[j]
  {
    RemoveKeyKeepsOrder(s, key, key(x), i, j);
    var r := RemoveKey(s, key, key(x));
    var i', j' :| 0 <= i' < j' < |r| && r[i'] == s[i] && r[j'] == s[j];
    assert Upsert(s, key, x)[i'] == s[i] && Upsert(s, key, x)[j'] == s[j];
  }

  /** Upsert adds nothing but the new element. */
  lemma UpsertMembers<T, K>(s: seq<T>, key: T -> K, x: T, y: T)
    requires y in Upsert(s, key, x)
    ensures y == x || (y in s && key(y) != key(x))
  {
    var r := Upsert(s, key, x);
    var j :| 0 <= j < |r| && r[j] == y;
  }

  /** A key present before an Upsert is present after it. */
  lemma UpsertKeepsKey<T, K>(s: seq<T>, key: T -> K, x: T, k: K)
    requires HasKey(s, key, k)
    ensures HasKey(Upsert(s, key, x), key, k)
  {
    var r := Upsert(s, key, x);
    if k == key(x) {
      assert key(r[|r| - 1]) == k;
    } else {
      var m :| 0 <= m < |s| && key(s[m]) == k;
      var j :| 0 <= j < |r| && r[j] == s[m];
    }
  }

  lemma UpsertAbsent<T, K>(s: seq<T>, key: T -> K, x: T)
    requires !HasKey(s, key, key(x))
    ensures Upsert(s, key, x) == s + [x]
  {
    RemoveKeyAbsent(s, key, key(x));
  }

  /** Upsert keeps keys unique, and the element under the new key is the new one. */
  lemma UpsertUnique<T, K>(s: seq<T>, key: T -> K, x: T)
    requires UniqueKeys(s, key)
    ensures UniqueKeys(Upsert(s, key, x), key)
    ensures forall y | y in Upsert(s, key, x) && key(y) == key(x) :: y == x
  {
    var r := RemoveKey(s, key, key(x));
    RemoveKeyUnique(s, key, key(x));
    forall i | 0 <= i < |r| ensures key(r[i]) != key(x) {
      assert r[i] in r;
    }
  }

  /** Upsert replaces (length unchanged) when the key was present and grows
      the list by one otherwise. */
  lemma UpsertLength<T, K>(s: seq<T>, key: T -> K, x: T)
    requires UniqueKeys(s, key)
    ensures HasKey(s, key, key(x)) ==> |Upsert(s, key, x)| == |s|
    ensures !HasKey(s, key, key(x)) ==> |Upsert(s, key, x)| == |s| + 1
  {
    FilterCountKey(s, key, key(x));
  }

  lemma {:induction false} FilterCountKey<T, K>(s: seq<T>, key: T -> K, k: K)
    requires UniqueKeys(s, key)
    ensures HasKey(s, key, k) ==> |Filter(s, x => key(x) != k)| == |s| - 1
    ensures !HasKey(s, key, k) ==> |Filter(s, x => key(x) != k)| == |s|
  {
    if s != [] {
      FilterCountKey(s[1..], key, k);
      if key(s[0]) == k {
        assert HasKey(s, key, k);
      } else {
        if HasKey(s, key, k) {
          var j :| 0 <= j < |s| && key(s[j]) == k;
          assert key(s[1..][j - 1]) == k;
        }
        if HasKey(s[1..], key, k) {
          var j :| 0 <= j < |s[1..]| && key(s[1..][j]) == k;
          assert key(s[j + 1]) == k;
        }
      }
    }
  }

  /** `if (!list.Contains(x)) list.Add(x)`. */
  function AppendIfAbsent<T(==)>(s: seq<T>, x: T): (r: seq<T>)
    ensures x in r
    ensures forall i | 0 <= i < |s| :: s[i] in r
    ensures x in s ==> r == s
    ensures x !in s ==> r == s + [x]
    ensures Distinct(s) ==> Distinct(r)
  {
    if x in s then s else s + [x]
  }

  // ---------------------------------------------------------------------------
  // Ordering. LINQ OrderBy is a stable sort on a key under a comparer; the
  // model uses insertion sort, which is stable, over a total preorder.

  ghost predicate TotalPreorder<K(!new)>(le: (K, K) -> bool)
  {
    (forall a, b :: le(a, b) || le(b, a)) &&
    (forall a, b, c :: le(a, b) && le(b, c) ==> le(a, c))
  }

  ghost predicate SortedBy<T, K>(s: seq<T>, key: T -> K, le: (K, K) -> bool)
  {
    forall i, j | 0 <= i < j < |s| :: le(key(s[i]), key(s[j]))
  }

  function Insert<T, K>(x: T, s: seq<T>, key: T -> K, le: (K, K) -> bool): (r: seq<T>)
    ensures multiset(r) == multiset(s) + multiset{x}
  {
    if s == [] || le(key(x), key(s[0])) then [x] + s
    else
      assert s == [s[0]] + s[1..];
      [s[0]] + Insert(x, s[1..], key, le)
  }

  /** OrderBy(key): a permutation of the input. */
  function SortBy<T, K>(s: seq<T>, key: T -> K, le: (K, K) -> bool): (r: seq<T>)
    ensures multiset(r) == multiset(s)
    ensures |r| == |s|
  {
    if s == [] then []
    else
      assert s == [s[0]] + s[1..];
      Insert(s[0], SortBy(s[1..], key, le), key, le)
  }

  lemma {:induction false} InsertSorted<T, K(!new)>(x: T, s: seq<T>, key: T -> K, le: (K, K) -> bool)
    requires TotalPreorder(le)
    requires SortedBy(s, key, le)
    ensures SortedBy(Insert(x, s, key, le), key, le)
  {
    if s == [] || le(key(x), key(s[0])) {
      var r := [x] + s;
      forall i, j | 0 <= i < j < |r| ensures le(key(r[i]), key(r[j])) {
        if i == 0 && j > 1 {
          assert le(key(s[0]), key(s[j - 1]));
        }
      }
    } else {
      var t := Insert(x, s[1..], key, le);
      InsertSorted(x, s[1..], key, le);
      assert le(key(s[0]), key(x));
      var r := [s[0]] + t;
      forall j | 0 < j < |r| ensures le(key(s[0]), key(r[j])) {
        var y := t[j - 1];
        assert y in multiset(t);
        if y != x {
          assert y in multiset(s[1..]);
          var k :| 0 <= k < |s[1..]| && s[1..][k] == y;
          assert s[k + 1] == y;
        }
      }
    }
  }

  /** OrderBy yields a sequence ordered by the key. */
  lemma {:induction false} SortBySorted<T, K(!new)>(s: seq<T>, key: T -> K, le: (K, K) -> bool)
    requires TotalPreorder(le)
    ensures SortedBy(SortBy(s, key, le), key, le)
  {
    if s != [] {
      SortBySorted(s[1..], key, le);
      InsertSorted(s[0], SortBy(s[1..], key, le), key, le);
    }
  }

  /** Sorting neither adds nor loses elements. */
  lemma SortByMembers<T, K>(s: seq<T>, key: T -> K, le: (K, K) -> bool)
    ensures forall x :: x in SortBy(s, key, le) <==> x in s
  {
    var r := SortBy(s, key, le);
    forall x ensures x in r <==> x in s {
      assert x in r <==> x in multiset(r);
      assert x in s <==> x in multiset(s);
    }
  }

  lemma SortByDistinct<T, K>(s: seq<T>, key: T -> K, le: (K, K) -> bool)
    requires Distinct(s)
    ensures Distinct(SortBy(s, key, le))
  {
    PermutationDistinct(s, SortBy(s, key, le));
  }

  function Second<A, B>(p: (A, B)): B { p.1 }

  /** Sorting pairs on their second component and keeping the first: the
      decorate-sort-undecorate pattern used to order objects by a field. */
  lemma SortPairs<A, K(!new)>(s: seq<(A, K)>, le: (K, K) -> bool)
    requires TotalPreorder(le)
    ensures var sorted := SortBy(s, Second, le);
      |Firsts(sorted)| == |s| &&
      (forall k | 0 <= k < |sorted| :: sorted[k] in s) &&
      (forall i | 0 <= i < |s| :: s[i].0 in Firsts(sorted)) &&
      (forall i, j | 0 <= i < j < |sorted| :: le(sorted[i].1, sorted[j].1))
  {
    var sorted := SortBy(s, Second, le);
    var r := Firsts(sorted);
    SortByMembers(s, Second, le);
    SortBySorted(s, Second, le);
    forall i | 0 <= i < |s| ensures s[i].0 in r {
      assert s[i] in sorted;
      var j :| 0 <= j < |sorted| && sorted[j] == s[i];
      assert r[j] == s[i].0;
    }
    forall i, j | 0 <= i < j < |sorted| ensures le(sorted[i].1, sorted[j].1) {
      assert le(Second(sorted[i]), Second(sorted[j]));
    }
  }

  /** Taking the first n of a sorted list gives the n best: every element left
      out ranks no earlier than any element taken. */
  lemma TakeSortedIsTop<T, K(!new)>(s: seq<T>, key: T -> K, le: (K, K) -> bool, n: int, x: T, i: int)
    requires TotalPreorder(le)
    requires x in s && x !in Take(SortBy(s, key, le), n)
    requires 0 <= i < |Take(SortBy(s, key, le), n)|
    ensures le(key(Take(SortBy(s, key, le), n)[i]), key(x))
  {
    var sorted := SortBy(s, key, le);
    var r := Take(sorted, n);
    SortBySorted(s, key, le);
    assert x in multiset(sorted);
    var j :| 0 <= j < |sorted| && sorted[j] == x;
    assert r[i] == sorted[i];
  }

  predicate IntLe(a: int, b: int) { a <= b }

  predicate IntGe(a: int, b: int) { a >= b }

  lemma IntOrdersArePreorders()
    ensures TotalPreorder(IntLe)
    ensures TotalPreorder(IntGe)
  {
  }

  // ---------------------------------------------------------------------------
  // Paging.

  /** LINQ Take(n): the first n elements (none when n <= 0). */
  function Take<T>(s: seq<T>, n: int): (r: seq<T>)
    ensures |r| == if n <= 0 then 0 else Min(n, |s|)
    ensures r <= s
  {
    if n <= 0 then [] else if n < |s| then s[..n] else s
  }

  /** LINQ Skip(n): all but the first n elements (all when n <= 0). */
  function Skip<T>(s: seq<T>, n: int): (r: seq<T>)
    ensures |r| == |s| - Min(Max(n, 0), |s|)
    ensures forall i | 0 <= i < |r| :: r[i] == s[i + Min(Max(n, 0), |s|)]
  {
    if n <= 0 then s else if n < |s| then s[n..] else []
  }

  /** Page number and size are clamped to at least 1 before the offset is taken. */
  function PageSize(pageSize: int): int { Max(pageSize, 1) }

  /** `(Math.Max(page, 1) - 1) * Math.Max(pageSize, 1)` computed as a C# `int`:
      the product when it fits, otherwise the product wrapped modulo 2^32,
      which can be negative. */
  function PageOffset(page: int, pageSize: int): (r: int)
    ensures MinInt32 <= r <= MaxInt32
    ensures var n := (Max(page, 1) - 1) * PageSize(pageSize);
      n >= 0 && (n <= MaxInt32 ==> r == n) && (r - n) % 0x1_0000_0000 == 0
  {
    assert Max(page, 1) - 1 >= 0 && PageSize(pageSize) >= 1;
    Int32((Max(page, 1) - 1) * PageSize(pageSize))
  }

  /** `.Skip(offset).Take(size)` after clamping. `Skip` of a count at or below
      zero skips nothing, so the slice starts at the offset or at 0. */
  function Paginate<T>(s: seq<T>, page: int, pageSize: int): (r: seq<T>)
    ensures |r| <= PageSize(pageSize)
    ensures |r| == Max(0, Min(PageSize(pageSize), |s| - Max(PageOffset(page, pageSize), 0)))
    ensures forall i | 0 <= i < |r| :: r[i] == s[Max(PageOffset(page, pageSize), 0) + i]
  {
    var off := PageOffset(page, pageSize);
    Take(Skip(s, off), PageSize(pageSize))
  }

  /** An offset that wraps to zero or below yields the first page, whatever
      page number was asked for. */
  lemma WrappedOffsetIsFirstPage<T>(s: seq<T>, page: int, pageSize: int)
    requires PageOffset(page, pageSize) <= 0
    ensures Paginate(s, page, pageSize) == Paginate(s, 1, pageSize)
  {
    var r, r1 := Paginate(s, page, pageSize), Paginate(s, 1, pageSize);
    assert PageOffset(1, pageSize) == 0;
    assert |r| == |r1|;
    forall i | 0 <= i < |r| ensures r[i] == r1[i] {
      assert r[i] == s[i] == r1[i];
    }
  }

  /** Page 3 with 2^30 items per page: the offset 2^31 wraps to int.MinValue
      and the call returns the first items instead of an empty page. */
  lemma PageOffsetWraps()
    ensures PageOffset(3, 0x4000_0000) == MinInt32
    ensures Paginate([10, 20, 30], 3, 0x4000_0000) == [10, 20, 30]
  {
    assert PageOffset(3, 0x4000_0000) == Int32(0x8000_0000);
  }

  /** A page of a sorted list is sorted, and a page of a duplicate-free list
      is duplicate-free. */
  lemma PaginateKeepsOrder<T, K>(s: seq<T>, key: T -> K, le: (K, K) -> bool, page: int, pageSize: int)
    ensures SortedBy(s, key, le) ==> SortedBy(Paginate(s, page, pageSize), key, le)
    ensures Distinct(s) ==> Distinct(Paginate(s, page, pageSize))
  {
    var r := Paginate(s, page, pageSize);
    var off := Max(PageOffset(page, pageSize), 0);
    assert forall i | 0 <= i < |r| :: r[i] == s[off + i];
  }

  /** The same for a prefix. */
  lemma TakeKeepsOrder<T, K>(s: seq<T>, key: T -> K, le: (K, K) -> bool, n: int)
    ensures SortedBy(s, key, le) ==> SortedBy(Take(s, n), key, le)
    ensures Distinct(s) ==> Distinct(Take(s, n))
  {
    var r := Take(s, n);
    assert forall i | 0 <= i < |r| :: r[i] == s[i];
  }

  /** The page that holds element i: the one whose window of PageSize
      elements, starting at its offset, contains index i. A .NET list holds
      fewer than int.MaxValue + 1 elements, so the page number is an `int`
      and its offset does not wrap. */
  function PageOf(i: nat, pageSize: int): (p: int)
    requires i < MaxInt32
    ensures 1 <= p <= MaxInt32
    ensures 0 <= PageOffset(p, pageSize) <= i < PageOffset(p, pageSize) + PageSize(pageSize)
  {
    var sz := PageSize(pageSize);
    assert (i / sz) * sz + i % sz == i;
    assert i / sz <= (i / sz) * sz;
    i / sz + 1
  }

  /** Paging loses nothing: each element of a list that .NET can hold is on
      some page whose number is an `int`. */
  lemma OnSomePage<T>(s: seq<T>, pageSize: int, x: T)
    requires |s| <= MaxInt32 && x in s
    ensures exists page | 1 <= page <= MaxInt32 :: x in Paginate(s, page, pageSize)
  {
    var i :| 0 <= i < |s| && s[i] == x;
    var page := PageOf(i, pageSize);
    PageContains(s, pageSize, i);
    var r := Paginate(s, page, pageSize);
    assert r[i - PageOffset(page, pageSize)] == x;
  }

  /** Element i sits at position i - offset of the page PageOf(i) names. */
  lemma PageContains<T>(s: seq<T>, pageSize: int, i: int)
    requires 0 <= i < |s| <= MaxInt32
    ensures var p := PageOf(i, pageSize);
      i - PageOffset(p, pageSize) < |Paginate(s, p, pageSize)| &&
      Paginate(s, p, pageSize)[i - PageOffset(p, pageSize)] == s[i]
  {
  }
}

=== FILE: queries.dfy ===
/** The read side of the in-memory store: each listing is a filter, then a
    stable sort, then (for the paged ones) a skip/take window, applied to the
    dictionary's values in whatever order the dictionary enumerates them. */
module Queries {
  import opened Common
  import opened Lists
  import opened Alerting
  import opened Inventory
  import opened Admin

  datatype PagedResult<T> = PagedResult(total: int, items: seq<T>)

  /** A text filter applies only when the argument is not null or white space. */
  function TextFilter(s: Option<string>): (r: Option<string>)
    ensures r.None? <==> IsNullOrWhiteSpace(s)
    ensures r.Some? ==> r == s
  {
    if IsNullOrWhiteSpace(s) then None else s
  }

  /** The page the repository returns out of `ordered`, with the unpaged count. */
  function PagedView<T>(ordered: seq<T>, page: int, pageSize: int): PagedResult<T>
  {
    PagedResult(|ordered|, Paginate(ordered, page, pageSize))
  }

  // ---------------------------------------------------------------------------
  // Servers.

  function EnvironmentName(e: EnvironmentType): string { e.Name() }

  /** The environment filter applies only when the argument is not blank and
      names an environment, ignoring case; an unknown name filters nothing. */
  function EnvironmentFilter(environment: Option<string>): (r: Option<EnvironmentType>)
    ensures r.Some? ==> !IsNullOrWhiteSpace(environment) &&
                        EqualsIgnoreCase(r.value.Name(), environment.value)
    ensures r.None? && !IsNullOrWhiteSpace(environment) ==>
              forall i | 0 <= i < |AllEnvironments| ::
                !EqualsIgnoreCase(AllEnvironments[i].Name(), environment.value)
  {
    if IsNullOrWhiteSpace(environment) then None
    else TryParseName(AllEnvironments, EnvironmentName, environment.value)
  }

  predicate ServerMatches(s: Server, env: Option<EnvironmentType>, search: Option<string>)
    reads s
  {
    (env.None? || s.environment == env.value) &&
    (search.None? || ContainsIgnoreCase(s.hostname, search.value) ||
      (s.displayName.Some? && ContainsIgnoreCase(s.displayName.value, search.value)))
  }

  /** `Where` over the servers: exactly those that match, in enumeration order. */
  function FilterServers(vs: seq<Server>, env: Option<EnvironmentType>, search: Option<string>): (r: seq<Server>)
    reads vs
    ensures |r| <= |vs|
    ensures forall i | 0 <= i < |r| :: r[i] in vs && ServerMatches(r[i], env, search)
    ensures forall i | 0 <= i < |vs| && ServerMatches(vs[i], env, search) :: vs[i] in r
    ensures Distinct(vs) ==> Distinct(r)
  {
    if vs == [] then []
    else
      var rest := FilterServers(vs[1..], env, search);
      assert Distinct(vs) ==> vs[0] !in rest && Distinct(vs[1..]) by {
        if Distinct(vs) {
          forall i, j | 0 <= i < j < |vs[1..]| ensures vs[1..][i] != vs[1..][j] {
            assert vs[1..][i] == vs[i + 1] && vs[1..][j] == vs[j + 1];
          }
        }
      }
      assert forall i | 1 <= i < |vs| :: vs[i] == vs[1..][i - 1];
      (if ServerMatches(vs[0], env, search) then [vs[0]] else []) + rest
  }

  function Hostname(s: Server): string { s.hostname }

  // `OrderBy` on a string key without a comparer uses the default string
  // comparer, which orders by the current culture. Every listing that sorts
  // by a name takes that order as the parameter `collation`; the lemmas hold
  // for any collation that is a total preorder.

  /** The servers that pass both filters, ordered by host name. */
  function OrderedServers(vs: seq<Server>, environment: Option<string>, search: Option<string>,
                          collation: (string, string) -> bool): seq<Server>
    reads vs
  {
    SortBy(FilterServers(vs, EnvironmentFilter(environment), TextFilter(search)), Hostname, collation)
  }

  /** ListServersAsync over the enumerated servers `vs`. */
  function ListServers(vs: seq<Server>, environment: Option<string>, search: Option<string>,
                       page: int, pageSize: int, collation: (string, string) -> bool): (r: PagedResult<Server>)
    reads vs
    ensures r.total == |FilterServers(vs, EnvironmentFilter(environment), TextFilter(search))|
    ensures |r.items| <= PageSize(pageSize) && |r.items| <= r.total
  {
    PagedView(OrderedServers(vs, environment, search, collation), page, pageSize)
  }

  /** Every listed server exists and passes the filters, the page is in
      host-name order, and no server is listed twice. */
  lemma ListServersSound(vs: seq<Server>, environment: Option<string>, search: Option<string>,
                         page: int, pageSize: int, collation: (string, string) -> bool)
    ensures var r := ListServers(vs, environment, search, page, pageSize, collation);
      (forall s | s in r.items :: s in vs && ServerMatches(s, EnvironmentFilter(environment), TextFilter(search))) &&
      (TotalPreorder(collation) ==> SortedBy(r.items, Hostname, collation)) &&
      (Distinct(vs) ==> Distinct(r.items))
  {
    var filtered := FilterServers(vs, EnvironmentFilter(environment), TextFilter(search));
    var ordered := OrderedServers(vs, environment, search, collation);
    SortByMembers(filtered, Hostname, collation);
    if TotalPreorder(collation) {
      SortBySorted(filtered, Hostname, collation);
    }
    if Distinct(vs) {
      SortByDistinct(filtered, Hostname, collation);
    }
    PaginateKeepsOrder(ordered, Hostname, collation, page, pageSize);
    var items := Paginate(ordered, page, pageSize);
    forall s | s in items ensures s in vs && ServerMatches(s, EnvironmentFilter(environment), TextFilter(search)) {
      ListedServerMatches(vs, environment, search, page, pageSize, collation, s);
    }
  }

  /** One listed server: it is enumerated and passes the filters. */
  lemma ListedServerMatches(vs: seq<Server>, environment: Option<string>, search: Option<string>,
                            page: int, pageSize: int, collation: (string, string) -> bool, s: Server)
    requires s in ListServers(vs, environment, search, page, pageSize, collation).items
    ensures s in vs && ServerMatches(s, EnvironmentFilter(environment), TextFilter(search))
  {
    var filtered := FilterServers(vs, EnvironmentFilter(environment), TextFilter(search));
    var ordered := OrderedServers(vs, environment, search, collation);
    var items := Paginate(ordered, page, pageSize);
    SortByMembers(filtered, Hostname, collation);
    var i :| 0 <= i < |items| && items[i] == s;
    assert s in ordered;
    var k :| 0 <= k < |filtered| && filtered[k] == s;
  }

  /** Paging loses nothing: every server that passes the filters is on some page. */
  lemma ListServersComplete(vs: seq<Server>, environment: Option<string>, search: Option<string>,
                            pageSize: int, collation: (string, string) -> bool, s: Server)
    requires |vs| <= MaxInt32
    requires s in vs && ServerMatches(s, EnvironmentFilter(environment), TextFilter(search))
    ensures exists page | 1 <= page <= MaxInt32 :: s in ListServers(vs, environment, search, page, pageSize, collation).items
  {
    var filtered := FilterServers(vs, EnvironmentFilter(environment), TextFilter(search));
    var ordered := OrderedServers(vs, environment, search, collation);
    var k :| 0 <= k < |vs| && vs[k] == s;
    assert s in filtered;
    SortByMembers(filtered, Hostname, collation);
    assert |ordered| == |filtered| <= |vs|;
    OnSomePage(ordered, pageSize, s);
    var page :| 1 <= page <= MaxInt32 && s in Paginate(ordered, page, pageSize);
    assert ListServers(vs, environment, search, page, pageSize, collation).items == Paginate(ordered, page, pageSize);
  }

  // ---------------------------------------------------------------------------
  // Log search.

  datatype LogQuery = LogQuery(serverIds: Option<seq<Id>>, logFileIds: Option<seq<Id>>,
                               severities: Option<seq<string>>, text: Option<string>,
                               from: Option<Time>, to: Option<Time>)

  /** A collection filter applies only when it is present and non-empty. */
  predicate InCollection<T(==)>(filter: Option<seq<T>>, x: T)
  {
    filter.None? || |filter.value| == 0 || x in filter.value
  }

  /** The severity filter compares names ignoring case. */
  predicate SeverityIn(filter: Option<seq<string>>, severity: string)
  {
    filter.None? || |filter.value| == 0 ||
    exists i | 0 <= i < |filter.value| :: EqualsIgnoreCase(filter.value[i], severity)
  }

  predicate LogMatches(e: LogEntry, q: LogQuery)
  {
    InCollection(q.serverIds, e.serverId) &&
    InCollection(q.logFileIds, e.logFileId) &&
    SeverityIn(q.severities, e.severity) &&
    (IsNullOrWhiteSpace(q.text) || ContainsIgnoreCase(e.message, q.text.value)) &&
    (q.from.None? || e.timestamp >= q.from.value) &&
    (q.to.None? || e.timestamp <= q.to.value)
  }

  function MatchesQuery(q: LogQuery): LogEntry -> bool
  {
    (e: LogEntry) => LogMatches(e, q)
  }

  function Timestamp(e: LogEntry): Time { e.timestamp }

  /** SearchLogsAsync over the enumerated log entries `vs`: newest first. */
  function SearchLogs(vs: seq<LogEntry>, q: LogQuery, page: int, pageSize: int): (r: PagedResult<LogEntry>)
    ensures r.total == |Filter(vs, MatchesQuery(q))| && r.total <= |vs|
    ensures |r.items| <= PageSize(pageSize) && |r.items| <= r.total
  {
    PagedView(SortBy(Filter(vs, MatchesQuery(q)), Timestamp, IntGe), page, pageSize)
  }

  /** Every returned entry exists and passes every supplied filter, newest first. */
  lemma SearchLogsSound(vs: seq<LogEntry>, q: LogQuery, page: int, pageSize: int)
    ensures var r := SearchLogs(vs, q, page, pageSize);
      (forall e | e in r.items :: e in vs && LogMatches(e, q)) &&
      SortedBy(r.items, Timestamp, IntGe)
  {
    var matching := Filter(vs, MatchesQuery(q));
    var ordered := SortBy(matching, Timestamp, IntGe);
    SortByMembers(matching, Timestamp, IntGe);
    IntOrdersArePreorders();
    SortBySorted(matching, Timestamp, IntGe);
    PaginateKeepsOrder(ordered, Timestamp, IntGe, page, pageSize);
    var items := Paginate(ordered, page, pageSize);
    forall e | e in items ensures e in vs && LogMatches(e, q) {
      var i :| 0 <= i < |items| && items[i] == e;
      assert e in ordered;
      var k :| 0 <= k < |matching| && matching[k] == e;
    }
  }

  /** Paging loses nothing: every matching entry is on some page. */
  lemma SearchLogsComplete(vs: seq<LogEntry>, q: LogQuery, pageSize: int, e: LogEntry)
    requires |vs| <= MaxInt32
    requires e in vs && LogMatches(e, q)
    ensures exists page | 1 <= page <= MaxInt32 :: e in SearchLogs(vs, q, page, pageSize).items
  {
    var matching := Filter(vs, MatchesQuery(q));
    var ordered := SortBy(matching, Timestamp, IntGe);
    assert MatchesQuery(q)(e);
    assert e in matching;
    SortByMembers(matching, Timestamp, IntGe);
    assert |ordered| == |matching| <= |vs|;
    OnSomePage(ordered, pageSize, e);
    var page :| 1 <= page <= MaxInt32 && e in Paginate(ordered, page, pageSize);
    assert SearchLogs(vs, q, page, pageSize).items == Paginate(ordered, page, pageSize);
  }

  /** With no filter supplied (or only empty ones) every entry matches, so the
      total is the size of the whole log. */
  lemma SearchLogsUnfiltered(vs: seq<LogEntry>, q: LogQuery, page: int, pageSize: int)
    requires q.serverIds.None? || q.serverIds == Some([])
    requires q.logFileIds.None? || q.logFileIds == Some([])
    requires q.severities.None? || q.severities == Some([])
    requires IsNullOrWhiteSpace(q.text) && q.from.None? && q.to.None?
    ensures SearchLogs(vs, q, page, pageSize).total == |vs|
  {
    FilterAll(vs, MatchesQuery(q));
  }

  // ---------------------------------------------------------------------------
  // Alerts.

  datatype AlertQuery = AlertQuery(status: Option<string>, severity: Option<string>,
                                   serverId: Option<Id>, sourceType: Option<string>)

  predicate AlertMatches(a: Alert, q: AlertQuery)
    reads a
  {
    (IsNullOrWhiteSpace(q.status) || EqualsIgnoreCase(a.status, q.status.value)) &&
    (IsNullOrWhiteSpace(q.severity) || EqualsIgnoreCase(a.severity.Name(), q.severity.value)) &&
    (q.serverId.None? || a.serverId == q.serverId) &&
    (IsNullOrWhiteSpace(q.sourceType) || EqualsIgnoreCase(a.sourceType, q.sourceType.value))
  }

  /** `Where` over the alerts: exactly those that match, in enumeration order. */
  function FilterAlerts(vs: seq<Alert>, q: AlertQuery): (r: seq<Alert>)
    reads vs
    ensures |r| <= |vs|
    ensures forall i | 0 <= i < |r| :: r[i] in vs && AlertMatches(r[i], q)
    ensures forall i | 0 <= i < |vs| && AlertMatches(vs[i], q) :: vs[i] in r
    ensures Distinct(vs) ==> Distinct(r)
  {
    if vs == [] then []
    else
      var rest := FilterAlerts(vs[1..], q);
      assert Distinct(vs) ==> vs[0] !in rest && Distinct(vs[1..]) by {
        if Distinct(vs) {
          forall i, j | 0 <= i < j < |vs[1..]| ensures vs[1..][i] != vs[1..][j] {
            assert vs[1..][i] == vs[i + 1] && vs[1..][j] == vs[j + 1];
          }
        }
      }
      assert forall i | 1 <= i < |vs| :: vs[i] == vs[1..][i - 1];
      (if AlertMatches(vs[0], q) then [vs[0]] else []) + rest
  }

  function CreatedAt(a: Alert): Time { a.createdAt }

  /** ListAlertsAsync over the enumerated alerts `vs`: every match, unpaged. */
  function ListAlerts(vs: seq<Alert>, q: AlertQuery): (r: PagedResult<Alert>)
    reads vs
    ensures r.total == |r.items| && r.total <= |vs|
  {
    var ordered := SortBy(FilterAlerts(vs, q), CreatedAt, IntGe);
    PagedResult(|ordered|, ordered)
  }

  /** Every listed alert exists and matches the query. */
  lemma ListAlertsSound(vs: seq<Alert>, q: AlertQuery, a: Alert)
    requires a in ListAlerts(vs, q).items
    ensures a in vs && AlertMatches(a, q)
  {
    var filtered := FilterAlerts(vs, q);
    SortByMembers(filtered, CreatedAt, IntGe);
    assert a in filtered;
    var k :| 0 <= k < |filtered| && filtered[k] == a;
  }

  /** Every matching alert is listed. */
  lemma ListAlertsComplete(vs: seq<Alert>, q: AlertQuery, a: Alert)
    requires a in vs && AlertMatches(a, q)
    ensures a in ListAlerts(vs, q).items
  {
    var filtered := FilterAlerts(vs, q);
    var k :| 0 <= k < |vs| && vs[k] == a;
    assert a in filtered;
    SortByMembers(filtered, CreatedAt, IntGe);
  }

  /** Newest first, none twice. */
  lemma ListAlertsOrdered(vs: seq<Alert>, q: AlertQuery)
    ensures SortedBy(ListAlerts(vs, q).items, CreatedAt, IntGe)
    ensures Distinct(vs) ==> Distinct(ListAlerts(vs, q).items)
  {
    var filtered := FilterAlerts(vs, q);
    IntOrdersArePreorders();
    SortBySorted(filtered, CreatedAt, IntGe);
    if Distinct(vs) {
      SortByDistinct(filtered, CreatedAt, IntGe);
    }
  }

  // ---------------------------------------------------------------------------
  // Service events.

  function OfService(serviceId: Id): ServiceEvent -> bool
  {
    (e: ServiceEvent) => e.serviceId == serviceId
  }

  function EventTime(e: ServiceEvent): Time { e.eventTime }

  /** ListServiceEventsAsync over the enumerated events `vs`: the newest
      `limit` events of the service (at least one is asked for). */
  function ListServiceEvents(vs: seq<ServiceEvent>, serviceId: Id, limit: int): (r: seq<ServiceEvent>)
    ensures |r| <= Max(limit, 1) && |r| <= |vs|
  {
    Take(SortBy(Filter(vs, OfService(serviceId)), EventTime, IntGe), Max(limit, 1))
  }

  /** The events returned belong to the service. */
  lemma ListServiceEventsSound(vs: seq<ServiceEvent>, serviceId: Id, limit: int, e: ServiceEvent)
    requires e in ListServiceEvents(vs, serviceId, limit)
    ensures e in vs && e.serviceId == serviceId
  {
    var matching := Filter(vs, OfService(serviceId));
    var ordered := SortBy(matching, EventTime, IntGe);
    assert ListServiceEvents(vs, serviceId, limit) == Take(ordered, Max(limit, 1));
    SortByMembers(matching, EventTime, IntGe);
    assert e in ordered;
    var k :| 0 <= k < |matching| && matching[k] == e;
  }

  /** The events returned come newest first. */
  lemma ListServiceEventsOrdered(vs: seq<ServiceEvent>, serviceId: Id, limit: int)
    ensures SortedBy(ListServiceEvents(vs, serviceId, limit), EventTime, IntGe)
  {
    var ordered := SortBy(Filter(vs, OfService(serviceId)), EventTime, IntGe);
    IntOrdersArePreorders();
    SortBySorted(Filter(vs, OfService(serviceId)), EventTime, IntGe);
    TakeKeepsOrder(ordered, EventTime, IntGe, Max(limit, 1));
  }

  /** No event of the service that was left out is newer than one returned. */
  lemma ListServiceEventsTop(vs: seq<ServiceEvent>, serviceId: Id, limit: int, e: ServiceEvent, i: int)
    requires e in vs && e.serviceId == serviceId
    requires e !in ListServiceEvents(vs, serviceId, limit)
    requires 0 <= i < |ListServiceEvents(vs, serviceId, limit)|
    ensures ListServiceEvents(vs, serviceId, limit)[i].eventTime >= e.eventTime
  {
    var matching := Filter(vs, OfService(serviceId));
    var k :| 0 <= k < |vs| && vs[k] == e;
    assert e in matching;
    IntOrdersArePreorders();
    var r := Take(SortBy(matching, EventTime, IntGe), Max(limit, 1));
    assert ListServiceEvents(vs, serviceId, limit) == r;
    TakeSortedIsTop(matching, EventTime, IntGe, Max(limit, 1), e, i);
  }

  // ---------------------------------------------------------------------------
  // Notifications of one alert, from the store's own notification map.

  /** Nullable ordering: null sorts before every time. */
  predicate OptLe(a: Option<Time>, b: Option<Time>)
  {
    a.None? || (b.Some? && a.value <= b.value)
  }

  predicate OptGe(a: Option<Time>, b: Option<Time>) { OptLe(b, a) }

  lemma OptGeIsPreorder()
    ensures TotalPreorder(OptGe)
  {
  }

  function OfAlert(alertId: Id): Notification -> bool
  {
    (n: Notification) => n.alertId == alertId
  }

  /** Each notification paired with its current last-attempt time, the sort key. */
  function WithLastAttempt(ns: seq<Notification>): (r: seq<(Notification, Option<Time>)>)
    reads ns
    ensures |r| == |ns|
    ensures forall i | 0 <= i < |ns| :: r[i] == (ns[i], ns[i].lastAttempt)
  {
    seq(|ns|, i reads ns requires 0 <= i < |ns| => (ns[i], ns[i].lastAttempt))
  }

  /** ListNotificationsAsync over the enumerated notifications `vs`. */
  function ListNotifications(vs: seq<Notification>, alertId: Id): (r: seq<Notification>)
    reads vs
    ensures |r| == |Filter(vs, OfAlert(alertId))|
  {
    Firsts(SortBy(WithLastAttempt(Filter(vs, OfAlert(alertId))), Second, OptGe))
  }

  /** The listing rearranges the alert's notifications: latest attempt first,
      those never attempted last. */
  lemma ListNotificationsShape(vs: seq<Notification>, alertId: Id)
    ensures var matching := Filter(vs, OfAlert(alertId));
      var r := ListNotifications(vs, alertId);
      (forall k | 0 <= k < |r| :: r[k] in matching) &&
      (forall m | 0 <= m < |matching| :: matching[m] in r) &&
      (forall i, j | 0 <= i < j < |r| :: OptGe(r[i].lastAttempt, r[j].lastAttempt))
  {
    var matching := Filter(vs, OfAlert(alertId));
    var decorated := WithLastAttempt(matching);
    var sorted := SortBy(decorated, Second, OptGe);
    var r := Firsts(sorted);
    OptGeIsPreorder();
    SortPairs(decorated, OptGe);
    forall k | 0 <= k < |sorted| ensures sorted[k].1 == r[k].lastAttempt && r[k] in matching {
      var m :| 0 <= m < |decorated| && decorated[m] == sorted[k];
    }
    forall m | 0 <= m < |matching| ensures matching[m] in r {
      assert decorated[m].0 == matching[m];
    }
  }

  /** Every listed notification belongs to the alert. */
  lemma ListNotificationsSound(vs: seq<Notification>, alertId: Id, n: Notification)
    requires n in ListNotifications(vs, alertId)
    ensures n in vs && n.alertId == alertId
  {
    var matching := Filter(vs, OfAlert(alertId));
    ListNotificationsShape(vs, alertId);
    var r := ListNotifications(vs, alertId);
    var k :| 0 <= k < |r| && r[k] == n;
    var m :| 0 <= m < |matching| && matching[m] == n;
  }

  /** Every notification of the alert is listed. */
  lemma ListNotificationsComplete(vs: seq<Notification>, alertId: Id, n: Notification)
    requires n in vs && n.alertId == alertId
    ensures n in ListNotifications(vs, alertId)
  {
    var matching := Filter(vs, OfAlert(alertId));
    ListNotificationsShape(vs, alertId);
    var k :| 0 <= k < |vs| && vs[k] == n;
    var m :| 0 <= m < |matching| && matching[m] == n;
  }

  // ---------------------------------------------------------------------------
  // Collectors, ordered by their current name.

  function WithName(cs: seq<Collector>): (r: seq<(Collector, string)>)
    reads cs
    ensures |r| == |cs|
    ensures forall i | 0 <= i < |cs| :: r[i] == (cs[i], cs[i].name)
  {
    seq(|cs|, i reads cs requires 0 <= i < |cs| => (cs[i], cs[i].name))
  }

  /** ListCollectorsAsync over the enumerated collectors `vs`. */
  function ListCollectors(vs: seq<Collector>, collation: (string, string) -> bool): (r: seq<Collector>)
    reads vs
    ensures |r| == |vs|
  {
    Firsts(SortBy(WithName(vs), Second, collation))
  }

  /** Only enumerated collectors are listed, in name order. */
  lemma ListCollectorsOrdered(vs: seq<Collector>, collation: (string, string) -> bool)
    requires TotalPreorder(collation)
    ensures var r := ListCollectors(vs, collation);
      (forall k | 0 <= k < |r| :: r[k] in vs) &&
      (forall i, j | 0 <= i < j < |r| :: collation(r[i].name, r[j].name))
  {
    var decorated := WithName(vs);
    var sorted := SortBy(decorated, Second, collation);
    var r := Firsts(sorted);
    SortPairs(decorated, collation);
    forall k | 0 <= k < |sorted| ensures sorted[k] == (r[k], r[k].name) && r[k] in vs {
      var m :| 0 <= m < |decorated| && decorated[m] == sorted[k];
    }
  }

  /** Every enumerated collector is listed. */
  lemma ListCollectorsComplete(vs: seq<Collector>, collation: (string, string) -> bool, c: Collector)
    requires c in vs
    ensures c in ListCollectors(vs, collation)
  {
    var decorated := WithName(vs);
    var sorted := SortBy(decorated, Second, collation);
    SortByMembers(decorated, Second, collation);
    var m :| 0 <= m < |vs| && vs[m] == c;
    assert decorated[m] in sorted;
    var j :| 0 <= j < |sorted| && sorted[j] == decorated[m];
    assert Firsts(sorted)[j] == c;
  }

  /** No collector is listed twice when none is enumerated twice. */
  lemma ListCollectorsDistinct(vs: seq<Collector>, collation: (string, string) -> bool)
    requires Distinct(vs)
    ensures Distinct(ListCollectors(vs, collation))
  {
    var decorated := WithName(vs);
    var sorted := SortBy(decorated, Second, collation);
    assert Distinct(decorated) by {
      forall i, j | 0 <= i < j < |decorated| ensures decorated[i] != decorated[j] {
        assert decorated[i].0 == vs[i] && decorated[j].0 == vs[j];
      }
    }
    SortByDistinct(decorated, Second, collation);
    SortByMembers(decorated, Second, collation);
    var r := Firsts(sorted);
    forall i, j | 0 <= i < j < |r| ensures r[i] != r[j] {
      assert sorted[i] in decorated && sorted[j] in decorated;
      var a :| 0 <= a < |decorated| && decorated[a] == sorted[i];
      var b :| 0 <= b < |decorated| && decorated[b] == sorted[j];
      assert a != b;
    }
  }

  /** Every collector, each once, ordered by name under the collation. */
  lemma ListCollectorsSpec(vs: seq<Collector>, collation: (string, string) -> bool)
    ensures var r := ListCollectors(vs, collation);
      (forall c | c in r :: c in vs) &&
      (forall c | c in vs :: c in r) &&
      (TotalPreorder(collation) ==> forall i, j | 0 <= i < j < |r| :: collation(r[i].name, r[j].name)) &&
      (Distinct(vs) ==> Distinct(r))
  {
    var r := ListCollectors(vs, collation);
    forall c | c in r ensures c in vs {
      var decorated := WithName(vs);
      var sorted := SortBy(decorated, Second, collation);
      SortByMembers(decorated, Second, collation);
      assert r == Firsts(sorted);
      var k :| 0 <= k < |r| && r[k] == c;
      assert sorted[k] in sorted;
      var m :| 0 <= m < |decorated| && decorated[m] == sorted[k];
      assert c == vs[m];
    }
    forall c | c in vs ensures c in r {
      ListCollectorsComplete(vs, collation, c);
    }
    if TotalPreorder(collation) {
      ListCollectorsOrdered(vs, collation);
    }
    if Distinct(vs) {
      ListCollectorsDistinct(vs, collation);
    }
  }
}

=== FILE: service.dfy ===
/** The application service: enum parsing with defaults, the server detail
    summaries, the recent-alerts panel, and the operations that fetch an
    entity, change it and write it back to the store. */
module Service {
  import opened Common
  import opened Lists
  import opened Alerting
  import opened Inventory
  import opened Admin
  import Queries
  import Store

  // ---------------------------------------------------------------------------
  // Enum.TryParse(value, ignoreCase: true), falling back to a fixed default.

  function DesiredStateName(s: ServiceDesiredState): string { s.Name() }
  function SeverityName(s: AlertSeverity): string { s.Name() }
  function CollectorTypeName(t: CollectorType): string { t.Name() }

  /** Names whose first letters differ even after upper-casing are not equal ignoring case. */
  lemma FirstLettersDiffer(a: string, b: string)
    requires |a| > 0 && |b| > 0 && UpperChar(a[0]) != UpperChar(b[0])
    ensures !EqualsIgnoreCase(a, b)
  {
    assert Upper(a)[0] != Upper(b)[0];
  }

  lemma EnvironmentNamesDistinct()
    ensures NamesDistinct(AllEnvironments, Queries.EnvironmentName)
  {
    forall i, j | 0 <= i < j < |AllEnvironments|
      ensures !EqualsIgnoreCase(Queries.EnvironmentName(AllEnvironments[i]), Queries.EnvironmentName(AllEnvironments[j]))
    {
      FirstLettersDiffer(AllEnvironments[i].Name(), AllEnvironments[j].Name());
    }
  }

  lemma DesiredStateNamesDistinct()
    ensures NamesDistinct(AllDesiredStates, DesiredStateName)
  {
    forall i, j | 0 <= i < j < |AllDesiredStates|
      ensures !EqualsIgnoreCase(DesiredStateName(AllDesiredStates[i]), DesiredStateName(AllDesiredStates[j]))
    {
      FirstLettersDiffer(AllDesiredStates[i].Name(), AllDesiredStates[j].Name());
    }
  }

  lemma SeverityNamesDistinct()
    ensures NamesDistinct(AllSeverities, SeverityName)
  {
    forall i, j | 0 <= i < j < |AllSeverities|
      ensures !EqualsIgnoreCase(SeverityName(AllSeverities[i]), SeverityName(AllSeverities[j]))
    {
      FirstLettersDiffer(AllSeverities[i].Name(), AllSeverities[j].Name());
    }
  }

  lemma CollectorTypeNamesDistinct()
    ensures NamesDistinct(AllCollectorTypes, CollectorTypeName)
  {
    forall i, j | 0 <= i < j < |AllCollectorTypes|
      ensures !EqualsIgnoreCase(CollectorTypeName(AllCollectorTypes[i]), CollectorTypeName(AllCollectorTypes[j]))
    {
      FirstLettersDiffer(AllCollectorTypes[i].Name(), AllCollectorTypes[j].Name());
    }
  }

  /** The environment named by `value`, ignoring case; Dev when none is. */
  function ParseEnvironment(value: string): (r: EnvironmentType)
    ensures EqualsIgnoreCase(r.Name(), value) ||
            (r == Dev && forall i | 0 <= i < |AllEnvironments| :: !EqualsIgnoreCase(AllEnvironments[i].Name(), value))
  {
    match TryParseName(AllEnvironments, Queries.EnvironmentName, value)
    case Some(e) => e
    case None => Dev
  }

  /** Each environment's own name, in any letter case, parses back to it. */
  lemma ParseEnvironmentName(e: EnvironmentType, value: string)
    requires EqualsIgnoreCase(value, e.Name())
    ensures ParseEnvironment(value) == e
  {
    EnvironmentNamesDistinct();
    TryParseNameRoundTrip(AllEnvironments, Queries.EnvironmentName, e, value);
  }

  /** The desired state named by `value`, ignoring case; Running when none is. */
  function ParseDesiredState(value: string): (r: ServiceDesiredState)
    ensures EqualsIgnoreCase(r.Name(), value) ||
            (r == ServiceDesiredState.Running &&
             forall i | 0 <= i < |AllDesiredStates| :: !EqualsIgnoreCase(AllDesiredStates[i].Name(), value))
  {
    match TryParseName(AllDesiredStates, DesiredStateName, value)
    case Some(s) => s
    case None => ServiceDesiredState.Running
  }

  lemma ParseDesiredStateName(s: ServiceDesiredState, value: string)
    requires EqualsIgnoreCase(value, s.Name())
    ensures ParseDesiredState(value) == s
  {
    DesiredStateNamesDistinct();
    TryParseNameRoundTrip(AllDesiredStates, DesiredStateName, s, value);
  }

  /** The severity named by `value`, ignoring case; Warning when none is. */
  function ParseAlertSeverity(value: string): (r: AlertSeverity)
    ensures EqualsIgnoreCase(r.Name(), value) ||
            (r == AlertSeverity.Warning &&
             forall i | 0 <= i < |AllSeverities| :: !EqualsIgnoreCase(AllSeverities[i].Name(), value))
  {
    match TryParseName(AllSeverities, SeverityName, value)
    case Some(s) => s
    case None => AlertSeverity.Warning
  }

  lemma ParseAlertSeverityName(s: AlertSeverity, value: string)
    requires EqualsIgnoreCase(value, s.Name())
    ensures ParseAlertSeverity(value) == s
  {
    SeverityNamesDistinct();
    TryParseNameRoundTrip(AllSeverities, SeverityName, s, value);
  }

  /** The collector type named by `value`, ignoring case; Agent when none is. */
  function ParseCollectorType(value: string): (r: CollectorType)
    ensures EqualsIgnoreCase(r.Name(), value) ||
            (r == Agent && forall i | 0 <= i < |AllCollectorTypes| :: !EqualsIgnoreCase(AllCollectorTypes[i].Name(), value))
  {
    match TryParseName(AllCollectorTypes, CollectorTypeName, value)
    case Some(t) => t
    case None => Agent
  }

  lemma ParseCollectorTypeName(t: CollectorType, value: string)
    requires EqualsIgnoreCase(value, t.Name())
    ensures ParseCollectorType(value) == t
  {
    CollectorTypeNamesDistinct();
    TryParseNameRoundTrip(AllCollectorTypes, CollectorTypeName, t, value);
  }

  // ---------------------------------------------------------------------------
  // Server detail summaries. Services and tasks are objects whose state
  // changes, so the counts run over a snapshot of the fields they read.

  datatype ServiceView = ServiceView(state: ServiceState, critical: bool)

  function ServiceViews(services: seq<MonitoredService>): (r: seq<ServiceView>)
    reads services
    ensures |r| == |services|
    ensures forall i | 0 <= i < |services| :: r[i] == ServiceView(services[i].currentState, services[i].critical)
  {
    seq(|services|, i reads services requires 0 <= i < |services| =>
      ServiceView(services[i].currentState, services[i].critical))
  }

  predicate IsRunning(v: ServiceView) { v.state == ServiceState.Running }
  predicate IsStopped(v: ServiceView) { v.state == ServiceState.Stopped }
  predicate IsNotRunning(v: ServiceView) { v.state != ServiceState.Running }
  predicate IsCriticalDown(v: ServiceView) { v.critical && v.state != ServiceState.Running }

  datatype ServiceSummary = ServiceSummary(total: int, running: int, stopped: int, criticalAlerts: int)

  /** Running and stopped services are counted apart, so together they never
      exceed the total; a critical alert is a critical service that is not
      running, so there are never more of them than services not running. */
  function BuildServiceSummary(server: Server): (r: ServiceSummary)
    reads server, server.services
    ensures r.total == |server.services|
    ensures 0 <= r.running && 0 <= r.stopped && r.running + r.stopped <= r.total
    ensures 0 <= r.criticalAlerts <= r.total - r.running
  {
    var views := ServiceViews(server.services);
    FilterDisjoint(views, IsRunning, IsStopped);
    FilterImplies(views, IsCriticalDown, IsNotRunning);
    FilterComplement(views, IsRunning, IsNotRunning);
    ServiceSummary(|views|, |Filter(views, IsRunning)|, |Filter(views, IsStopped)|,
                   |Filter(views, IsCriticalDown)|)
  }

  /** A critical service that is not running raises the critical count. */
  lemma CriticalServiceDownIsCounted(server: Server, k: int)
    requires 0 <= k < |server.services|
    requires server.services[k].critical && server.services[k].currentState != ServiceState.Running
    ensures BuildServiceSummary(server).criticalAlerts >= 1
  {
    var views := ServiceViews(server.services);
    assert IsCriticalDown(views[k]);
    assert views[k] in Filter(views, IsCriticalDown);
  }

  /** When every service runs, all are counted running and none critical. */
  lemma AllServicesRunning(server: Server)
    requires forall i | 0 <= i < |server.services| :: server.services[i].currentState == ServiceState.Running
    ensures BuildServiceSummary(server).running == BuildServiceSummary(server).total
    ensures BuildServiceSummary(server).criticalAlerts == 0
  {
    var views := ServiceViews(server.services);
    FilterAll(views, IsRunning);
    FilterNone(views, IsCriticalDown);
  }

  datatype TaskView = TaskView(enabled: bool, lastRunResult: Option<string>)

  function TaskViews(tasks: seq<ScheduledTask>): (r: seq<TaskView>)
    reads tasks
    ensures |r| == |tasks|
    ensures forall i | 0 <= i < |tasks| :: r[i] == TaskView(tasks[i].isEnabled, tasks[i].lastRunResult)
  {
    seq(|tasks|, i reads tasks requires 0 <= i < |tasks| =>
      TaskView(tasks[i].isEnabled, tasks[i].lastRunResult))
  }

  /** string.Equals(result, "Failure", OrdinalIgnoreCase); a missing result is not one. */
  predicate IsFailedResult(result: Option<string>)
  {
    result.Some? && EqualsIgnoreCase(result.value, TaskRunResult.Failure.Name())
  }

  predicate IsEnabled(v: TaskView) { v.enabled }
  predicate IsDisabled(v: TaskView) { !v.enabled }
  predicate LastRunFailed(v: TaskView) { IsFailedResult(v.lastRunResult) }

  datatype TaskSummary = TaskSummary(total: int, enabled: int, disabled: int, failedLastRun: int)

  /** Disabled is the total less the enabled, so the two always add up. */
  function BuildTaskSummary(server: Server): (r: TaskSummary)
    reads server, server.scheduledTasks
    ensures r.total == |server.scheduledTasks|
    ensures 0 <= r.enabled && 0 <= r.disabled && r.enabled + r.disabled == r.total
    ensures 0 <= r.failedLastRun <= r.total
  {
    var views := TaskViews(server.scheduledTasks);
    var enabled := |Filter(views, IsEnabled)|;
    TaskSummary(|views|, enabled, |views| - enabled, |Filter(views, LastRunFailed)|)
  }

  /** The subtraction counts exactly the scheduled tasks that are not enabled. */
  lemma DisabledCountsDisabledTasks(server: Server)
    ensures BuildTaskSummary(server).disabled ==
            |Filter(TaskViews(server.scheduledTasks), IsDisabled)|
  {
    FilterComplement(TaskViews(server.scheduledTasks), IsEnabled, IsDisabled);
  }

  /** A task whose recorded last result is a failure, in any letter case, is counted. */
  lemma FailedTaskIsCounted(server: Server, k: int)
    requires 0 <= k < |server.scheduledTasks|
    requires IsFailedResult(server.scheduledTasks[k].lastRunResult)
    ensures BuildTaskSummary(server).failedLastRun >= 1
  {
    var views := TaskViews(server.scheduledTasks);
    assert LastRunFailed(views[k]);
    assert views[k] in Filter(views, LastRunFailed);
  }

  predicate IsStarted(state: string) { EqualsIgnoreCase(state, "Started") }

  predicate PoolStopped(p: AppPool) { !IsStarted(p.state) }
  predicate PoolStarted(p: AppPool) { IsStarted(p.state) }

  /** Not started, or last answered with an HTTP status of 400 or more. */
  predicate SiteUnhealthy(s: IisSite)
  {
    !IsStarted(s.status) || (s.lastHttpStatus.Some? && s.lastHttpStatus.value >= 400)
  }

  /** Started, and either never probed or last answered below 400. */
  predicate SiteHealthy(s: IisSite)
  {
    IsStarted(s.status) && (s.lastHttpStatus.None? || s.lastHttpStatus.value < 400)
  }

  datatype IisSummary = IisSummary(appPools: int, sites: int, stoppedAppPools: int, unhealthySites: int)

  function BuildIisSummary(server: Server): (r: IisSummary)
    reads server
    ensures r.appPools == |server.appPools| && r.sites == |server.iisSites|
    ensures 0 <= r.stoppedAppPools <= r.appPools
    ensures 0 <= r.unhealthySites <= r.sites
  {
    IisSummary(|server.appPools|, |server.iisSites|,
               |Filter(server.appPools, PoolStopped)|, |Filter(server.iisSites, SiteUnhealthy)|)
  }

  /** Every pool is either counted stopped or started, and every site either
      unhealthy or healthy. */
  lemma IisCountsSplit(server: Server)
    ensures BuildIisSummary(server).stoppedAppPools + |Filter(server.appPools, PoolStarted)| ==
            |server.appPools|
    ensures BuildIisSummary(server).unhealthySites + |Filter(server.iisSites, SiteHealthy)| ==
            |server.iisSites|
  {
    FilterComplement(server.appPools, PoolStopped, PoolStarted);
    FilterComplement(server.iisSites, SiteUnhealthy, SiteHealthy);
  }

  // ---------------------------------------------------------------------------
  // The recent-alerts panel of the server detail.

  const RecentAlertLimit: nat := 5

  /** ListAlertsAsync(null, null, serverId, null): only the server filter is set. */
  function ServerAlerts(serverId: Id): Queries.AlertQuery
  {
    Queries.AlertQuery(None, None, Some(serverId), None)
  }

  /** OrderByDescending(CreatedAt).Take(5) over the listed alerts. */
  function RecentAlerts(items: seq<Alert>): (r: seq<Alert>)
    ensures |r| <= RecentAlertLimit && |r| <= |items|
  {
    Take(SortBy(items, Queries.CreatedAt, IntGe), RecentAlertLimit)
  }

  lemma RecentAlertsSound(items: seq<Alert>, a: Alert)
    requires a in RecentAlerts(items)
    ensures a in items
  {
    SortByMembers(items, Queries.CreatedAt, IntGe);
  }

  /** Newest first, and no repeats when the listing had none. */
  lemma RecentAlertsOrdered(items: seq<Alert>)
    ensures SortedBy(RecentAlerts(items), Queries.CreatedAt, IntGe)
    ensures Distinct(items) ==> Distinct(RecentAlerts(items))
  {
    IntOrdersArePreorders();
    SortBySorted(items, Queries.CreatedAt, IntGe);
    if Distinct(items) {
      SortByDistinct(items, Queries.CreatedAt, IntGe);
    }
    TakeKeepsOrder(SortBy(items, Queries.CreatedAt, IntGe), Queries.CreatedAt, IntGe, RecentAlertLimit);
  }

  /** No alert left out was created later than one shown. */
  lemma RecentAlertsTop(items: seq<Alert>, a: Alert, i: int)
    requires a in items && a !in RecentAlerts(items)
    requires 0 <= i < |RecentAlerts(items)|
    ensures RecentAlerts(items)[i].createdAt >= a.createdAt
  {
    IntOrdersArePreorders();
    TakeSortedIsTop(items, Queries.CreatedAt, IntGe, RecentAlertLimit, a, i);
  }

  /** The recent alerts of a listing that holds exactly the server's alerts
      among `pool`. */
  lemma RecentServerAlerts(items: seq<Alert>, pool: set<Alert>, serverId: Id)
    requires forall a | a in items :: a in pool && a.serverId == Some(serverId)
    requires forall a | a in pool && a.serverId == Some(serverId) :: a in items
    ensures forall a | a in RecentAlerts(items) :: a in pool && a.serverId == Some(serverId)
    ensures SortedBy(RecentAlerts(items), Queries.CreatedAt, IntGe)
    ensures forall a, i | a in pool && a.serverId == Some(serverId) && a !in RecentAlerts(items) &&
                          0 <= i < |RecentAlerts(items)| ::
              RecentAlerts(items)[i].createdAt >= a.createdAt
    ensures Distinct(items) ==> Distinct(RecentAlerts(items))
  {
    forall a | a in RecentAlerts(items) ensures a in items {
      RecentAlertsSound(items, a);
    }
    RecentAlertsOrdered(items);
    forall a, i | a in pool && a.serverId == Some(serverId) && a !in RecentAlerts(items) &&
                  0 <= i < |RecentAlerts(items)|
      ensures RecentAlerts(items)[i].createdAt >= a.createdAt
    {
      RecentAlertsTop(items, a, i);
    }
  }

  // ---------------------------------------------------------------------------
  // Role assignment at user creation.

  /** The assignments after AddRole with each role id in turn, the k-th
      assignment taking the k-th fresh id. */
  function Grant(held: seq<RoleAssignment>, userId: Id, roleIds: seq<Id>, assignmentIds: seq<Id>): seq<RoleAssignment>
    requires |assignmentIds| >= |roleIds|
  {
    if roleIds == [] then held
    else
      var n := |roleIds| - 1;
      Upsert(Grant(held, userId, roleIds[..n], assignmentIds), RoleOf,
             RoleAssignment(assignmentIds[n], userId, roleIds[n], None))
  }

  /** Granting one more role id is one more Upsert. */
  lemma GrantStep(held: seq<RoleAssignment>, userId: Id, roleIds: seq<Id>, assignmentIds: seq<Id>, i: int)
    requires |assignmentIds| >= |roleIds| && 0 <= i < |roleIds|
    ensures Grant(held, userId, roleIds[..i + 1], assignmentIds) ==
            Upsert(Grant(held, userId, roleIds[..i], assignmentIds), RoleOf,
                   RoleAssignment(assignmentIds[i], userId, roleIds[i], None))
  {
    assert roleIds[..i + 1][..i] == roleIds[..i];
  }

  /** Granting keeps at most one assignment per role. */
  lemma {:induction false} GrantUnique(held: seq<RoleAssignment>, userId: Id, roleIds: seq<Id>, assignmentIds: seq<Id>)
    requires |assignmentIds| >= |roleIds|
    requires UniqueKeys(held, RoleOf)
    ensures UniqueKeys(Grant(held, userId, roleIds, assignmentIds), RoleOf)
  {
    if roleIds != [] {
      var n := |roleIds| - 1;
      GrantUnique(held, userId, roleIds[..n], assignmentIds);
      UpsertUnique(Grant(held, userId, roleIds[..n], assignmentIds), RoleOf,
                   RoleAssignment(assignmentIds[n], userId, roleIds[n], None));
    }
  }

  /** Every requested role ends up assigned. */
  lemma {:induction false} GrantCovers(held: seq<RoleAssignment>, userId: Id, roleIds: seq<Id>, assignmentIds: seq<Id>, i: int)
    requires |assignmentIds| >= |roleIds|
    requires 0 <= i < |roleIds|
    ensures HasKey(Grant(held, userId, roleIds, assignmentIds), RoleOf, roleIds[i])
  {
    var n := |roleIds| - 1;
    var prev := Grant(held, userId, roleIds[..n], assignmentIds);
    var r := Grant(held, userId, roleIds, assignmentIds);
    if roleIds[i] == roleIds[n] {
      assert RoleOf(r[|r| - 1]) == roleIds[i];
    } else {
      assert roleIds[..n][i] == roleIds[i];
      GrantCovers(held, userId, roleIds[..n], assignmentIds, i);
      UpsertKeepsKey(prev, RoleOf, RoleAssignment(assignmentIds[n], userId, roleIds[n], None), roleIds[i]);
    }
  }

  /** Nothing is assigned beyond what was held and what was requested, and
      every new assignment is for this user and unscoped. */
  lemma {:induction false} GrantOnlyRequested(held: seq<RoleAssignment>, userId: Id, roleIds: seq<Id>, assignmentIds: seq<Id>, a: RoleAssignment)
    requires |assignmentIds| >= |roleIds|
    requires a in Grant(held, userId, roleIds, assignmentIds)
    ensures a in held || (a.userId == userId && a.roleId in roleIds && a.scope == None)
  {
    if roleIds != [] {
      var n := |roleIds| - 1;
      var prev := Grant(held, userId, roleIds[..n], assignmentIds);
      var x := RoleAssignment(assignmentIds[n], userId, roleIds[n], None);
      UpsertMembers(prev, RoleOf, x, a);
      if a != x {
        GrantOnlyRequested(held, userId, roleIds[..n], assignmentIds, a);
        if a !in held {
          var m :| 0 <= m < n && roleIds[..n][m] == a.roleId;
          assert roleIds[m] == a.roleId;
        }
      }
    }
  }

  /** The loop over the requested role ids: AddRole with a new unscoped
      assignment for each, in order. */
  method AssignRoles(user: User, roleIds: seq<Id>, assignmentIds: seq<Id>)
    requires |assignmentIds| >= |roleIds|
    modifies user`roleAssignments
    ensures user.roleAssignments == Grant(old(user.roleAssignments), user.id, roleIds, assignmentIds)
    ensures old(user.Valid()) ==> user.Valid()
  {
    ghost var held := user.roleAssignments;
    var i := 0;
    while i < |roleIds|
      invariant 0 <= i <= |roleIds|
      invariant user.roleAssignments == Grant(held, user.id, roleIds[..i], assignmentIds)
      invariant old(user.Valid()) ==> user.Valid()
    {
      GrantStep(held, user.id, roleIds, assignmentIds, i);
      user.AddRole(RoleAssignment(assignmentIds[i], user.id, roleIds[i], None));
      i := i + 1;
    }
    assert roleIds[..i] == roleIds;
  }

  // ---------------------------------------------------------------------------

  /** The operations of the application service that change stored state. The
      current time and new ids, which the service draws from the clock and from
      Guid.NewGuid, are parameters. */
  class MonitoringService {
    const repository: Store.Repository

    constructor(repository: Store.Repository)
      ensures this.repository == repository
    {
      this.repository := repository;
    }

    /** The stored alert under `alertId`, if any: what Acknowledge and Close change. */
    function AlertFrame(alertId: Id): set<Alert>
      reads repository`alerts
    {
      if alertId in repository.alerts then {repository.alerts[alertId]} else {}
    }

    function CollectorFrame(collectorId: Id): set<Collector>
      reads repository`collectors
    {
      if collectorId in repository.collectors then {repository.collectors[collectorId]} else {}
    }

    /** Stores a new alert that is open and unresolved. */
    method CreateAlert(id: Id, serverId: Option<Id>, sourceType: string, sourceId: Option<Id>,
                       alertType: string, severity: string, message: string, now: Time)
      returns (alert: Alert)
      modifies repository`alerts
      ensures fresh(alert)
      ensures alert.id == id && alert.serverId == serverId && alert.sourceType == sourceType
      ensures alert.sourceId == sourceId && alert.alertType == alertType && alert.createdAt == now
      ensures alert.severity == ParseAlertSeverity(severity) && alert.message == message
      ensures alert.Lifecycle() == Resolution(StatusOpen, None)
      ensures alert.notifications == [] && alert.relatedLogIds == [] && alert.Valid()
      ensures repository.alerts == old(repository.alerts)[id := alert]
      ensures old(repository.Valid()) ==> repository.Valid()
    {
      alert := new Alert(id, serverId, sourceType, sourceId, alertType, ParseAlertSeverity(severity),
                         StatusOpen, message, now);
      repository.AddAlert(alert);
    }

    /** Unknown ids change nothing; otherwise the alert becomes acknowledged,
        keeps its resolution time, and is written back. */
    method AcknowledgeAlert(alertId: Id)
      modifies repository`alerts, AlertFrame(alertId)`status, AlertFrame(alertId)`resolvedAt
      ensures alertId !in old(repository.alerts) ==> repository.alerts == old(repository.alerts)
      ensures alertId in old(repository.alerts) ==>
                var a := old(repository.alerts[alertId]);
                a.Lifecycle() == Acknowledged(old(a.Lifecycle())) &&
                repository.alerts == old(repository.alerts)[a.id := a]
      ensures old(repository.Valid()) ==> repository.Valid() && repository.alerts == old(repository.alerts)
    {
      var alert := repository.GetAlert(alertId);
      if alert == null {
        return;
      }
      alert.UpdateStatus(StatusAcknowledged, alert.resolvedAt);
      repository.UpdateAlert(alert);
    }

    /** Unknown ids change nothing; otherwise the alert becomes closed,
        resolved now, and is written back. */
    method CloseAlert(alertId: Id, now: Time)
      modifies repository`alerts, AlertFrame(alertId)`status, AlertFrame(alertId)`resolvedAt
      ensures alertId !in old(repository.alerts) ==> repository.alerts == old(repository.alerts)
      ensures alertId in old(repository.alerts) ==>
                var a := old(repository.alerts[alertId]);
                a.Lifecycle() == Closed(old(a.Lifecycle()), now) &&
                repository.alerts == old(repository.alerts)[a.id := a]
      ensures old(repository.Valid()) ==> repository.Valid() && repository.alerts == old(repository.alerts)
    {
      var alert := repository.GetAlert(alertId);
      if alert == null {
        return;
      }
      alert.UpdateStatus(StatusClosed, Some(now));
      repository.UpdateAlert(alert);
    }

    /** Unknown collectors change nothing; otherwise the collector was last
        seen at the reported time, or now when none is reported. */
    method RecordCollectorHeartbeat(collectorId: Id, lastSeen: Option<Time>, now: Time)
      modifies repository`collectors, CollectorFrame(collectorId)`lastSeen
      ensures collectorId !in old(repository.collectors) ==>
                repository.collectors == old(repository.collectors)
      ensures collectorId in old(repository.collectors) ==>
                var c := old(repository.collectors[collectorId]);
                c.lastSeen == OrElse(lastSeen, Some(now)) &&
                repository.collectors == old(repository.collectors)[c.id := c]
      ensures old(repository.Valid()) ==>
                repository.Valid() && repository.collectors == old(repository.collectors)
    {
      var collector := repository.GetCollector(collectorId);
      if collector == null {
        return;
      }
      var seen := if lastSeen.Some? then lastSeen.value else now;
      collector.UpdateLastSeen(seen);
      repository.UpsertCollector(collector);
    }

    /** Creates the user, assigns each requested role through AddRole, and
        stores the user. */
    method CreateUser(id: Id, username: string, email: string, displayName: Option<string>,
                      roleIds: Option<seq<Id>>, assignmentIds: seq<Id>, now: Time)
      returns (user: User)
      requires roleIds.Some? ==> |assignmentIds| >= |roleIds.value|
      modifies repository`users
      ensures fresh(user)
      ensures user.id == id && user.username == username && user.email == email
      ensures user.displayName == displayName && user.createdAt == now
      ensures roleIds.None? ==> user.roleAssignments == []
      ensures roleIds.Some? ==> user.roleAssignments == Grant([], id, roleIds.value, assignmentIds)
      ensures user.Valid()
      ensures roleIds.Some? ==>
                forall i | 0 <= i < |roleIds.value| :: HasKey(user.roleAssignments, RoleOf, roleIds.value[i])
      ensures forall a | a in user.roleAssignments ::
                a.userId == id && a.scope == None && roleIds.Some? && a.roleId in roleIds.value
      ensures repository.users == old(repository.users)[id := user]
      ensures old(repository.Valid()) ==> repository.Valid()
    {
      user := new User(id, username, email, now);
      user.UpdateProfile(displayName, email);
      if roleIds.Some? {
        AssignRoles(user, roleIds.value, assignmentIds);
        forall k | 0 <= k < |roleIds.value| ensures HasKey(user.roleAssignments, RoleOf, roleIds.value[k]) {
          GrantCovers([], id, roleIds.value, assignmentIds, k);
        }
        forall a | a in user.roleAssignments ensures a.userId == id && a.scope == None && a.roleId in roleIds.value {
          GrantOnlyRequested([], id, roleIds.value, assignmentIds, a);
        }
      }
      repository.AddUser(user);
    }

    /** The five newest alerts of the server, newest first. */
    method LoadRecentAlerts(serverId: Id) returns (r: seq<Alert>)
      ensures |r| <= RecentAlertLimit
      ensures forall a | a in r :: a in repository.alerts.Values && a.serverId == Some(serverId)
      ensures SortedBy(r, Queries.CreatedAt, IntGe)
      ensures forall a, i | a in repository.alerts.Values && a.serverId == Some(serverId) && a !in r && 0 <= i < |r| ::
                r[i].createdAt >= a.createdAt
      ensures repository.Valid() ==> Distinct(r)
    {
      var q := ServerAlerts(serverId);
      var listed := repository.ListAlerts(q);
      forall a | a in repository.alerts.Values && a.serverId == Some(serverId) ensures a in listed.items {
        assert Queries.AlertMatches(a, q);
      }
      r := RecentAlerts(listed.items);
      RecentServerAlerts(listed.items, repository.alerts.Values, serverId);
    }
  }
}

=== FILE: store.dfy ===
/** The in-memory store: one dictionary per entity kind, keyed by id. Reads
    enumerate a dictionary's values and run the corresponding query; writes
    overwrite by key; deletes cascade over the dictionaries of owned entities. */
module Store {
  import opened Common
  import opened Lists
  import opened Alerting
  import opened Inventory
  import opened Admin
  import Queries

  // ---------------------------------------------------------------------------
  // Dictionaries.

  /** Every entry is stored under its own id. */
  ghost predicate KeyedBy<K, V>(m: map<K, V>, key: V -> K)
  {
    forall k | k in m :: key(m[k]) == k
  }

  /** The dictionary without the entries whose owner is `owner`. */
  function Purge<K, V>(m: map<K, V>, ownerOf: V -> Id, owner: Id): (r: map<K, V>)
    ensures forall k | k in m :: k in r <==> ownerOf(m[k]) != owner
    ensures forall k | k in r :: k in m && r[k] == m[k]
  {
    map k | k in m && ownerOf(m[k]) != owner :: m[k]
  }

  /** Removing entries keeps every remaining entry under its own id. */
  lemma PurgeKeyed<K, V>(m: map<K, V>, key: V -> K, ownerOf: V -> Id, owner: Id)
    requires KeyedBy(m, key)
    ensures KeyedBy(Purge(m, ownerOf, owner), key)
  {
  }

  /** `foreach (var x in m.Values.Where(x => owner(x) == id).ToList()) m.TryRemove(x.Id)`. */
  method RemoveOwned<K, V>(m: map<K, V>, ownerOf: V -> Id, owner: Id) returns (r: map<K, V>)
    ensures r == Purge(m, ownerOf, owner)
  {
    r := m;
    var pending := m.Keys;
    while pending != {}
      invariant pending <= m.Keys
      invariant forall k | k in r :: k in m && r[k] == m[k]
      invariant forall k | k in m :: k in r <==> (k in pending || ownerOf(m[k]) != owner)
      decreases pending
    {
      var k :| k in pending;
      if ownerOf(m[k]) == owner {
        r := r - {k};
      }
      pending := pending - {k};
    }
  }

  /** `keys` lists every key of `m` exactly once, in some order. */
  ghost predicate Enumerates<K, V>(keys: seq<K>, m: map<K, V>)
  {
    Distinct(keys) &&
    (forall i | 0 <= i < |keys| :: keys[i] in m) &&
    (forall k | k in m :: k in keys)
  }

  /** The values at `keys`, in that order. */
  function ValuesOf<K, V>(m: map<K, V>, keys: seq<K>): (r: seq<V>)
    requires forall i | 0 <= i < |keys| :: keys[i] in m
    ensures |r| == |keys|
    ensures forall i | 0 <= i < |keys| :: r[i] == m[keys[i]]
  {
    seq(|keys|, i requires 0 <= i < |keys| => m[keys[i]])
  }

  /** Enumerating a dictionary's keys (`Values` on a dictionary): each key
      once, in an order the model leaves open. */
  method EnumerateKeys<K, V>(m: map<K, V>) returns (keys: seq<K>)
    ensures Enumerates(keys, m)
  {
    keys := [];
    var pending := m.Keys;
    while pending != {}
      invariant pending <= m.Keys
      invariant Distinct(keys)
      invariant forall i | 0 <= i < |keys| :: keys[i] in m && keys[i] !in pending
      invariant forall k | k in m && k !in pending :: k in keys
      decreases pending
    {
      var k :| k in pending;
      keys := keys + [k];
      pending := pending - {k};
    }
  }

  /** An enumeration yields every stored value and nothing else. */
  lemma ValuesOfMembers<K, V>(m: map<K, V>, keys: seq<K>)
    requires Enumerates(keys, m)
    ensures forall v :: v in ValuesOf(m, keys) <==> v in m.Values
  {
    var vs := ValuesOf(m, keys);
    forall v ensures v in vs <==> v in m.Values {
      if v in m.Values {
        var k :| k in m && m[k] == v;
        var i :| 0 <= i < |keys| && keys[i] == k;
        assert vs[i] == v;
      }
    }
  }

  /** When every entry sits under its own id, an enumeration repeats no value. */
  lemma KeyedValuesDistinct<K, V>(m: map<K, V>, key: V -> K, keys: seq<K>)
    requires KeyedBy(m, key) && Enumerates(keys, m)
    ensures Distinct(ValuesOf(m, keys))
  {
    var vs := ValuesOf(m, keys);
    forall i, j | 0 <= i < j < |vs| ensures vs[i] != vs[j] {
      assert key(vs[i]) == keys[i] && key(vs[j]) == keys[j];
    }
  }

  // Ids and owners of the stored entities.

  function ServerKey(s: Server): Id { s.id }
  function EventKey(e: ServiceEvent): Id { e.id }
  function RunKey(r: TaskRun): Id { r.id }
  function EntryKey(e: LogEntry): Id { e.id }
  function MetricKey(p: MetricPoint): int { p.id }
  function AlertKey(a: Alert): Id { a.id }
  function NotificationKey(n: Notification): Id { n.id }
  function CollectorKey(c: Collector): Id { c.id }
  function UserKey(u: User): Id { u.id }
  function WindowKey(w: MaintenanceWindow): Id { w.id }
  function PatternKey(p: LogPattern): Id { p.id }
  function RoleKey(r: Role): Id { r.id }
  function ChannelKey(c: ChannelConfig): Id { c.id }

  function ServiceServer(s: MonitoredService): Id { s.serverId }
  function TaskServer(t: ScheduledTask): Id { t.serverId }
  function AppPoolServer(p: AppPool): Id { p.serverId }
  function IisSiteServer(s: IisSite): Id { s.serverId }
  function LogFileServer(f: LogFile): Id { f.serverId }
  function EntryServer(e: LogEntry): Id { e.serverId }
  function MetricServer(p: MetricPoint): Id { p.serverId }
  function RunTask(r: TaskRun): Id { r.scheduledTaskId }

  class Repository {
    var servers: map<Id, Server>
    var services: map<Id, MonitoredService>
    var serviceEvents: map<Id, ServiceEvent>
    var tasks: map<Id, ScheduledTask>
    var taskRuns: map<Id, TaskRun>
    var appPools: map<Id, AppPool>
    var iisSites: map<Id, IisSite>
    var logFiles: map<Id, LogFile>
    var logEntries: map<Id, LogEntry>
    var metricPoints: map<int, MetricPoint>
    var alerts: map<Id, Alert>
    var notifications: map<Id, Notification>
    var collectors: map<Id, Collector>
    var users: map<Id, User>
    var maintenanceWindows: map<Id, MaintenanceWindow>
    var logPatterns: map<Id, LogPattern>
    var roles: map<Id, Role>
    var channels: map<Id, ChannelConfig>

    /** Every dictionary holds each entity under its own id. */
    ghost predicate Valid()
      reads this
    {
      InventoryKeyed() && LogsKeyed() && RestKeyed() && CatalogKeyed()
    }

    /** The server dictionary and those of the resources a server owns. */
    ghost predicate InventoryKeyed()
      reads this`servers, this`services, this`tasks, this`appPools, this`iisSites
    {
      KeyedBy(servers, ServerKey) && KeyedBy(services, ServiceId) &&
      KeyedBy(tasks, ScheduledTaskId) && KeyedBy(appPools, AppPoolId) &&
      KeyedBy(iisSites, IisSiteId)
    }

    /** The dictionaries of a server's logs and metrics. */
    ghost predicate LogsKeyed()
      reads this`logFiles, this`logEntries, this`metricPoints
    {
      KeyedBy(logFiles, LogFileId) && KeyedBy(logEntries, EntryKey) && KeyedBy(metricPoints, MetricKey)
    }

    ghost predicate RestKeyed()
      reads this`serviceEvents, this`taskRuns, this`alerts, this`notifications,
            this`collectors, this`users, this`maintenanceWindows
    {
      KeyedBy(serviceEvents, EventKey) && KeyedBy(taskRuns, RunKey) &&
      KeyedBy(alerts, AlertKey) && KeyedBy(notifications, NotificationKey) &&
      KeyedBy(collectors, CollectorKey) && KeyedBy(users, UserKey) &&
      KeyedBy(maintenanceWindows, WindowKey)
    }

    /** The dictionaries of log patterns, roles and notification channels. */
    ghost predicate CatalogKeyed()
      reads this`logPatterns, this`roles, this`channels
    {
      KeyedBy(logPatterns, PatternKey) && KeyedBy(roles, RoleKey) && KeyedBy(channels, ChannelKey)
    }

    /** An empty store. */
    constructor()
      ensures servers == map[] && services == map[] && serviceEvents == map[]
      ensures tasks == map[] && taskRuns == map[] && appPools == map[] && iisSites == map[]
      ensures logFiles == map[] && logEntries == map[] && metricPoints == map[]
      ensures alerts == map[] && notifications == map[] && collectors == map[]
      ensures users == map[] && maintenanceWindows == map[]
      ensures logPatterns == map[] && roles == map[] && channels == map[]
      ensures Valid()
    {
      servers := map[];
      services := map[];
      serviceEvents := map[];
      tasks := map[];
      taskRuns := map[];
      appPools := map[];
      iisSites := map[];
      logFiles := map[];
      logEntries := map[];
      metricPoints := map[];
      alerts := map[];
      notifications := map[];
      collectors := map[];
      users := map[];
      maintenanceWindows := map[];
      logPatterns := map[];
      roles := map[];
      channels := map[];
    }

    // -------------------------------------------------------------------------
    // Servers.

    method ListServers(environment: Option<string>, search: Option<string>, page: int, pageSize: int,
                       collation: (string, string) -> bool)
      returns (r: Queries.PagedResult<Server>)
      ensures exists keys :: Enumerates(keys, servers) &&
                r == Queries.ListServers(ValuesOf(servers, keys), environment, search, page, pageSize, collation)
      ensures |r.items| <= PageSize(pageSize) && |r.items| <= r.total <= |servers|
      ensures forall s | s in r.items ::
                s in servers.Values &&
                Queries.ServerMatches(s, Queries.EnvironmentFilter(environment), Queries.TextFilter(search))
      ensures TotalPreorder(collation) ==> SortedBy(r.items, Queries.Hostname, collation)
      ensures Valid() ==> Distinct(r.items)
    {
      var keys := EnumerateKeys(servers);
      var vs := ValuesOf(servers, keys);
      r := Queries.ListServers(vs, environment, search, page, pageSize, collation);
      Queries.ListServersSound(vs, environment, search, page, pageSize, collation);
      ValuesOfMembers(servers, keys);
      if Valid() {
        KeyedValuesDistinct(servers, ServerKey, keys);
      }
      assert |keys| == |servers| by {
        DistinctCardinality(keys, servers);
      }
    }

    method GetServer(serverId: Id) returns (r: Server?)
      ensures serverId in servers ==> r == servers[serverId]
      ensures serverId !in servers ==> r == null
      ensures Valid() && r != null ==> r.id == serverId
    {
      r := if serverId in servers then servers[serverId] else null;
    }

    method AddServer(server: Server) returns (r: Server)
      modifies this`servers
      ensures servers == old(servers)[server.id := server] && r == server
      ensures old(Valid()) ==> Valid()
    {
      servers := servers[server.id := server];
      r := server;
    }

    method UpdateServer(server: Server)
      modifies this`servers
      ensures servers == old(servers)[server.id := server]
      ensures old(Valid()) ==> Valid()
    {
      servers := servers[server.id := server];
    }

    /** Removes the server and everything it owns; task runs, service events,
        alerts and notifications stay. */
    method DeleteServer(serverId: Id)
      modifies this`servers, this`services, this`tasks, this`appPools, this`iisSites,
               this`logFiles, this`logEntries, this`metricPoints
      ensures servers == old(servers) - {serverId}
      ensures services == Purge(old(services), ServiceServer, serverId)
      ensures tasks == Purge(old(tasks), TaskServer, serverId)
      ensures appPools == Purge(old(appPools), AppPoolServer, serverId)
      ensures iisSites == Purge(old(iisSites), IisSiteServer, serverId)
      ensures logFiles == Purge(old(logFiles), LogFileServer, serverId)
      ensures logEntries == Purge(old(logEntries), EntryServer, serverId)
      ensures metricPoints == Purge(old(metricPoints), MetricServer, serverId)
      ensures old(Valid()) ==> Valid()
    {
      Cascade(serverId);
    }

    /** The dictionary updates of a server deletion, with the keyed invariant
        stated for the two groups of dictionaries they touch. */
    method Cascade(serverId: Id)
      modifies this`servers, this`services, this`tasks, this`appPools, this`iisSites,
               this`logFiles, this`logEntries, this`metricPoints
      ensures servers == old(servers) - {serverId}
      ensures services == Purge(old(services), ServiceServer, serverId)
      ensures tasks == Purge(old(tasks), TaskServer, serverId)
      ensures appPools == Purge(old(appPools), AppPoolServer, serverId)
      ensures iisSites == Purge(old(iisSites), IisSiteServer, serverId)
      ensures logFiles == Purge(old(logFiles), LogFileServer, serverId)
      ensures logEntries == Purge(old(logEntries), EntryServer, serverId)
      ensures metricPoints == Purge(old(metricPoints), MetricServer, serverId)
      ensures old(InventoryKeyed()) ==> InventoryKeyed()
      ensures old(LogsKeyed()) ==> LogsKeyed()
    {
      DeleteServerInventory(serverId);
      DeleteServerLogs(serverId);
    }

    /** The first half of the cascade: the server, its services, tasks, pools and sites. */
    method DeleteServerInventory(serverId: Id)
      modifies this`servers, this`services, this`tasks, this`appPools, this`iisSites
      ensures servers == old(servers) - {serverId}
      ensures services == Purge(old(services), ServiceServer, serverId)
      ensures tasks == Purge(old(tasks), TaskServer, serverId)
      ensures appPools == Purge(old(appPools), AppPoolServer, serverId)
      ensures iisSites == Purge(old(iisSites), IisSiteServer, serverId)
      ensures old(InventoryKeyed()) ==> InventoryKeyed()
    {
      if InventoryKeyed() {
        PurgeKeyed(services, ServiceId, ServiceServer, serverId);
        PurgeKeyed(tasks, ScheduledTaskId, TaskServer, serverId);
        PurgeKeyed(appPools, AppPoolId, AppPoolServer, serverId);
        PurgeKeyed(iisSites, IisSiteId, IisSiteServer, serverId);
      }
      servers := servers - {serverId};
      services := RemoveOwned(services, ServiceServer, serverId);
      tasks := RemoveOwned(tasks, TaskServer, serverId);
      appPools := RemoveOwned(appPools, AppPoolServer, serverId);
      iisSites := RemoveOwned(iisSites, IisSiteServer, serverId);
    }

    /** The second half of the cascade: log files, log entries and metric points. */
    method DeleteServerLogs(serverId: Id)
      modifies this`logFiles, this`logEntries, this`metricPoints
      ensures logFiles == Purge(old(logFiles), LogFileServer, serverId)
      ensures logEntries == Purge(old(logEntries), EntryServer, serverId)
      ensures metricPoints == Purge(old(metricPoints), MetricServer, serverId)
      ensures old(LogsKeyed()) ==> LogsKeyed()
    {
      if LogsKeyed() {
        PurgeKeyed(logFiles, LogFileId, LogFileServer, serverId);
        PurgeKeyed(logEntries, EntryKey, EntryServer, serverId);
        PurgeKeyed(metricPoints, MetricKey, MetricServer, serverId);
      }
      logFiles := RemoveOwned(logFiles, LogFileServer, serverId);
      logEntries := RemoveOwned(logEntries, EntryServer, serverId);
      metricPoints := RemoveOwned(metricPoints, MetricServer, serverId);
    }

    // -------------------------------------------------------------------------
    // Services, their events and scheduled tasks.

    /** The stored server with the given id, as a frame. */
    function ServerFrame(serverId: Id): set<Server>
      reads this`servers
    {
      if serverId in servers then {servers[serverId]} else {}
    }

    /** Stores the service and, when its server is stored, adds it to that server. */
    method AddService(service: MonitoredService)
      modifies this`services, ServerFrame(service.serverId)`services
      ensures services == old(services)[service.id := service]
      ensures service.serverId in servers ==>
                servers[service.serverId].services ==
                Upsert(old(servers[service.serverId].services), ServiceId, service)
      ensures old(Valid()) ==> Valid()
    {
      services := services[service.id := service];
      if service.serverId in servers {
        servers[service.serverId].AddService(service);
      }
    }

    /** The server owning the stored service, as a frame. */
    function ServiceOwnerFrame(serviceId: Id): set<Server>
      reads this`servers, this`services
    {
      if serviceId in services then ServerFrame(services[serviceId].serverId) else {}
    }

    /** Unstores the service and, when its server is stored, drops it from that server. */
    method RemoveService(serviceId: Id)
      modifies this`services, ServiceOwnerFrame(serviceId)`services
      ensures services == old(services) - {serviceId}
      ensures serviceId in old(services) && old(services[serviceId].serverId) in servers ==>
                var s := servers[old(services[serviceId].serverId)];
                s.services == RemoveKey(old(s.services), ServiceId, serviceId)
      ensures old(Valid()) ==> Valid()
    {
      if serviceId in services {
        var service := services[serviceId];
        services := services - {serviceId};
        if service.serverId in servers {
          servers[service.serverId].RemoveService(serviceId);
        }
      }
    }

    method ListServiceEvents(serviceId: Id, limit: int) returns (r: seq<ServiceEvent>)
      ensures exists keys :: Enumerates(keys, serviceEvents) &&
                r == Queries.ListServiceEvents(ValuesOf(serviceEvents, keys), serviceId, limit)
      ensures |r| <= Max(limit, 1)
      ensures forall e | e in r :: e in serviceEvents.Values && e.serviceId == serviceId
      ensures SortedBy(r, Queries.EventTime, IntGe)
      ensures forall e, i | e in serviceEvents.Values && e.serviceId == serviceId && e !in r && 0 <= i < |r| ::
                r[i].eventTime >= e.eventTime
    {
      var keys := EnumerateKeys(serviceEvents);
      var vs := ValuesOf(serviceEvents, keys);
      r := Queries.ListServiceEvents(vs, serviceId, limit);
      ValuesOfMembers(serviceEvents, keys);
      forall e | e in r ensures e in serviceEvents.Values && e.serviceId == serviceId {
        Queries.ListServiceEventsSound(vs, serviceId, limit, e);
      }
      Queries.ListServiceEventsOrdered(vs, serviceId, limit);
      forall e, i | e in serviceEvents.Values && e.serviceId == serviceId && e !in r && 0 <= i < |r|
        ensures r[i].eventTime >= e.eventTime
      {
        Queries.ListServiceEventsTop(vs, serviceId, limit, e, i);
      }
    }

    /** Stores the scheduled task and, when its server is stored, adds it to that server. */
    method AddScheduledTask(task: ScheduledTask)
      modifies this`tasks, ServerFrame(task.serverId)`scheduledTasks
      ensures tasks == old(tasks)[task.id := task]
      ensures task.serverId in servers ==>
                servers[task.serverId].scheduledTasks ==
                Upsert(old(servers[task.serverId].scheduledTasks), ScheduledTaskId, task)
      ensures old(Valid()) ==> Valid()
    {
      tasks := tasks[task.id := task];
      if task.serverId in servers {
        servers[task.serverId].AddScheduledTask(task);
      }
    }

    /** The server owning the stored task, as a frame. */
    function TaskOwnerFrame(taskId: Id): set<Server>
      reads this`servers, this`tasks
    {
      if taskId in tasks then ServerFrame(tasks[taskId].serverId) else {}
    }

    /** Unstores the scheduled task, drops it from its server, and removes all of its runs
        (the runs go even when the scheduled task was not stored). */
    method RemoveScheduledTask(taskId: Id)
      modifies this`tasks, this`taskRuns, TaskOwnerFrame(taskId)`scheduledTasks
      ensures tasks == old(tasks) - {taskId}
      ensures taskRuns == Purge(old(taskRuns), RunTask, taskId)
      ensures taskId in old(tasks) && old(tasks[taskId].serverId) in servers ==>
                var s := servers[old(tasks[taskId].serverId)];
                s.scheduledTasks == RemoveKey(old(s.scheduledTasks), ScheduledTaskId, taskId)
      ensures old(Valid()) ==> Valid()
    {
      if taskId in tasks {
        var task := tasks[taskId];
        if task.serverId in servers {
          servers[task.serverId].RemoveScheduledTask(taskId);
        }
      }
      DropTask(taskId);
    }

    /** The dictionary updates of a task removal: the scheduled task and its run history. */
    method DropTask(taskId: Id)
      modifies this`tasks, this`taskRuns
      ensures tasks == old(tasks) - {taskId}
      ensures taskRuns == Purge(old(taskRuns), RunTask, taskId)
      ensures old(KeyedBy(tasks, ScheduledTaskId)) ==> KeyedBy(tasks, ScheduledTaskId)
      ensures old(KeyedBy(taskRuns, RunKey)) ==> KeyedBy(taskRuns, RunKey)
    {
      if KeyedBy(taskRuns, RunKey) {
        PurgeKeyed(taskRuns, RunKey, RunTask, taskId);
      }
      tasks := tasks - {taskId};
      taskRuns := RemoveOwned(taskRuns, RunTask, taskId);
    }

    // -------------------------------------------------------------------------
    // Logs.

    method SearchLogs(q: Queries.LogQuery, page: int, pageSize: int) returns (r: Queries.PagedResult<LogEntry>)
      ensures exists keys :: Enumerates(keys, logEntries) &&
                r == Queries.SearchLogs(ValuesOf(logEntries, keys), q, page, pageSize)
      ensures |r.items| <= PageSize(pageSize) && |r.items| <= r.total <= |logEntries|
      ensures forall e | e in r.items :: e in logEntries.Values && Queries.LogMatches(e, q)
      ensures SortedBy(r.items, Queries.Timestamp, IntGe)
    {
      var keys := EnumerateKeys(logEntries);
      var vs := ValuesOf(logEntries, keys);
      r := Queries.SearchLogs(vs, q, page, pageSize);
      Queries.SearchLogsSound(vs, q, page, pageSize);
      ValuesOfMembers(logEntries, keys);
      assert |keys| == |logEntries| by {
        DistinctCardinality(keys, logEntries);
      }
    }

    // -------------------------------------------------------------------------
    // Alerts and notifications.

    method ListAlerts(q: Queries.AlertQuery) returns (r: Queries.PagedResult<Alert>)
      ensures exists keys :: Enumerates(keys, alerts) &&
                r == Queries.ListAlerts(ValuesOf(alerts, keys), q)
      ensures r.total == |r.items|
      ensures forall a | a in r.items :: a in alerts.Values && Queries.AlertMatches(a, q)
      ensures forall a | a in alerts.Values && Queries.AlertMatches(a, q) :: a in r.items
      ensures SortedBy(r.items, Queries.CreatedAt, IntGe)
      ensures Valid() ==> Distinct(r.items)
    {
      var keys := EnumerateKeys(alerts);
      var vs := ValuesOf(alerts, keys);
      r := Queries.ListAlerts(vs, q);
      ValuesOfMembers(alerts, keys);
      forall a | a in r.items ensures a in alerts.Values && Queries.AlertMatches(a, q) {
        Queries.ListAlertsSound(vs, q, a);
      }
      forall a | a in alerts.Values && Queries.AlertMatches(a, q) ensures a in r.items {
        Queries.ListAlertsComplete(vs, q, a);
      }
      Queries.ListAlertsOrdered(vs, q);
      if Valid() {
        KeyedValuesDistinct(alerts, AlertKey, keys);
      }
    }

    method GetAlert(alertId: Id) returns (r: Alert?)
      ensures alertId in alerts ==> r == alerts[alertId]
      ensures alertId !in alerts ==> r == null
      ensures Valid() && r != null ==> r.id == alertId
    {
      r := if alertId in alerts then alerts[alertId] else null;
    }

    /** Insert or overwrite: adding an alert whose id is stored replaces it. */
    method AddAlert(alert: Alert)
      modifies this`alerts
      ensures alerts == old(alerts)[alert.id := alert]
      ensures old(Valid()) ==> Valid()
    {
      alerts := alerts[alert.id := alert];
    }

    method UpdateAlert(alert: Alert)
      modifies this`alerts
      ensures alerts == old(alerts)[alert.id := alert]
      ensures old(Valid()) ==> Valid()
    {
      alerts := alerts[alert.id := alert];
    }

    /** Reads the notification dictionary, not the alert's own list. */
    method ListNotifications(alertId: Id) returns (r: seq<Notification>)
      ensures exists keys :: Enumerates(keys, notifications) &&
                r == Queries.ListNotifications(ValuesOf(notifications, keys), alertId)
      ensures forall n | n in r :: n in notifications.Values && n.alertId == alertId
      ensures forall n | n in notifications.Values && n.alertId == alertId :: n in r
      ensures forall i, j | 0 <= i < j < |r| :: Queries.OptGe(r[i].lastAttempt, r[j].lastAttempt)
    {
      var keys := EnumerateKeys(notifications);
      var vs := ValuesOf(notifications, keys);
      r := Queries.ListNotifications(vs, alertId);
      ValuesOfMembers(notifications, keys);
      Queries.ListNotificationsShape(vs, alertId);
      forall n | n in r ensures n in notifications.Values && n.alertId == alertId {
        Queries.ListNotificationsSound(vs, alertId, n);
      }
      forall n | n in notifications.Values && n.alertId == alertId ensures n in r {
        Queries.ListNotificationsComplete(vs, alertId, n);
      }
    }

    // -------------------------------------------------------------------------
    // Collectors, users and maintenance windows.

    method ListCollectors(collation: (string, string) -> bool) returns (r: seq<Collector>)
      ensures exists keys :: Enumerates(keys, collectors) &&
                r == Queries.ListCollectors(ValuesOf(collectors, keys), collation)
      ensures forall c | c in r :: c in collectors.Values
      ensures forall c | c in collectors.Values :: c in r
      ensures TotalPreorder(collation) ==> forall i, j | 0 <= i < j < |r| :: collation(r[i].name, r[j].name)
      ensures Valid() ==> Distinct(r)
    {
      var keys := EnumerateKeys(collectors);
      var vs := ValuesOf(collectors, keys);
      r := Queries.ListCollectors(vs, collation);
      ValuesOfMembers(collectors, keys);
      Queries.ListCollectorsSpec(vs, collation);
      if Valid() {
        KeyedValuesDistinct(collectors, CollectorKey, keys);
      }
    }

    method GetCollector(collectorId: Id) returns (r: Collector?)
      ensures collectorId in collectors ==> r == collectors[collectorId]
      ensures collectorId !in collectors ==> r == null
      ensures Valid() && r != null ==> r.id == collectorId
    {
      r := if collectorId in collectors then collectors[collectorId] else null;
    }

    method UpsertCollector(collector: Collector)
      modifies this`collectors
      ensures collectors == old(collectors)[collector.id := collector]
      ensures old(Valid()) ==> Valid()
    {
      collectors := collectors[collector.id := collector];
    }

    method AddUser(user: User)
      modifies this`users
      ensures users == old(users)[user.id := user]
      ensures old(Valid()) ==> Valid()
    {
      users := users[user.id := user];
    }

    method UpsertMaintenanceWindow(window: MaintenanceWindow)
      modifies this`maintenanceWindows
      ensures maintenanceWindows == old(maintenanceWindows)[window.id := window]
      ensures old(Valid()) ==> Valid()
    {
      maintenanceWindows := maintenanceWindows[window.id := window];
    }

    method UpsertLogPattern(pattern: LogPattern)
      modifies this`logPatterns
      ensures logPatterns == old(logPatterns)[pattern.id := pattern]
      ensures old(Valid()) ==> Valid()
    {
      logPatterns := logPatterns[pattern.id := pattern];
    }

    /** Stores the channel under its id and returns it. */
    method UpsertNotificationChannel(channel: ChannelConfig) returns (r: ChannelConfig)
      modifies this`channels
      ensures r == channel
      ensures channels == old(channels)[channel.id := channel]
      ensures old(Valid()) ==> Valid()
    {
      channels := channels[channel.id := channel];
      r := channel;
    }

    method AddRole(role: Role)
      modifies this`roles
      ensures roles == old(roles)[role.id := role]
      ensures old(Valid()) ==> Valid()
    {
      roles := roles[role.id := role];
    }
  }

  /** An enumeration is exactly as long as the dictionary is large. */
  lemma DistinctCardinality<K, V>(keys: seq<K>, m: map<K, V>)
    requires Enumerates(keys, m)
    ensures |keys| == |m|
  {
    var s := set i | 0 <= i < |keys| :: keys[i];
    assert s == m.Keys;
    DistinctSetSize(keys);
  }

  lemma {:induction false} DistinctSetSize<K>(keys: seq<K>)
    requires Distinct(keys)
    ensures |set i | 0 <= i < |keys| :: keys[i]| == |keys|
  {
    if keys != [] {
      var tail := keys[1..];
      assert Distinct(tail) by {
        forall i, j | 0 <= i < j < |tail| ensures tail[i] != tail[j] {
          assert tail[i] == keys[i + 1] && tail[j] == keys[j + 1];
        }
      }
      DistinctSetSize(tail);
      var s := set i | 0 <= i < |keys| :: keys[i];
      var t := set i | 0 <= i < |tail| :: tail[i];
      assert s == t + {keys[0]} by {
        forall x | x in s ensures x in t + {keys[0]} {
          var i :| 0 <= i < |keys| && keys[i] == x;
          if i > 0 {
            assert tail[i - 1] == x;
          }
        }
      }
      assert keys[0] !in t;
    }
  }
}
